=== FILE: README.md ===
# llm_structured_extract, modelled in Dafny

`llm_structured_extract` turns free text into a nested record by asking a
language model to fill in a Markdown *skeleton*: a heading outline whose
headings name the fields of a pydantic model. This project models the part
of the library that maps between heading outlines and record schemas, and
proves properties of it:

- **String utilities** (`Strings`): `normalize_title` and
  `clean_markdown_code_block`.
- **Markdown parser** (`Sections`, `Parser`). The parser splits an answer
  into a tree of sections with a stack of open headings (`_split_sections`).
  It finds a field's section by exact, normalised or substring title match
  (`_find_section_by_title`), and reads lists (`_parse_markdown_list`).
  `_map_sections_to_model` maps a model's fields over the tree, and `parse`
  skips the wrapping top-level section and validates the result.
- **Prompt field listing** (`Skeleton`, `Prompt`): `[id:NAME]` marker
  removal, the `- \`path\`: title` lines of `_extract_specs`, and the
  missing-skeleton error of `build_prompt`.
- **Code generator** (`GenNames`, `GenTree`, `GenCode`, `GenPython`).
  `ModelGenerator` parses the headings of a skeleton, reading `[id:NAME]`
  markers or deriving an identifier. It builds the node tree with
  `parent`/`children` links and names the classes. It then emits class code
  bottom-up without repeating a class, and writes the registered module
  (`generate_python_code`).
- **Schema registry** (`Registry`, `Order`): `_to_snake_case`,
  `register_schema`, the discover-once protocol of `_auto_discover_schemas`,
  `get_model` with its not-found message, `list_available_schemas` and
  `get_all_schemas`.
- **Structure visualiser** (`Visualizer`): `resolve_actual_type`,
  `print_markdown_structure` and `visualize_model`, with printing modelled as
  appending lines to an `Output` object.

`Schema` holds the datatypes that replace pydantic's runtime reflection:

- `ModelClass` carries a name, docstring, skeleton attribute and fields.
- `Field` carries a name, an optional `markdown_title`, an annotation and a
  default.
- `TypeExpr` is the annotation.
- `Value` is the parsed value.

`Text` holds Python's string built-ins (`strip`, `split`, `join`, `lower`,
`in`) on `seq<char>`. `Wrappers` holds `Option` and `Result`.

The source's imperative parts are modelled as imperative Dafny. Each method
is proved equal to a specification function, and the properties are proved
as lemmas about that function:

- `Sections.SplitSections`: the stack loop.
- `Parser.ParseMarkdownList`: the list loop.
- `GenTree.ParseMarkdown`: a `MarkdownNode` class whose `children` and
  `parent` fields are updated in place.
- `GenCode.GenerateModelCode`: threads `generated_classes` through the
  recursion.
- `Registry.SchemaRegistry`: a class holding the registry map and the
  discovered flag.
- `Visualizer.PrintMarkdownStructure` and `Visualizer.VisualizeModel`.

Where the project's own description and its code disagree, the model follows
the code:

- The description calls `clean_markdown_code_block` idempotent. The code is
  idempotent only when the cleaned text does not itself open a fence (`Strings.CleanIdempotent`,
  `Strings.CleanNotIdempotent`).
- `generate_python_code` means to remove the docstring of the decorated
  class. The substitution that would do so can never match, because the
  skeleton line has already been inserted between the header and the
  docstring, so the docstring stays (`GenPython.DocOpenMissesDecorated`).

## Model

| member | source | states |
|---|---|---|
| Strings.Nfkc | llm_structured_extract/utils/strings.py:17 | full-width forms fold to their ASCII counterparts character by character; length is kept |
| Strings.NfkcLower | llm_structured_extract/utils/strings.py:17-23 | width folding commutes with lower-casing and is idempotent |
| Strings.NormalizeTitle | llm_structured_extract/utils/strings.py:5-23 | the empty title normalises to `""`; the result has no leading whitespace, does not end in `: ： ? ？ . 。 ! ！` or whitespace, and is already lower-case |
| Strings.NormalizeTitleCanonical | llm_structured_extract/utils/strings.py:17-23 | the normal form is the stripped, trailer-trimmed, lower-cased width-folded title |
| Strings.NormalizeTitleFolded | llm_structured_extract/utils/strings.py:17-23 | titles equal after width folding and lower-casing normalise alike |
| Strings.NormalizeTitleCaseInsensitive | llm_structured_extract/utils/strings.py:23 | titles that differ only in letter case normalise alike |
| Strings.NormalizeTitleIgnoresTrailer | llm_structured_extract/utils/strings.py:20 | a trailing run of punctuation or whitespace does not change the normal form |
| Strings.NormalizeTitleIdempotent | llm_structured_extract/utils/strings.py:5-23 | normalising twice equals normalising once |
| Strings.DropClosingFence | llm_structured_extract/utils/strings.py:32 | `\n?```$` is removed exactly when the text ends in three backquotes, and nothing else is removed |
| Strings.CleanMarkdownCodeBlock | llm_structured_extract/utils/strings.py:25-36 | the result has no outer whitespace; text whose stripped form does not open a fence is returned stripped |
| Strings.CleanMarkdownBranch | llm_structured_extract/utils/strings.py:30-32 | proof step for `CleanFencedMarkdown`: unfolds the ```` ```markdown ```` branch of `CleanMarkdownCodeBlock` |
| Strings.CleanTaggedBranch | llm_structured_extract/utils/strings.py:33-35 | proof step for `CleanTagged` and `CleanBareFence`: unfolds the word-tag branch of `CleanMarkdownCodeBlock` |
| Strings.CleanFencedMarkdown | llm_structured_extract/utils/strings.py:30-32 | a stripped body fenced as ```` ```markdown ```` comes back unchanged |
| Strings.CleanFencedTagged | llm_structured_extract/utils/strings.py:33-35 | a stripped body fenced with any other word tag comes back unchanged |
| Strings.CleanTagged | llm_structured_extract/utils/strings.py:33-36 | after a tagged opening line, the rest loses its closing fence and is stripped |
| Strings.CleanIdempotent | llm_structured_extract/utils/strings.py:25-36 | cleaning is idempotent when the cleaned text does not start with three backquotes |
| Strings.CleanNotIdempotent | llm_structured_extract/utils/strings.py:33-36 | ```` "```\n```x\n```" ```` cleans to ```` "```x" ````, which cleans to `""` |
| Strings.CleanInnerFence | llm_structured_extract/utils/strings.py:33-36 | a fence inside a bare fence survives one cleaning |
| Strings.CleanBareFence | llm_structured_extract/utils/strings.py:33-36 | a fence whose tag runs to the end of the text cleans to `""` |
| Skeleton.MarkerLength | llm_structured_extract/core/prompt_engine.py:56 | a nonzero length spans `[id:`, an identifier starting with a letter or `_`, and `]` |
| Skeleton.MarkerMatch | llm_structured_extract/core/prompt_engine.py:56 | the match `\s*\[id:...\]` at the front is no longer than the text; `MarkerMatchShape` shows a match is whitespace then `[id:` |
| Skeleton.StripIdMarkers | llm_structured_extract/core/prompt_engine.py:56 | marker removal never lengthens the text |
| Skeleton.StripIdMarkersNoMarker | llm_structured_extract/core/prompt_engine.py:56 | text without `[id:` is unchanged |
| Skeleton.StripIdMarkersRemoves | llm_structured_extract/core/prompt_engine.py:56 | a marker is removed together with the whitespace directly before it |
| Skeleton.StripIdMarkersKeepsPrefix | llm_structured_extract/core/parser.py:41 | text before a marker is kept, only the marker and its leading whitespace go |
| Skeleton.Headings | llm_structured_extract/core/parser.py:42 | the groups of `^#\s+(.*)` under `re.MULTILINE` hold no line break; `HeadingsFirstLine` and `HeadingsSkipLine` state which lines contribute |
| Skeleton.TopHeadings | llm_structured_extract/core/parser.py:41-42 | the level-1 headings of the marker-free skeleton; the skeleton case of `Parser.EntrySection` is stated over it |
| Skeleton.HeadingsFirstLine | llm_structured_extract/core/parser.py:42 | a first line `# title` contributes `title` to the level-1 headings |
| Skeleton.HeadingsSkipLine | llm_structured_extract/core/parser.py:42 | a first line that is not `#` plus whitespace contributes no level-1 heading |
| Schema.FieldNames | llm_structured_extract/core/parser.py:103 | field names in declaration order |
| Schema.FirstNotNone | llm_structured_extract/core/parser.py:122 | the index of the first union member that is not `None`, all before it being `None` |
| Sections.Lookup | llm_structured_extract/core/parser.py:175-176 | a key is absent exactly when it is not among the dictionary's keys |
| Sections.LookupIndex | llm_structured_extract/core/parser.py:175-176 | a found value sits at a position holding that key |
| Sections.Put | llm_structured_extract/core/parser.py:87 | assignment keeps an existing key's position, appends a new key, stores the value and leaves every other key alone |
| Sections.PutKeepsUnique | llm_structured_extract/core/parser.py:87 | assignment keeps the keys distinct |
| Sections.PutTwice | llm_structured_extract/core/parser.py:87 | assigning a key twice keeps only the second value |
| Sections.HeadingShape | llm_structured_extract/core/parser.py:74-77 | one to six `#` followed by whitespace is a heading of that level whose title is the stripped rest |
| Sections.NotHeading | llm_structured_extract/core/parser.py:74 | seven or more `#`, or `#` not followed by whitespace, is not a heading |
| Sections.CloseTop | llm_structured_extract/core/parser.py:81-87 | closing the innermost section shortens the stack by one and keeps the spine below it |
| Sections.PopTo | llm_structured_extract/core/parser.py:80-84 | popping keeps a valid non-empty stack, whose top is the nearest open section of lower level; every popped section had level at least the new heading's |
| Sections.CloseTopValid | llm_structured_extract/core/parser.py:80-81 | closing a section keeps levels strictly increasing from the root |
| Sections.PushValid | llm_structured_extract/core/parser.py:88 | pushing a deeper section keeps the stack valid |
| Sections.AddLine | llm_structured_extract/core/parser.py:90-94 | a content line changes only the innermost section's content |
| Sections.Step | llm_structured_extract/core/parser.py:73-94 | one line keeps the stack valid |
| Sections.Run | llm_structured_extract/core/parser.py:73-94 | the scan keeps the stack valid |
| Sections.RunSnoc | llm_structured_extract/core/parser.py:73 | the scan of one more line is one more step |
| Sections.CloseAll | llm_structured_extract/core/parser.py:87-96 | closing every open section yields the root |
| Sections.SplitSections | llm_structured_extract/core/parser.py:67-96 | the loop with its explicit stack computes the section tree `SplitDoc` |
| Sections.SplitDoc | llm_structured_extract/core/parser.py:67-96 | the section tree as a fold of `Step` over the lines; `SplitSections` computes it and `SplitDocNoHeadings` and `SplitDocOneHeading` state its cases |
| Sections.IsHeading | llm_structured_extract/core/parser.py:74 | one to six `#` then whitespace; `HeadingShape` and `NotHeading` state both directions |
| Sections.HeadingTitle | llm_structured_extract/core/parser.py:77 | the stripped rest of the line after the `#` run; `HeadingShape` states it for `#`-run plus whitespace plus title |
| Sections.ScanLine | llm_structured_extract/core/parser.py:74-94 | one turn of the loop is one `Step` |
| Sections.PopSections | llm_structured_extract/core/parser.py:80-84 | the inner `while` pops to `PopTo` |
| Sections.CloseSections | llm_structured_extract/core/parser.py:86-88 | attaching the open sections to their parents yields `CloseAll` |
| Sections.DropLeadingEmpty | llm_structured_extract/core/parser.py:91-94 | the first line kept is non-empty |
| Sections.AddAllNonEmpty | llm_structured_extract/core/parser.py:91-92 | once content is non-empty, each line is appended after `\n` |
| Sections.AddAllFromEmpty | llm_structured_extract/core/parser.py:91-94 | a section's content is its lines joined with `\n`, leading empty lines dropped |
| Sections.RunContentLines | llm_structured_extract/core/parser.py:89-94 | lines that are not headings all go to the innermost open section |
| Sections.SplitDocNoHeadings | llm_structured_extract/core/parser.py:67-96 | a document without headings is a root holding all of its text |
| Sections.SplitDocOneHeading | llm_structured_extract/core/parser.py:67-96 | one heading followed by text gives one subsection holding that text |
| Sections.StepHeadingAtRoot | llm_structured_extract/core/parser.py:83-88 | a heading with only the root open becomes a child of the root |
| Sections.StepHeadingSibling | llm_structured_extract/core/parser.py:80-88 | a heading of the open child's level closes that child first |
| Sections.SameTitleReplaces | llm_structured_extract/core/parser.py:87 | a later sibling with the same title replaces the earlier section |
| Sections.CloseAllTwo | llm_structured_extract/core/parser.py:87 | closing stores the child under its title in the root |
| Parser.FirstIndex | llm_structured_extract/core/parser.py:179-187 | the first key satisfying the predicate, or none |
| Parser.FirstIndexAt | llm_structured_extract/core/parser.py:179-187 | a satisfying key with none before it is the one found |
| Parser.FindSection | llm_structured_extract/core/parser.py:170-189 | an exact key wins; None exactly when no key is exact and no normalised title contains or is contained in the target's; any result is a matching subsection |
| Parser.SameNormalized | llm_structured_extract/core/parser.py:180-186 | equal normal forms pass the containment test |
| Parser.FindSectionFuzzy | llm_structured_extract/core/parser.py:179-181 | a subsection with the target's normal form is always found |
| Parser.FindSectionNormalizedFirst | llm_structured_extract/core/parser.py:179-181 | without an exact key, the first subsection with an equal normal form is returned |
| Parser.FindSectionContainsFirst | llm_structured_extract/core/parser.py:184-187 | without exact or normalised matches, the first containing or contained title is returned |
| Parser.FindSectionEmptyTarget | llm_structured_extract/core/parser.py:184-187 | a target normalising to `""` finds a section whenever there is one |
| Parser.FindSectionEmptyTargetFirst | llm_structured_extract/core/parser.py:184-187 | such a target designates the first subsection |
| Parser.ListItem | llm_structured_extract/core/parser.py:201-206 | an item is the stripped remainder after `-`, `*`, `+` or `N.` and whitespace |
| Parser.ListStep | llm_structured_extract/core/parser.py:199-209 | one line adds at most one item |
| Parser.ListFold | llm_structured_extract/core/parser.py:196-210 | every item is stripped, and there are no more items than lines |
| Parser.ParseMarkdownList | llm_structured_extract/core/parser.py:191-210 | the loop computes `ListItems` and yields stripped items |
| Parser.BulletItem | llm_structured_extract/core/parser.py:201-206 | a bulleted item reads back as the item |
| Parser.ListFoldBullets | llm_structured_extract/core/parser.py:196-210 | bulleted lines read back as their items, in order |
| Parser.ListItemsRoundTrip | llm_structured_extract/core/parser.py:191-210 | items written one bullet per line and parsed give the items back |
| Parser.ListFoldProse | llm_structured_extract/core/parser.py:207-209 | text without list markers yields at most one item, and one if any line is non-blank |
| Parser.LookupTitle | llm_structured_extract/core/parser.py:212-216 | a non-empty `markdown_title`, else the field name |
| Parser.Unwrap | llm_structured_extract/core/parser.py:116-125 | a union with `None` is optional and handled as its first non-`None` member; a union of only `None` raises; anything else is kept |
| Parser.MapField | llm_structured_extract/core/parser.py:103-168 | the `summary` case, then the field mapped through its unwrapped annotation; stated by `MapFieldSummary`, `MapFieldUnwrapped`, `MapFieldText`, `MapFieldTransparent` and the missing-section lemmas |
| Parser.MapActual | llm_structured_extract/core/parser.py:127-166 | the list, nested-model, `str` and other branches for an unwrapped annotation; stated by `MapActualListMissing`, `MapActualModelMissing` and `MapFieldText` |
| Parser.DefaultInstance | llm_structured_extract/core/parser.py:153 | a default instance is an instance of the class itself |
| Parser.DefaultEntries | llm_structured_extract/core/parser.py:153 | one default per field, in declaration order |
| Parser.MapFieldsFrom | llm_structured_extract/core/parser.py:103-168 | each entry is the field's own mapped value, in order; an error is some field's error |
| Parser.MapModel | llm_structured_extract/core/parser.py:98-168 | one entry per field in declaration order, each the field's mapped value; an error is some field's error |
| Parser.MapFieldText | llm_structured_extract/core/parser.py:159-162 | a text field holds its section's stripped content, None when blank |
| Parser.MapFieldSummary | llm_structured_extract/core/parser.py:105-107 | `summary` takes the current section's stripped content when that is non-empty |
| Parser.MapFieldTextMissing | llm_structured_extract/core/parser.py:163-164 | a text field with no matching section is None |
| Parser.MapFieldListMissing | llm_structured_extract/core/parser.py:141-142 | a list field with no matching section is `[]` |
| Parser.MapFieldModelMissing | llm_structured_extract/core/parser.py:148-153 | a missing titled nested model is None if optional, else a default instance |
| Parser.MapFieldTransparent | llm_structured_extract/core/parser.py:154-156 | an untitled nested model is mapped over the same section |
| Parser.MapFieldUnwrapped | llm_structured_extract/core/parser.py:108-116 | past the `summary` case a field is mapped by its unwrapped annotation |
| Parser.MapActualListMissing | llm_structured_extract/core/parser.py:141-142 | an unwrapped list annotation with no matching section gives `[]` |
| Parser.MapActualModelMissing | llm_structured_extract/core/parser.py:148-153 | an unwrapped titled model annotation with no matching section gives None if optional, else a default instance |
| Parser.MapModelReadsBack | llm_structured_extract/core/parser.py:98-168 | a flat model whose titled sections hold non-blank text reads those texts back, and the result validates |
| Parser.MissingTextFails | llm_structured_extract/core/parser.py:53 | a required `str` field with no section makes validation fail |
| Parser.Conforms | llm_structured_extract/core/parser.py:53 | the model's stand-in for `model_validate` in strict form: a string or None for `Optional[str]`, string items for lists of `str`, a member for unions, a conforming record or instance for models, nothing for any other class; used by `Parse`, `MapModelReadsBack` and `MissingTextFails` |
| Parser.EntrySection | llm_structured_extract/core/parser.py:38-50 | with a skeleton of exactly one level-1 heading, the subsection found by that title, else the root; with a skeleton of any other number of level-1 headings, the root; without a skeleton, the only subsection when there is exactly one, else the root |
| Parser.Parse | llm_structured_extract/core/parser.py:20-65 | empty text gives a default instance; otherwise the cleaned text is split, the entry section is mapped, a mapping error is returned as is, and the result is `Ok` exactly when the mapped entries validate, holding those entries, else `ValidationFailed` |
| Parser.ParseReadsBack | llm_structured_extract/core/parser.py:20-65 | for a flat text model whose entry section holds each field's titled section, parsing succeeds with each field holding its section's stripped content |
| Prompt.SpecTitle | llm_structured_extract/core/prompt_engine.py:30-41 | the `markdown_title`, else `概要说明` for `summary`, else `（未定义标题: name）` |
| Prompt.SpecLine | llm_structured_extract/core/prompt_engine.py:43 | each line starts with ``- ` `` |
| Prompt.FieldEntries | llm_structured_extract/core/prompt_engine.py:43-47 | a field's own line plus the lines of its expansion |
| Prompt.SpecsFrom | llm_structured_extract/core/prompt_engine.py:26-47 | the number of lines is the number of fields reached through model annotations |
| Prompt.CountFrom | llm_structured_extract/core/prompt_engine.py:26-47 | the number of lines listed for fields `i..`, one each plus the lines of a directly model-typed annotation; `SpecsFrom` and `ExtractSpecs` state the listing has this many lines |
| Prompt.ExtractSpecs | llm_structured_extract/core/prompt_engine.py:24-48 | the line count is the field count of the expanded tree; each line is `SpecLine` of its entry |
| Prompt.OffsetMonotone | llm_structured_extract/core/prompt_engine.py:26-47 | later fields are listed later |
| Prompt.SpecsFromLayout | llm_structured_extract/core/prompt_engine.py:26-47 | field `i`'s entries sit at its offset, in declaration order |
| Prompt.EntriesAtOffset | llm_structured_extract/core/prompt_engine.py:26-47 | field `i`'s entries start at its offset in the whole listing |
| Prompt.NestedEntries | llm_structured_extract/core/prompt_engine.py:45-47 | a model-typed field's nested entries start right after its own line |
| Prompt.ExtractSpecsFieldLine | llm_structured_extract/core/prompt_engine.py:27-43 | the line at a field's offset is `` - `path`: title ``, the path dotted from the root |
| Prompt.ExtractSpecsNested | llm_structured_extract/core/prompt_engine.py:45-47 | a model-typed field is followed directly by its nested model's lines under its path |
| Prompt.SpecsFromPaths | llm_structured_extract/core/prompt_engine.py:27 | every path listed under a prefix extends it with `.` |
| Prompt.ExtractSpecsNestedPaths | llm_structured_extract/core/prompt_engine.py:27-47 | every nested line names a path under its parent's |
| Prompt.BuildPrompt | llm_structured_extract/core/prompt_engine.py:50-70 | a blank skeleton gives the missing-skeleton error before rendering; a failed render gives the render error; otherwise the result is the render of the marker-free skeleton and the joined field lines |
| GenNames.TitleFrom | llm_structured_extract/utils/generator.py:24 | title-casing keeps length; a letter at a word start (after a non-letter, or first when not continuing a word) is upper-cased and a letter after a letter is lower-cased |
| GenNames.TitleFromKeeps | llm_structured_extract/utils/generator.py:24 | title-casing changes only letter case and leaves non-letters alone |
| GenNames.TitleCase | llm_structured_extract/utils/generator.py:24 | `str.title()` as `TitleFrom` from a word start; `TitleFrom`, `TitleFromKeeps` and `TitleCaseWord` state its length, its non-letters and a lower-case word |
| GenNames.TitleAll | llm_structured_extract/utils/generator.py:24 | each part is title-cased |
| GenNames.ToCamelCase | llm_structured_extract/utils/generator.py:22-24 | the `_`-separated parts title-cased and joined; `CamelCaseNoUnderscore` and `CamelTwoWords` state it holds no `_` and capitalises each part |
| GenNames.CamelCaseNoUnderscore | llm_structured_extract/utils/generator.py:22-24 | a camel-case name holds no `_` |
| GenNames.TitleCaseWord | llm_structured_extract/utils/generator.py:24 | a lower-case word gets its first letter capitalised |
| GenNames.CamelTwoWords | llm_structured_extract/utils/generator.py:22-24 | `a_b` becomes `A` `b` with both first letters capitalised |
| GenNames.ClassName | llm_structured_extract/utils/generator.py:81-83 | the camel-case identifier with `View` up to level two and `SubView` below; `ClassNameTwoWords` states both suffixes |
| GenNames.ClassNameTwoWords | llm_structured_extract/utils/generator.py:81-83 | `section_a` at level two names `SectionAView`; below level two the suffix is `SubView` |
| GenNames.KeepNameChars | llm_structured_extract/utils/generator.py:30 | only word and space characters remain; such text is unchanged |
| GenNames.Underscores | llm_structured_extract/utils/generator.py:31 | no whitespace remains; text without whitespace is unchanged |
| GenNames.LowerWords | llm_structured_extract/utils/generator.py:31 | lower-casing word characters gives identifier text |
| GenNames.NormalizeName | llm_structured_extract/utils/generator.py:26-32 | the result is lower-case word characters not starting or ending in `_` |
| GenNames.NormalizeNameStable | llm_structured_extract/utils/generator.py:26-32 | a name not starting with a digit normalises to itself |
| GenNames.LastIndexOf | llm_structured_extract/utils/generator.py:36 | the last occurrence of a character |
| GenNames.MarkerAtEnd | llm_structured_extract/utils/generator.py:36 | a match is a valid `[id:NAME]` followed only by whitespace |
| GenNames.MarkerAtEndOf | llm_structured_extract/utils/generator.py:36 | a line ending in a marker and whitespace has it found |
| GenNames.ExtractIdAndTitle | llm_structured_extract/utils/generator.py:34-46 | with a trailing marker, its name and the text before it stripped, `#`-trimmed and stripped again; without one, the `#`-trimmed stripped line and its normalised name; the title is stripped |
| GenNames.ExtractMarked | llm_structured_extract/utils/generator.py:36-41 | with a trailing marker: ident is NAME, title is the text before it without `#` and outer whitespace |
| GenNames.ExtractUnmarked | llm_structured_extract/utils/generator.py:42-46 | without `[`: title is the line without `#`, stripped; ident is its normalised name |
| GenTree.LineHeading | llm_structured_extract/utils/generator.py:54-59 | a line is a heading exactly when its stripped form starts with `#`; the level is the length of that leading `#` run; the raw title is the stripped line and identifier and title are `ExtractIdAndTitle` of it |
| GenTree.LineHeadings | llm_structured_extract/utils/generator.py:53-59 | one entry per line |
| GenTree.MarkdownHeadings | llm_structured_extract/utils/generator.py:49-59 | the headings of the stripped document's lines in order; `HeadingAt` and `ParseMarkdown` state which node each becomes |
| GenTree.SomesPrefix | llm_structured_extract/utils/generator.py:53-56 | the headings of a prefix are a prefix of the headings |
| GenTree.HeadingAt | llm_structured_extract/utils/generator.py:53-61 | the heading of a line is the next heading in document order: as many precede it as the lines before it hold |
| GenTree.AllCounted | llm_structured_extract/utils/generator.py:53-59 | after the last line every heading has been read |
| GenTree.Nearest | llm_structured_extract/utils/generator.py:68-72 | the candidate parent precedes the node |
| GenTree.NearestIsNearest | llm_structured_extract/utils/generator.py:68-72 | the parent is the nearest earlier heading of smaller level; with none, every earlier heading is at least as deep |
| GenTree.ParentOf | llm_structured_extract/utils/generator.py:71-72 | a parent precedes its child |
| GenTree.ChildIdx | llm_structured_extract/utils/generator.py:73 | children are among the headings seen |
| GenTree.ChildIdxSpec | llm_structured_extract/utils/generator.py:71-73 | children are exactly the later headings whose parent is the node, in document order |
| GenTree.ChildIdxAfter | llm_structured_extract/utils/generator.py:73 | children come after their parent |
| GenTree.Kids | llm_structured_extract/utils/generator.py:73 | children lie after the node and within the document |
| GenTree.RootIdx | llm_structured_extract/utils/generator.py:74-75 | roots are among the headings seen |
| GenTree.RootIdxSpec | llm_structured_extract/utils/generator.py:74-75 | roots are exactly the headings without a parent, in order |
| GenTree.NoChildrenYet | llm_structured_extract/utils/generator.py:61-66 | a new node has no children |
| GenTree.FirstIsRoot | llm_structured_extract/utils/generator.py:74-75 | the first heading is the first root |
| GenTree.Pop | llm_structured_extract/utils/generator.py:68-69 | popping leaves a prefix of the stack |
| GenTree.Spine | llm_structured_extract/utils/generator.py:68-77 | the stack holds only headings seen |
| GenTree.PopPop | llm_structured_extract/utils/generator.py:68-69 | popping to a level and then a lower one pops to the lower one |
| GenTree.SpineNearest | llm_structured_extract/utils/generator.py:68-72 | after popping, the top of the stack is the nearest earlier heading of smaller level |
| GenTree.MarkdownNode.constructor | llm_structured_extract/utils/generator.py:6-13 | a node carries its heading's level, title, raw title and ident, with no children and no parent |
| GenTree.Pick | llm_structured_extract/utils/generator.py:71-75 | the nodes at given indices, in order |
| GenTree.ParseMarkdown | llm_structured_extract/utils/generator.py:48-79 | one fresh node per heading line; each node's `parent` and `children` agree with the nearest-smaller-level relation; the result lists the roots in order |
| GenTree.ParseLines | llm_structured_extract/utils/generator.py:53-77 | the same for the loop over the lines |
| GenTree.BuildTree | llm_structured_extract/utils/generator.py:53-77 | after the loop the nodes, one fresh node per heading, are linked and the roots collected as the specification says |
| GenTree.ReadLine | llm_structured_extract/utils/generator.py:54-77 | one pass keeps nodes, stack and roots in agreement with the specification for the headings read so far; a non-heading line changes nothing |
| GenTree.PopOne | llm_structured_extract/utils/generator.py:68-69 | popping a node whose level is at least the new one pops the matching heading index |
| GenTree.PopDone | llm_structured_extract/utils/generator.py:68 | the `while` stops exactly when the stack is empty or its top is shallower |
| GenTree.HeadersStep | llm_structured_extract/utils/generator.py:61-66 | the new node carries the next heading and is distinct from the earlier nodes |
| GenTree.ParentsStep | llm_structured_extract/utils/generator.py:71-72 | with the new node's parent set, every node's parent is its nearest shallower predecessor |
| GenTree.ChildrenStep | llm_structured_extract/utils/generator.py:71-73 | appending the new node to its parent's children keeps every node's children equal to the specification |
| GenTree.PopOpen | llm_structured_extract/utils/generator.py:68-69 | the `while` pops the stack to `Pop` |
| GenTree.AddNode | llm_structured_extract/utils/generator.py:61-77 | adding a heading keeps the links, the stack and the roots in agreement with the specification |
| GenTree.TopIsParent | llm_structured_extract/utils/generator.py:71-72 | after popping, the stack is non-empty exactly when the heading has a parent, and its top is that parent's node |
| GenTree.Link | llm_structured_extract/utils/generator.py:71-75 | attaching the new node keeps the tree linked |
| GenTree.Attach | llm_structured_extract/utils/generator.py:72-73 | sets the node's parent and appends it to that parent's children, changing nothing else |
| GenTree.StackStep | llm_structured_extract/utils/generator.py:77 | pushing the node gives the next stack |
| GenTree.RootsStep | llm_structured_extract/utils/generator.py:74-75 | a parentless node is appended to the roots, others leave them unchanged |
| GenTree.LinkedStep | llm_structured_extract/utils/generator.py:71-75 | the links stay correct after one node |
| GenCode.ClassNames | llm_structured_extract/utils/generator.py:81-83 | one class name per heading |
| GenCode.FieldLines | llm_structured_extract/utils/generator.py:107-117 | each field takes four lines |
| GenCode.FieldsOf | llm_structured_extract/utils/generator.py:103-117 | four lines per child, in child order |
| GenCode.ClassLines | llm_structured_extract/utils/generator.py:100-117 | the class header, the docstring and four lines per child |
| GenCode.NonEmpty | llm_structured_extract/utils/generator.py:121 | `filter(None, ...)` keeps only non-empty parts |
| GenCode.TreeOf | llm_structured_extract/utils/generator.py:81-121 | the class tree has one name, code and child list per heading, children after their parent |
| GenCode.Gen | llm_structured_extract/utils/generator.py:85-121 | the reference definition of `_generate_model_code` on the class tree: a leaf emits nothing; an already generated class emits only its children's code; `GenGrows`, `GenBottomUp` and `GenHeaders` state what it promises |
| GenCode.ChildCodes | llm_structured_extract/utils/generator.py:90-93 | the codes of the non-leaf children in order, threading `generated_classes`; `ChildCodesGrow` states what it adds |
| GenCode.GenGrows | llm_structured_extract/utils/generator.py:85-121 | `generated_classes` only grows and never holds duplicates; a non-leaf's class ends up in it; a leaf emits nothing |
| GenCode.ChildCodesGrow | llm_structured_extract/utils/generator.py:90-93 | visiting the children keeps the list duplicate-free and adds every non-leaf child's class |
| GenCode.GenBottomUp | llm_structured_extract/utils/generator.py:89-121 | every non-leaf child's class is generated before the parent; an already generated parent is not emitted again; otherwise its code ends the output |
| GenCode.JoinNonEmptySnoc | llm_structured_extract/utils/generator.py:121 | an empty part adds nothing; a non-empty one is appended after `\n` |
| GenCode.JoinNonEmptyExtend | llm_structured_extract/utils/generator.py:121 | joining more parts keeps earlier text |
| GenCode.JoinNonEmptyAfter | llm_structured_extract/utils/generator.py:121 | joining keeps the text of an added part |
| GenCode.GenHeaders | llm_structured_extract/utils/generator.py:85-121 | every class recorded as generated has its `class X(BaseModel):` line in the emitted code |
| GenCode.TreeOfHeaded | llm_structured_extract/utils/generator.py:100 | every class's code starts with its header line |
| GenCode.NodeAt | llm_structured_extract/utils/generator.py:15-16 | a linked node's children and `is_leaf` agree with the class tree |
| GenCode.GenerateModelCode | llm_structured_extract/utils/generator.py:85-121 | the recursion over nodes computes `Gen` of the class tree, code and updated `generated_classes` |
| GenCode.GenerateChildren | llm_structured_extract/utils/generator.py:90-93 | the loop over the children computes the specification's child codes and threads `generated_classes` |
| GenCode.ChildrenAt | llm_structured_extract/utils/generator.py:91-92 | a node's children are the nodes of its subtrees, in order, and a child is a leaf exactly when its subtree has no children |
| GenCode.ClassLinesOf | llm_structured_extract/utils/generator.py:100-117 | the header, docstring and field lines of a class |
| GenCode.FieldsOfNodes | llm_structured_extract/utils/generator.py:103-117 | the loop over the children computes `FieldsOf` |
| GenCode.FieldsOfSnoc | llm_structured_extract/utils/generator.py:103-117 | one more child adds its four lines |
| GenCode.FieldLinesOf | llm_structured_extract/utils/generator.py:104-117 | a leaf child gives an `Optional[str]` field, a composite child a `default_factory` field, each with its title |
| GenPython.StripDocAbsent | llm_structured_extract/utils/generator.py:168 | text with no header followed by a docstring is unchanged |
| GenPython.StripDocRemoves | llm_structured_extract/utils/generator.py:168 | a header followed by a docstring loses the docstring |
| GenPython.StripDoc | llm_structured_extract/utils/generator.py:168 | the docstring substitution never lengthens the text; `StripDocAbsent` and `StripDocRemoves` state when it changes it |
| GenPython.Module | llm_structured_extract/utils/generator.py:128-134 | the import lines, the blank entry and the code joined by `\n`; `ModuleLayout` states its layout |
| GenPython.Finish | llm_structured_extract/utils/generator.py:157-168 | the decorator substitution then the docstring removal; `TopClassDecorated` and `DocOpenMissesDecorated` state their effect |
| GenPython.PythonCodeAsWritten | llm_structured_extract/utils/generator.py:123-172 | `generate_python_code` as written, decorating `generated_classes[-1]`; `AsWrittenAgrees` and `LastGeneratedNotTop` state when it departs from `PythonCode` |
| GenPython.PythonCode | llm_structured_extract/utils/generator.py:123-172 | `generate_python_code` decorating the top class; `PythonCodeEmpty`, `PythonCodeError`, `PythonCodePreamble` and `TopClassDecorated` state its cases |
| GenPython.ModuleLayout | llm_structured_extract/utils/generator.py:128-172 | the module is the import lines, two blank lines and the code |
| GenPython.PythonCodeEmpty | llm_structured_extract/utils/generator.py:124-126 | the result is `""` exactly when there is no heading line |
| GenPython.PythonCodeError | llm_structured_extract/utils/generator.py:152 | `IndexError` exactly when the first root has no children, both as written and corrected |
| GenPython.PythonCodePreamble | llm_structured_extract/utils/generator.py:128-134 | a generated module starts with the import lines |
| GenPython.TopClassDecorated | llm_structured_extract/utils/generator.py:148-165 | the top class's header occurs in the code and, after substitution, carries `@register_schema` and the stripped skeleton |
| GenPython.DocOpenMissesDecorated | llm_structured_extract/utils/generator.py:161-168 | after the substitution, the docstring-removal pattern never matches at the decorated header |
| GenPython.AsWrittenAgrees | llm_structured_extract/utils/generator.py:148-152 | as written and corrected agree whenever the top class is itself generated |
| GenPython.LastGeneratedNotTop | llm_structured_extract/utils/generator.py:152 | for headings `a`(1), `a`(2), `z`(3), `c`(2), `v`(3) the last generated class is not the top class |
| GenPython.ExampleKids | llm_structured_extract/utils/generator.py:68-77 | the tree of that outline |
| GenPython.ExampleNames | llm_structured_extract/utils/generator.py:81-83 | its top and first child share the name `AView` |
| GenPython.RepeatedNameSkipped | llm_structured_extract/utils/generator.py:96-119 | a class name already generated by a child is not generated again for its parent |
| GenPython.GeneratePythonCode | llm_structured_extract/utils/generator.py:123-172 | computes `PythonCode`, which decorates the top class |
| Order.StrLeTotal | llm_structured_extract/core/schema_registry.py:77 | string order is total |
| Order.StrLeAntisym | llm_structured_extract/core/schema_registry.py:77 | string order is antisymmetric |
| Order.StrLeTrans | llm_structured_extract/core/schema_registry.py:77 | string order is transitive |
| Order.LeastExists | llm_structured_extract/core/schema_registry.py:77 | a non-empty set of names has a least element |
| Order.Sorted | llm_structured_extract/core/schema_registry.py:95 | `sorted(keys)`: strictly increasing and holding exactly the keys |
| Order.SortedUnique | llm_structured_extract/core/schema_registry.py:95 | any increasing listing of exactly the keys is `Sorted` |
| Order.SortedHead | llm_structured_extract/core/schema_registry.py:95 | the first listed name is the least |
| Order.LeastCons | llm_structured_extract/core/schema_registry.py:95 | the least name followed by an increasing listing of the others is increasing |
| Registry.ToSnakeCase | llm_structured_extract/core/schema_registry.py:14-16 | the result has no upper-case letter |
| Registry.SplitWords | llm_structured_extract/core/schema_registry.py:15 | the first `re.sub`, left to right, resuming after each word; `SplitWordsInserts` states it only inserts `_` before capitalised words |
| Registry.SplitHumps | llm_structured_extract/core/schema_registry.py:16 | the second `re.sub`; `SplitHumpsInserts` states it only inserts `_` between a lower-case letter or digit and a capital |
| Registry.SplitWordsInserts | llm_structured_extract/core/schema_registry.py:15 | the first substitution only inserts `_` |
| Registry.SplitHumpsInserts | llm_structured_extract/core/schema_registry.py:16 | the second substitution only inserts `_` |
| Registry.ToSnakeCaseInserts | llm_structured_extract/core/schema_registry.py:14-16 | with the underscores removed, the snake-case name is the lower-cased class name |
| Registry.ToSnakeCaseWords | llm_structured_extract/core/schema_registry.py:14-16 | capitalised words run together become the lower-cased words joined by `_`, as in `CompanyCoreStrategyAndManagementView` |
| Registry.SchemaName | llm_structured_extract/core/schema_registry.py:28 | the key is the snake-case of the class name |
| Registry.Discovered | llm_structured_extract/core/schema_registry.py:58-67 | the scan keeps every existing key |
| Registry.DiscoveredKeys | llm_structured_extract/core/schema_registry.py:58-67 | the keys after the scan are the old keys plus the names of the model classes found |
| Registry.DiscoveredLast | llm_structured_extract/core/schema_registry.py:58-67 | every model class found, not shadowed by a later one of the same name, is registered, decorated or not |
| Registry.DiscoveredKeeps | llm_structured_extract/core/schema_registry.py:58-67 | an entry no class found shares a name with is kept |
| Registry.AfterDiscovery | llm_structured_extract/core/schema_registry.py:33-69 | no error exactly when the flag ends set; keys are never lost; an earlier discovery or a missing directory leaves the map unchanged |
| Registry.DiscoverOnce | llm_structured_extract/core/schema_registry.py:34-69 | after a successful discovery, discovering again changes nothing |
| Registry.NotFoundNamesAll | llm_structured_extract/core/schema_registry.py:76-80 | the not-found message names every available schema |
| Registry.NotFoundMessage | llm_structured_extract/core/schema_registry.py:77-80 | the `SchemaError` text listing the sorted keys joined by `, `; `NotFoundNamesAll` states it names every key |
| Registry.Lookup | llm_structured_extract/core/schema_registry.py:72-81 | found exactly when discovery succeeded and the name is registered |
| Registry.LookupRegistered | llm_structured_extract/core/schema_registry.py:72-81 | a registered class is found under its name |
| Registry.LookupDiscovered | llm_structured_extract/core/schema_registry.py:58-81 | a discovered class is found under its name |
| Registry.SchemaRegistry.constructor | llm_structured_extract/core/schema_registry.py:10-11 | the registry starts empty and undiscovered |
| Registry.SchemaRegistry.Register | llm_structured_extract/core/schema_registry.py:19-30 | a model class is stored under its snake-case name, overwriting, and returned; anything else raises `TypeError` and changes nothing |
| Registry.SchemaRegistry.Discover | llm_structured_extract/core/schema_registry.py:33-69 | the scan loop yields the state and error of `AfterDiscovery` |
| Registry.SchemaRegistry.GetModel | llm_structured_extract/core/schema_registry.py:72-81 | discovers first, then returns `Lookup` |
| Registry.SchemaRegistry.ListAvailable | llm_structured_extract/core/schema_registry.py:92-95 | discovers first, then returns the sorted keys, or the discovery error |
| Registry.SchemaRegistry.GetAll | llm_structured_extract/core/schema_registry.py:98-101 | discovers first, then returns the map, or the discovery error |
| Visualizer.Resolve | llm_structured_extract/utils/model_visualizer.py:6-40 | the resolved type is the annotation or a part of it |
| Visualizer.ResolvePlain | llm_structured_extract/utils/model_visualizer.py:14-40 | any other annotation is returned unchanged with both flags false |
| Visualizer.ResolveUnionFirst | llm_structured_extract/utils/model_visualizer.py:27-29 | a union without None resolves to its first member with both flags false |
| Visualizer.ResolveOptional | llm_structured_extract/utils/model_visualizer.py:19-26 | a union with None is optional and takes its first other member's type and list flag |
| Visualizer.ResolveList | llm_structured_extract/utils/model_visualizer.py:32-38 | `List[T]` is a list with T's type and optional flag |
| Visualizer.Wrap | llm_structured_extract/utils/model_visualizer.py:19-32 | the annotation built from Optional and List layers |
| Visualizer.ResolveLayers | llm_structured_extract/utils/model_visualizer.py:6-40 | any nesting of Optional and List resolves to the base type, a list if any layer is a list, optional if any is Optional |
| Visualizer.OptionalListAlike | llm_structured_extract/utils/model_visualizer.py:19-38 | `Optional[List[str]]` and `List[Optional[str]]` both give `(str, True, True)` |
| Visualizer.VisTitle | llm_structured_extract/utils/model_visualizer.py:55-60 | the `markdown_title`, else `概要说明` for `summary`, else `Unnamed` |
| Visualizer.Render | llm_structured_extract/utils/model_visualizer.py:88-89 | one printed line per heading |
| Visualizer.HeadingLine | llm_structured_extract/utils/model_visualizer.py:88-89 | `'#' * depth`, a space and the title |
| Visualizer.Outline | llm_structured_extract/utils/model_visualizer.py:42-95 | the headings `print_markdown_structure` prints for a model; `OutlineBelow`, `OutlineFlat` and `OutlineUpToStops` state them |
| Visualizer.OutlineUpTo | llm_structured_extract/utils/model_visualizer.py:53-95 | the headings of the first `n` fields; `OutlineUpToStep` states one field more appends its headings |
| Visualizer.FieldOutline | llm_structured_extract/utils/model_visualizer.py:53-95 | one field's headings; `FlatField`, `FieldSkipped` and `FieldNested` state the printed, skipped and nested cases |
| Visualizer.ResolvedOutline | llm_structured_extract/utils/model_visualizer.py:64-95 | the skip, print and recursion of a field with its resolved type; `FieldSkipped` and `FieldNested` state them |
| Visualizer.RenderAppend | llm_structured_extract/utils/model_visualizer.py:88-89 | rendering distributes over concatenation |
| Visualizer.OutlineUpToStep | llm_structured_extract/utils/model_visualizer.py:53 | one more field appends that field's headings |
| Visualizer.OutlineBelow | llm_structured_extract/utils/model_visualizer.py:62-95 | every heading is at the given depth or deeper, and none at that depth repeats the parent's title |
| Visualizer.FieldEntries | llm_structured_extract/utils/model_visualizer.py:88-89 | one heading per field |
| Visualizer.OutlineFlat | llm_structured_extract/utils/model_visualizer.py:53-89 | flat fields not repeating the parent print one heading each, in order, at the depth |
| Visualizer.FlatField | llm_structured_extract/utils/model_visualizer.py:87-89 | such a field prints `'#'*depth + ' ' + title` |
| Visualizer.FieldSkipped | llm_structured_extract/utils/model_visualizer.py:64-69 | a field whose title repeats the parent's prints nothing of its own; a model-typed one prints its sub-model's outline at the same depth under the same parent title |
| Visualizer.FieldNested | llm_structured_extract/utils/model_visualizer.py:87-95 | a model-typed field with another title prints its heading at `depth` and then its sub-model's outline at `depth + 1` under its own title |
| Visualizer.OutlineUpToStops | llm_structured_extract/utils/model_visualizer.py:66-72 | a failing field stops the walk |
| Visualizer.Output.constructor | llm_structured_extract/utils/model_visualizer.py:89 | output starts empty |
| Visualizer.Output.Print | llm_structured_extract/utils/model_visualizer.py:89 | `print` appends one line |
| Visualizer.PrintMarkdownStructure | llm_structured_extract/utils/model_visualizer.py:42-95 | appends exactly the rendered outline and reports its error |
| Visualizer.PrintNext | llm_structured_extract/utils/model_visualizer.py:53-95 | one pass of the loop appends the next field's rendered outline and reports the outline's error |
| Visualizer.RenderStep | llm_structured_extract/utils/model_visualizer.py:53-95 | the outline of `n + 1` fields renders as that of `n` followed by that of field `n` |
| Visualizer.PrintField | llm_structured_extract/utils/model_visualizer.py:53-95 | one field appends its rendered headings |
| Visualizer.PrintResolved | llm_structured_extract/utils/model_visualizer.py:64-95 | the skip, print and recursion of a resolved field |
| Visualizer.TopTitle | llm_structured_extract/utils/model_visualizer.py:109-123 | the first level-1 skeleton heading, marker-free and stripped, if any; `Root Model` with neither skeleton heading nor docstring |
| Visualizer.TopTitleFromSkeleton | llm_structured_extract/utils/model_visualizer.py:116-123 | a skeleton starting `# title` names the outline `title` |
| Visualizer.Banner | llm_structured_extract/utils/model_visualizer.py:101-107 | five banner lines |
| Visualizer.Closing | llm_structured_extract/utils/model_visualizer.py:127-136 | with a skeleton, six lines showing it verbatim; without, two |
| Visualizer.Shown | llm_structured_extract/utils/model_visualizer.py:97-136 | line 6 is `# top`, followed by the outline at depth 2; the closing rule is printed exactly when no error occurs |
| Visualizer.VisualizeModel | llm_structured_extract/utils/model_visualizer.py:97-136 | appends `Shown` for the chosen top title and reports its error |
| Visualizer.Show | llm_structured_extract/utils/model_visualizer.py:101-136 | the printing steps after the title choice |
| Visualizer.PrintBanner | llm_structured_extract/utils/model_visualizer.py:101-107 | appends the banner |
| Visualizer.PrintClosing | llm_structured_extract/utils/model_visualizer.py:127-136 | appends the closing lines |

## Left out

- Unicode: NFKC normalisation is modelled only as folding the full-width
  forms U+FF01–U+FF5E to ASCII and the spaces U+3000, U+00A0,
  U+2000–U+200A, U+202F and U+205F to `' '`. `str.lower()` covers ASCII,
  Latin-1 and full-width Latin capitals. `str.title()` acts on ASCII
  letters. The regex class `\w` is ASCII letters, digits, `_` and the CJK
  unified ideographs. `\d` is ASCII digits.
- Regular expressions are written as character scanners. Backslash escapes
  in the replacement text of `generate_python_code`'s substitutions are
  taken literally. The class name is taken literally inside its pattern.
- pydantic: `model_fields`, `model_validate` and default construction
  become the `Schema` datatypes and the `Conforms` predicate.
  `schema_fields_example` (`model_json_schema`) is not modelled.
- `Parser.Conforms`: validation is strict. pydantic's lax mode coerces the
  string items of a list field to the item type (`"1"` for `List[int]`,
  `"2.5"` for `List[float]`, `"true"` for `List[bool]`) and accepts the
  instance; the model rejects every value of a class other than `str`,
  `None` or a model (`TOther`), so `Parse` returns `ValidationFailed`
  there. `DefaultKind` has no non-`None` scalar default, and `Any` cannot
  be written as an annotation.
- `_auto_discover_schemas`: the filesystem walk and `importlib` loading
  become the `ModelsDir` parameter. It is either missing, with its path, or
  the objects of all modules in scan order. Import failures are not
  modelled. `hasattr(obj, 'model_config')` holds for every model class and
  is not a separate check.
- `build_prompt`: template loading, the `lru_cache`, the environment
  variable and Jinja rendering become a `render` function parameter that may
  fail. `async_build_prompt` is not modelled (thread offloading).
- `print_markdown_structure`: the `show_meta` and `prefix` parameters are
  not modelled. They only add an HTML comment to each heading and build a
  path that is never printed. `visualize_model` is modelled with
  `show_meta` false.
- The loop of `parse_markdown` reads the heading of every line from a list
  computed before the loop rather than inside it. That computation is pure,
  so the loop sees the same values.
- `MarkdownParser.parse`: the timing warning and logging are not modelled.
- `Visualizer.Resolve`: a PEP 604 field `T | None` is resolved like
  `Optional[T]`, as `resolve_actual_type` does from Python 3.14 on. Before
  3.14 `get_origin` gives `types.UnionType` for it, so the source leaves
  such an annotation unresolved, prints its heading and does not descend
  into a model `T`. The annotations do not tell the two spellings apart.
- `Visualizer.Resolve`: typing's collapsing of nested unions is not
  modelled. A `Union` whose members are all `None`, or an empty `Union`,
  becomes an error case rather than being ruled out by the type system.
- `Visualizer.TopTitle`: the contract states the skeleton case and the
  `Root Model` case. The docstring case is stated only by the function's
  definition.
- `Parser.FindSection`: its contract states the exact tier, the not-found
  case and that the result matches. The order of the normalised and
  containment tiers is stated by `Parser.FindSectionNormalizedFirst` and
  `Parser.FindSectionContainsFirst`.

## Findings

| source | as written | input that shows it | evidently intended | confidence | as-written member | corrected member |
|---|---|---|---|---|---|---|
| llm_structured_extract/utils/generator.py:152 | the class given `@register_schema` and the skeleton is `generated_classes[-1]`, the last class generated | headings `# a`, `## a`, `### z`, `## c`, `### v`: the level-2 `a` generates `AView` first, so the top class is skipped and the last generated class is `CView` | the comments at lines 148-151 say the top-level class is decorated | not executed | GenPython.LastGeneratedNotTop | GenPython.TopClassDecorated |

=== FILE: src/gen_code.dfy ===
/** Emission of pydantic class code from the heading tree
    (`utils/generator.py`, `_generate_model_code` and
    `generate_python_code`). Every heading with children becomes a class,
    emitted after the classes of its children; every child becomes a field
    of its parent's class. */
module GenCode {
  import opened Wrappers
  import opened Text
  import opened GenNames
  import opened GenTree

  /** `ModelGenerator(indent="    ")`, the only indent the generator is
      built with. */
  const Indent := "    "

  // ---------------------------------------------------------------------
  // the class code of one heading
  // ---------------------------------------------------------------------

  /** `_generate_class_name` of the node of each heading; the definitions
      below take these names as the parameter `ns`. */
  function ClassNames(hs: seq<Heading>): (ns: seq<string>)
    ensures |ns| == |hs|
  {
    seq(|hs|, k requires 0 <= k < |hs| => ClassName(hs[k].ident, hs[k].level))
  }

  /** `is_leaf` of the node of heading `k` in the finished tree. */
  predicate IsLeafAt(hs: seq<Heading>, k: nat)
    requires k < |hs|
  {
    Kids(hs, k) == []
  }

  function ClassHeader(name: string): string {
    "class " + name + "(BaseModel):"
  }

  function TitleExtra(title: string): string {
    Indent + Indent + "json_schema_extra={\"markdown_title\": \"" + title + "\"}"
  }

  /** The four lines of the field for child heading `c`: `Optional[str]`
      defaulting to `None` for a leaf, the child's class with a
      `default_factory` otherwise. */
  function FieldLines(hs: seq<Heading>, ns: seq<string>, c: nat): (ls: seq<string>)
    requires |ns| == |hs| && c < |hs|
    ensures |ls| == 4
  {
    if IsLeafAt(hs, c) then
      [Indent + hs[c].ident + ": Optional[str] = Field(",
       Indent + Indent + "None,",
       TitleExtra(hs[c].title),
       Indent + ")"]
    else
      [Indent + hs[c].ident + ": " + ns[c] + " = Field(",
       Indent + Indent + "default_factory=" + ns[c] + ",",
       TitleExtra(hs[c].title),
       Indent + ")"]
  }

  /** The field lines of the children `cs`, in order. */
  function FieldsOf(hs: seq<Heading>, ns: seq<string>, cs: seq<nat>): (ls: seq<string>)
    requires |ns| == |hs| && forall i :: 0 <= i < |cs| ==> cs[i] < |hs|
    ensures |ls| == 4 * |cs|
  {
    if cs == [] then []
    else FieldsOf(hs, ns, cs[..|cs| - 1]) + FieldLines(hs, ns, cs[|cs| - 1])
  }

  /** The lines of the class of heading `k`: header, the raw heading line
      as docstring, then one field per child. */
  function ClassLines(hs: seq<Heading>, ns: seq<string>, k: nat): (ls: seq<string>)
    requires |ns| == |hs| && k < |hs|
    ensures |ls| == 2 + 4 * |Kids(hs, k)| && ls[0] == ClassHeader(ns[k])
  {
    [ClassHeader(ns[k]), Indent + "\"\"\"" + hs[k].raw + "\"\"\""]
      + FieldsOf(hs, ns, Kids(hs, k))
  }

  function ClassCode(hs: seq<Heading>, ns: seq<string>, k: nat): string
    requires |ns| == |hs| && k < |hs|
  {
    Join(ClassLines(hs, ns, k), "\n")
  }

  /** `filter(None, parts)`: the non-empty strings, in order. */
  function NonEmpty(parts: seq<string>): (r: seq<string>)
    ensures forall i :: 0 <= i < |r| ==> r[i] != ""
  {
    if parts == [] then []
    else NonEmpty(parts[..|parts| - 1]) + (if parts[|parts| - 1] == "" then [] else [parts[|parts| - 1]])
  }

  /** `"\n".join(filter(None, parts))`. */
  function JoinNonEmpty(parts: seq<string>): string {
    Join(NonEmpty(parts), "\n")
  }

  predicate NoDup(s: seq<string>) {
    forall i, j :: 0 <= i < j < |s| ==> s[i] != s[j]
  }

  // ---------------------------------------------------------------------
  // the reference definition of `_generate_model_code`
  // ---------------------------------------------------------------------

  /** What code generation needs of the heading tree: for each heading the
      indices of its children, its class name and its class code. */
  datatype ClassTree = ClassTree(kids: seq<seq<nat>>, names: seq<string>, codes: seq<string>) {
    /** One name and one code per heading; children come after their parent. */
    predicate Valid() {
      |names| == |kids| && |codes| == |kids| &&
      forall k, i :: 0 <= k < |kids| && 0 <= i < |kids[k]| ==> k < kids[k][i] < |kids|
    }

    /** Every class's code starts with its header line. */
    predicate Headed()
      requires Valid()
    {
      forall k :: 0 <= k < |kids| ==> ClassHeader(names[k]) <= codes[k]
    }
  }

  /** The class tree of a document's headings. */
  function TreeOf(hs: seq<Heading>): (t: ClassTree)
    ensures t.Valid() && |t.kids| == |hs|
  {
    var ns := ClassNames(hs);
    ClassTree(seq(|hs|, k requires 0 <= k < |hs| => Kids(hs, k)),
              ns,
              seq(|hs|, k requires 0 <= k < |hs| => ClassCode(hs, ns, k)))
  }

  /** The code emitted for heading `k` and the list of generated class
      names afterwards, starting from `gen`. */
  function Gen(t: ClassTree, k: nat, gen: seq<string>): (r: (string, seq<string>))
    requires t.Valid() && k < |t.kids|
    decreases |t.kids| - k, 1
  {
    if t.kids[k] == [] then ("", gen)
    else
      var (codes, g) := ChildCodes(t, k, |t.kids[k]|, gen);
      if t.names[k] in g then (JoinNonEmpty(codes), g)
      else (JoinNonEmpty(codes + [t.codes[k]]), g + [t.names[k]])
  }

  /** The codes of the non-leaf children among the first `i` children of
      heading `k`, and the list of generated class names after them. */
  function ChildCodes(t: ClassTree, k: nat, i: nat, gen: seq<string>): (r: (seq<string>, seq<string>))
    requires t.Valid() && k < |t.kids| && i <= |t.kids[k]|
    decreases |t.kids| - k, 0, i
  {
    if i == 0 then ([], gen)
    else
      var (codes, g) := ChildCodes(t, k, i - 1, gen);
      var c := t.kids[k][i - 1];
      if t.kids[c] == [] then (codes, g)
      else
        var (code, g') := Gen(t, c, g);
        (codes + [code], g')
  }

  /** The list of generated class names once the children of heading `k`
      have been visited. */
  function AfterChildren(t: ClassTree, k: nat, gen: seq<string>): seq<string>
    requires t.Valid() && k < |t.kids|
  {
    ChildCodes(t, k, |t.kids[k]|, gen).1
  }

  // ---------------------------------------------------------------------
  // what `_generate_model_code` promises
  // ---------------------------------------------------------------------

  /** `generated_classes` only grows, never gains a duplicate, and holds the
      class of every non-leaf heading once it has been visited; a leaf
      emits nothing and leaves the list alone. */
  lemma {:induction false} GenGrows(t: ClassTree, k: nat, gen: seq<string>)
    requires t.Valid() && k < |t.kids|
    ensures gen <= Gen(t, k, gen).1
    ensures NoDup(gen) ==> NoDup(Gen(t, k, gen).1)
    ensures t.kids[k] != [] ==> t.names[k] in Gen(t, k, gen).1
    ensures t.kids[k] == [] ==> Gen(t, k, gen) == ("", gen)
    decreases |t.kids| - k, 1
  {
    if t.kids[k] != [] {
      ChildCodesGrow(t, k, |t.kids[k]|, gen);
      var g := AfterChildren(t, k, gen);
      var name := t.names[k];
      if name !in g {
        assert NoDup(g) ==> NoDup(g + [name]) by {
          if NoDup(g) {
            forall i, j | 0 <= i < j < |g| + 1 ensures (g + [name])[i] != (g + [name])[j] {
              if j == |g| {
                assert (g + [name])[i] == g[i];
              }
            }
          }
        }
        PrefixTrans(gen, g, g + [name]);
      }
    }
  }

  lemma {:induction false} ChildCodesGrow(t: ClassTree, k: nat, i: nat, gen: seq<string>)
    requires t.Valid() && k < |t.kids| && i <= |t.kids[k]|
    ensures gen <= ChildCodes(t, k, i, gen).1
    ensures NoDup(gen) ==> NoDup(ChildCodes(t, k, i, gen).1)
    ensures forall j :: 0 <= j < i && t.kids[t.kids[k][j]] != [] ==> t.names[t.kids[k][j]] in ChildCodes(t, k, i, gen).1
    decreases |t.kids| - k, 0, i
  {
    if i > 0 {
      ChildCodesGrow(t, k, i - 1, gen);
      var g := ChildCodes(t, k, i - 1, gen).1;
      var c := t.kids[k][i - 1];
      if t.kids[c] != [] {
        GenGrows(t, c, g);
        var g' := Gen(t, c, g).1;
        assert ChildCodes(t, k, i, gen).1 == g';
        PrefixTrans(gen, g, g');
        forall j | 0 <= j < i && t.kids[t.kids[k][j]] != [] ensures t.names[t.kids[k][j]] in g' {
          if j < i - 1 {
            PrefixIn(g, g', t.names[t.kids[k][j]]);
          }
        }
      } else {
        assert ChildCodes(t, k, i, gen).1 == g;
      }
    }
  }

  lemma PrefixTrans(a: seq<string>, b: seq<string>, c: seq<string>)
    requires a <= b && b <= c
    ensures a <= c
  {
    assert c[..|a|] == b[..|a|];
  }

  lemma PrefixIn(a: seq<string>, b: seq<string>, x: string)
    requires a <= b && x in a
    ensures x in b
  {
    var i :| 0 <= i < |a| && a[i] == x;
    assert b[i] == x;
  }

  /** Bottom-up emission: the classes of all non-leaf children are in the
      list before the class of heading `k` is considered; that class is
      emitted, last in the code and last in the list, exactly when its name
      is not yet in the list, and otherwise nothing is added. */
  lemma GenBottomUp(t: ClassTree, k: nat, gen: seq<string>)
    requires t.Valid() && k < |t.kids| && t.kids[k] != []
    ensures forall c :: c in t.kids[k] && t.kids[c] != [] ==> t.names[c] in AfterChildren(t, k, gen)
    ensures t.names[k] in AfterChildren(t, k, gen) ==> Gen(t, k, gen).1 == AfterChildren(t, k, gen)
    ensures t.names[k] !in AfterChildren(t, k, gen) ==>
              Gen(t, k, gen).1 == AfterChildren(t, k, gen) + [t.names[k]] &&
              EndsWith(Gen(t, k, gen).0, t.codes[k])
  {
    var cs := t.kids[k];
    ChildCodesGrow(t, k, |cs|, gen);
    var codes := ChildCodes(t, k, |cs|, gen).0;
    forall c | c in cs && t.kids[c] != [] ensures t.names[c] in AfterChildren(t, k, gen) {
      var j :| 0 <= j < |cs| && cs[j] == c;
    }
    if t.names[k] !in AfterChildren(t, k, gen) {
      JoinNonEmptySnoc(codes, t.codes[k]);
      if t.codes[k] == "" {
      } else if NonEmpty(codes) != [] {
        var pre := JoinNonEmpty(codes) + "\n";
        assert Gen(t, k, gen).0 == pre + t.codes[k];
      }
    }
  }

  predicate EndsWith(s: string, suffix: string) {
    |suffix| <= |s| && s[|s| - |suffix|..] == suffix
  }

  lemma {:induction false} JoinSnoc(parts: seq<string>, x: string, sep: string)
    requires parts != []
    ensures Join(parts + [x], sep) == Join(parts, sep) + sep + x
    decreases |parts|
  {
    if |parts| > 1 {
      assert (parts + [x])[1..] == parts[1..] + [x];
      JoinSnoc(parts[1..], x, sep);
    }
  }

  /** Adding one more part to `"\n".join(filter(None, parts))`. */
  lemma JoinNonEmptySnoc(parts: seq<string>, x: string)
    ensures x == "" ==> JoinNonEmpty(parts + [x]) == JoinNonEmpty(parts)
    ensures x != "" && NonEmpty(parts) == [] ==> JoinNonEmpty(parts + [x]) == x
    ensures x != "" && NonEmpty(parts) != [] ==> JoinNonEmpty(parts + [x]) == JoinNonEmpty(parts) + "\n" + x
  {
    assert (parts + [x])[..|parts|] == parts;
    assert NonEmpty(parts + [x]) == NonEmpty(parts) + (if x == "" then [] else [x]);
    if x == "" {
      assert NonEmpty(parts) + [] == NonEmpty(parts);
    } else if NonEmpty(parts) != [] {
      JoinSnoc(NonEmpty(parts), x, "\n");
    }
  }

  /** Adding a part keeps whatever the joined text already contained. */
  lemma JoinNonEmptyExtend(parts: seq<string>, x: string, needle: string)
    requires Contains(JoinNonEmpty(parts), needle)
    ensures Contains(JoinNonEmpty(parts + [x]), needle)
  {
    JoinNonEmptySnoc(parts, x);
    var j := JoinNonEmpty(parts);
    if x != "" {
      if NonEmpty(parts) == [] {
        assert needle == [];
      } else {
        ContainsExtend(j, "\n" + x, needle);
        assert j + "\n" + x == j + ("\n" + x);
      }
    }
  }

  /** The text of an added part occurs in the joined text. */
  lemma JoinNonEmptyAfter(parts: seq<string>, x: string, needle: string)
    requires Contains(x, needle)
    ensures Contains(JoinNonEmpty(parts + [x]), needle)
  {
    JoinNonEmptySnoc(parts, x);
    if x == "" {
      assert needle == [];
    } else if NonEmpty(parts) != [] {
      ContainsAfter(JoinNonEmpty(parts) + "\n", x, needle);
    }
  }

  /** Every class name this call adds to `generated_classes` has its
      `class Name(BaseModel):` header in the emitted code. */
  lemma {:induction false} GenHeaders(t: ClassTree, k: nat, gen: seq<string>)
    requires t.Valid() && t.Headed() && k < |t.kids|
    ensures forall j :: |gen| <= j < |Gen(t, k, gen).1| ==>
              Contains(Gen(t, k, gen).0, ClassHeader(Gen(t, k, gen).1[j]))
    decreases |t.kids| - k, 1
  {
    if t.kids[k] != [] {
      ChildHeaders(t, k, |t.kids[k]|, gen);
      var (codes, g) := ChildCodes(t, k, |t.kids[k]|, gen);
      if t.names[k] !in g {
        var r := Gen(t, k, gen);
        var cc := t.codes[k];
        forall j | |gen| <= j < |r.1| ensures Contains(r.0, ClassHeader(r.1[j])) {
          if j < |g| {
            assert r.1[j] == g[j];
            JoinNonEmptyExtend(codes, cc, ClassHeader(g[j]));
          } else {
            JoinNonEmptyAfter(codes, cc, ClassHeader(t.names[k]));
          }
        }
      }
    }
  }

  lemma {:induction false} ChildHeaders(t: ClassTree, k: nat, i: nat, gen: seq<string>)
    requires t.Valid() && t.Headed() && k < |t.kids| && i <= |t.kids[k]|
    ensures forall j :: |gen| <= j < |ChildCodes(t, k, i, gen).1| ==>
              Contains(JoinNonEmpty(ChildCodes(t, k, i, gen).0), ClassHeader(ChildCodes(t, k, i, gen).1[j]))
    decreases |t.kids| - k, 0, i
  {
    if i > 0 {
      ChildHeaders(t, k, i - 1, gen);
      var (codes, g) := ChildCodes(t, k, i - 1, gen);
      var c := t.kids[k][i - 1];
      if t.kids[c] != [] {
        GenHeaders(t, c, g);
        GenGrows(t, c, g);
        var (code, g') := Gen(t, c, g);
        assert ChildCodes(t, k, i, gen) == (codes + [code], g');
        forall j | |gen| <= j < |g'| ensures Contains(JoinNonEmpty(codes + [code]), ClassHeader(g'[j])) {
          if j < |g| {
            assert g'[j] == g[j];
            JoinNonEmptyExtend(codes, code, ClassHeader(g[j]));
          } else {
            JoinNonEmptyAfter(codes, code, ClassHeader(g'[j]));
          }
        }
      }
    }
  }

  /** The class tree of a document has every class's header at the start
      of its code. */
  lemma TreeOfHeaded(hs: seq<Heading>)
    ensures TreeOf(hs).Headed()
  {
    var t := TreeOf(hs);
    forall k | 0 <= k < |hs| ensures ClassHeader(t.names[k]) <= t.codes[k] {
      var ls := ClassLines(hs, t.names, k);
      assert t.codes[k] == Join(ls, "\n");
      assert Join(ls, "\n") == ls[0] + "\n" + Join(ls[1..], "\n");
    }
  }

  // ---------------------------------------------------------------------
  // `_generate_model_code` on the nodes
  // ---------------------------------------------------------------------

  /** What the links say about node `j` of a finished tree. */
  lemma NodeAt(nodes: seq<MarkdownNode>, hs: seq<Heading>, j: nat)
    requires |nodes| == |hs| && Linked(nodes, hs) && j < |hs|
    ensures nodes[j].Header() == hs[j]
    ensures nodes[j].children == Pick(nodes, Kids(hs, j))
    ensures nodes[j].IsLeaf() <==> IsLeafAt(hs, j)
  {
  }

  /** The children of the node of heading `k` are the nodes of its child
      headings, and a child node is a leaf exactly when its heading is. */
  lemma ChildrenAt(nodes: seq<MarkdownNode>, hs: seq<Heading>, k: nat)
    requires |nodes| == |hs| && Linked(nodes, hs) && k < |hs|
    ensures |nodes[k].children| == |TreeOf(hs).kids[k]|
    ensures forall i :: 0 <= i < |nodes[k].children| ==>
              var c := TreeOf(hs).kids[k][i];
              nodes[k].children[i] == nodes[c] && (nodes[c].IsLeaf() <==> TreeOf(hs).kids[c] == [])
  {
    var t := TreeOf(hs);
    NodeAt(nodes, hs, k);
    forall i | 0 <= i < |nodes[k].children|
      ensures nodes[k].children[i] == nodes[t.kids[k][i]] && (nodes[t.kids[k][i]].IsLeaf() <==> t.kids[t.kids[k][i]] == [])
    {
      NodeAt(nodes, hs, t.kids[k][i]);
    }
  }

  /** `_generate_model_code(node, generated_classes)`: the code of the
      classes of `node`'s subtree that are not yet in `generated`, children
      first, and the list with their names appended. */
  method GenerateModelCode(node: MarkdownNode, ghost nodes: seq<MarkdownNode>, ghost hs: seq<Heading>, ghost k: nat,
                           generated: seq<string>) returns (code: string, generated': seq<string>)
    requires |nodes| == |hs| && Linked(nodes, hs) && k < |hs| && node == nodes[k]
    ensures (code, generated') == Gen(TreeOf(hs), k, generated)
    decreases |hs| - k, 1
  {
    ghost var t := TreeOf(hs);
    NodeAt(nodes, hs, k);
    assert t.kids[k] == Kids(hs, k);
    if node.IsLeaf() {
      return "", generated;
    }
    var childCodes;
    childCodes, generated' := GenerateChildren(node, nodes, hs, k, generated);
    var className := ClassName(node.ident, node.level);
    assert className == t.names[k];
    if className in generated' {
      code := JoinNonEmpty(childCodes);
      return;
    }
    var lines := ClassLinesOf(node, nodes, hs, k);
    generated' := generated' + [className];
    code := JoinNonEmpty(childCodes + [Join(lines, "\n")]);
  }

  /** The loop of `_generate_model_code` over the children of `node`: the
      code of each non-leaf child, in order, threading the list of
      generated class names. */
  method GenerateChildren(node: MarkdownNode, ghost nodes: seq<MarkdownNode>, ghost hs: seq<Heading>, ghost k: nat,
                          generated: seq<string>) returns (childCodes: seq<string>, generated': seq<string>)
    requires |nodes| == |hs| && Linked(nodes, hs) && k < |hs| && node == nodes[k]
    ensures (childCodes, generated') == ChildCodes(TreeOf(hs), k, |TreeOf(hs).kids[k]|, generated)
    decreases |hs| - k, 0
  {
    ghost var t := TreeOf(hs);
    ghost var cs := t.kids[k];
    ChildrenAt(nodes, hs, k);
    childCodes := [];
    generated' := generated;
    for i := 0 to |node.children|
      invariant (childCodes, generated') == ChildCodes(t, k, i, generated)
    {
      var child := node.children[i];
      if !child.IsLeaf() {
        var c;
        c, generated' := GenerateModelCode(child, nodes, hs, cs[i], generated');
        childCodes := childCodes + [c];
      }
    }
  }

  /** The lines of the class of `node`: header, docstring, and the fields
      of its children in order. */
  method ClassLinesOf(node: MarkdownNode, ghost nodes: seq<MarkdownNode>, ghost hs: seq<Heading>, ghost k: nat)
      returns (lines: seq<string>)
    requires |nodes| == |hs| && Linked(nodes, hs) && k < |hs| && node == nodes[k]
    ensures lines == ClassLines(hs, ClassNames(hs), k)
  {
    NodeAt(nodes, hs, k);
    var className := ClassName(node.ident, node.level);
    var fields := FieldsOfNodes(node.children, nodes, hs, Kids(hs, k));
    lines := [ClassHeader(className), Indent + "\"\"\"" + node.rawTitle + "\"\"\""] + fields;
  }

  /** The field lines of `children`, the nodes of headings `cs`. */
  method FieldsOfNodes(children: seq<MarkdownNode>, ghost nodes: seq<MarkdownNode>, ghost hs: seq<Heading>, ghost cs: seq<nat>)
      returns (fields: seq<string>)
    requires |nodes| == |hs| && Linked(nodes, hs) && |children| == |cs|
    requires forall i :: 0 <= i < |cs| ==> cs[i] < |hs| && children[i] == nodes[cs[i]]
    ensures fields == FieldsOf(hs, ClassNames(hs), cs)
  {
    fields := [];
    for i := 0 to |children|
      invariant fields == FieldsOf(hs, ClassNames(hs), cs[..i])
    {
      var field := FieldLinesOf(children[i], nodes, hs, cs[i]);
      FieldsOfSnoc(hs, ClassNames(hs), cs, i);
      fields := fields + field;
    }
    assert cs[..|cs|] == cs;
  }

  lemma FieldsOfSnoc(hs: seq<Heading>, ns: seq<string>, cs: seq<nat>, i: nat)
    requires |ns| == |hs| && i < |cs| && forall j :: 0 <= j < |cs| ==> cs[j] < |hs|
    ensures FieldsOf(hs, ns, cs[..i + 1]) == FieldsOf(hs, ns, cs[..i]) + FieldLines(hs, ns, cs[i])
  {
    assert cs[..i + 1][..i] == cs[..i];
  }

  /** The four lines of the field for `child`. */
  method FieldLinesOf(child: MarkdownNode, ghost nodes: seq<MarkdownNode>, ghost hs: seq<Heading>, ghost c: nat)
      returns (lines: seq<string>)
    requires |nodes| == |hs| && Linked(nodes, hs) && c < |hs| && child == nodes[c]
    ensures lines == FieldLines(hs, ClassNames(hs), c)
  {
    NodeAt(nodes, hs, c);
    if child.IsLeaf() {
      lines := [Indent + child.ident + ": Optional[str] = Field(",
                Indent + Indent + "None,",
                TitleExtra(child.title),
                Indent + ")"];
    } else {
      var childClass := ClassName(child.ident, child.level);
      lines := [Indent + child.ident + ": " + childClass + " = Field(",
                Indent + Indent + "default_factory=" + childClass + ",",
                TitleExtra(child.title),
                Indent + ")"];
    }
  }
}

=== FILE: src/gen_names.dfy ===
/** The naming rules of the skeleton-to-schema generator
    (`utils/generator.py`): how a heading line yields a field identifier
    and a title, and how an identifier yields a class name. */
module GenNames {
  import opened Wrappers
  import opened Text
  import opened Skeleton

  // ---------------------------------------------------------------------
  // class names
  // ---------------------------------------------------------------------

  /** `str.title()` continued after a character that was (`afterCased`) or
      was not a cased letter: a letter after a non-letter is upper-cased,
      a letter after a letter is lower-cased, anything else is kept. */
  function TitleFrom(s: string, afterCased: bool): (r: string)
    ensures |r| == |s|
    ensures s != [] && IsAsciiLetter(s[0]) ==>
              r[0] == (if afterCased then LowerChar(s[0]) else UpperChar(s[0]))
    ensures forall i :: 0 < i < |s| && IsAsciiLetter(s[i]) ==>
              r[i] == (if IsAsciiLetter(s[i - 1]) then LowerChar(s[i]) else UpperChar(s[i]))
  {
    if s == [] then []
    else
      var c := s[0];
      var cased := IsAsciiLetter(c);
      [if !cased then c else if afterCased then LowerChar(c) else UpperChar(c)] + TitleFrom(s[1..], cased)
  }

  /** Title-casing changes only the case of letters and keeps everything
      else. */
  lemma {:induction false} TitleFromKeeps(s: string, afterCased: bool)
    ensures forall i :: 0 <= i < |s| ==> LowerChar(TitleFrom(s, afterCased)[i]) == LowerChar(s[i])
    ensures forall i :: 0 <= i < |s| ==> !IsAsciiLetter(s[i]) ==> TitleFrom(s, afterCased)[i] == s[i]
  {
    if s != [] {
      TitleFromKeeps(s[1..], IsAsciiLetter(s[0]));
    }
  }

  /** `str.title()`. */
  function TitleCase(s: string): string {
    TitleFrom(s, false)
  }

  function TitleAll(parts: seq<string>): (r: seq<string>)
    ensures |r| == |parts|
    ensures forall i :: 0 <= i < |parts| ==> r[i] == TitleCase(parts[i])
  {
    if parts == [] then [] else [TitleCase(parts[0])] + TitleAll(parts[1..])
  }

  /** `_to_camel_case`: the `_`-separated parts, each title-cased, joined. */
  function ToCamelCase(s: string): string {
    Join(TitleAll(Split(s, '_')), "")
  }

  /** `_generate_class_name`: `View` for headings of level one or two,
      `SubView` below. */
  function ClassName(ident: string, level: nat): string {
    ToCamelCase(ident) + (if level <= 2 then "View" else "SubView")
  }

  lemma {:induction false} JoinFree(parts: seq<string>, c: char)
    requires forall i :: 0 <= i < |parts| ==> c !in parts[i]
    ensures c !in Join(parts, "")
  {
    if |parts| > 1 {
      JoinFree(parts[1..], c);
      assert Join(parts, "") == parts[0] + "" + Join(parts[1..], "");
    }
  }

  /** A camel-case name holds no underscore. */
  lemma CamelCaseNoUnderscore(s: string)
    ensures '_' !in ToCamelCase(s)
  {
    var parts := Split(s, '_');
    SplitParts(s, '_');
    var titled := TitleAll(parts);
    forall i | 0 <= i < |titled| ensures '_' !in titled[i] {
      var p := parts[i];
      TitleFromKeeps(p, false);
      forall k | 0 <= k < |p| ensures titled[i][k] != '_' {
        assert p[k] != '_';
        if !IsAsciiLetter(p[k]) {
          assert titled[i][k] == p[k];
        }
      }
    }
    JoinFree(titled, '_');
  }

  /** A word of lower-case ASCII letters, title-cased, has its first
      letter upper-cased. */
  lemma {:induction false} TitleCaseWord(w: string)
    requires w != [] && forall i :: 0 <= i < |w| ==> IsAsciiLower(w[i])
    ensures TitleCase(w) == [UpperChar(w[0])] + w[1..]
  {
    LowerTail(w[1..]);
  }

  lemma {:induction false} LowerTail(w: string)
    requires forall i :: 0 <= i < |w| ==> IsAsciiLower(w[i])
    ensures TitleFrom(w, true) == w
  {
    if w != [] {
      LowerTail(w[1..]);
    }
  }

  /** Two lower-case words joined by `_` give both words capitalised. */
  lemma {:induction false} CamelTwoWords(a: string, b: string)
    requires a != [] && forall i :: 0 <= i < |a| ==> IsAsciiLower(a[i])
    requires b != [] && forall i :: 0 <= i < |b| ==> IsAsciiLower(b[i])
    ensures ToCamelCase(a + "_" + b) == [UpperChar(a[0])] + a[1..] + [UpperChar(b[0])] + b[1..]
  {
    assert '_' !in a by {
      forall i | 0 <= i < |a| ensures a[i] != '_' { assert IsAsciiLower(a[i]); }
    }
    assert '_' !in b by {
      forall i | 0 <= i < |b| ensures b[i] != '_' { assert IsAsciiLower(b[i]); }
    }
    SplitAtSep(a, '_', b);
    assert Split(b, '_') == [b] by {
      IndexOfNone(b, '_');
    }
    TitleCaseWord(a);
    TitleCaseWord(b);
    assert TitleAll([a, b]) == [TitleCase(a), TitleCase(b)] by {
      assert [a, b][1..] == [b];
    }
    assert Join([TitleCase(a), TitleCase(b)], "") == TitleCase(a) + "" + TitleCase(b) by {
      assert [TitleCase(a), TitleCase(b)][1..] == [TitleCase(b)];
    }
  }

  /** So a level-two heading `section_a` is declared as `SectionAView`. */
  lemma ClassNameTwoWords(a: string, b: string, level: nat)
    requires a != [] && forall i :: 0 <= i < |a| ==> IsAsciiLower(a[i])
    requires b != [] && forall i :: 0 <= i < |b| ==> IsAsciiLower(b[i])
    ensures ClassName(a + "_" + b, level)
            == [UpperChar(a[0])] + a[1..] + [UpperChar(b[0])] + b[1..] + (if level <= 2 then "View" else "SubView")
  {
    CamelTwoWords(a, b);
  }

  // ---------------------------------------------------------------------
  // identifiers from titles
  // ---------------------------------------------------------------------

  /** Characters of the class `[#\s\d\.]` stripped from the front of a title. */
  predicate IsNumbering(c: char) {
    c == '#' || IsSpace(c) || IsDigit(c) || c == '.'
  }

  predicate IsNameChar(c: char) {
    IsWordChar(c) || IsSpace(c)
  }

  /** `re.sub(r'[^\w\s]', '', s)`. */
  function KeepNameChars(s: string): (r: string)
    ensures forall i :: 0 <= i < |r| ==> IsNameChar(r[i])
    ensures (forall i :: 0 <= i < |s| ==> IsNameChar(s[i])) ==> r == s
  {
    if s == [] then []
    else if IsNameChar(s[0]) then [s[0]] + KeepNameChars(s[1..])
    else KeepNameChars(s[1..])
  }

  /** `re.sub(r'\s+', '_', s)`. */
  function Underscores(s: string): (r: string)
    ensures forall i :: 0 <= i < |r| ==> !IsSpace(r[i])
    ensures (forall i :: 0 <= i < |s| ==> IsNameChar(s[i])) ==> forall i :: 0 <= i < |r| ==> IsWordChar(r[i])
    ensures (forall i :: 0 <= i < |s| ==> !IsSpace(s[i])) ==> r == s
    decreases |s|
  {
    if s == [] then []
    else if IsSpace(s[0]) then "_" + Underscores(TrimLeftBy(s, IsSpace))
    else [s[0]] + Underscores(s[1..])
  }

  predicate IsUnderscore(c: char) { c == '_' }

  predicate IsIdentText(s: string) {
    forall i :: 0 <= i < |s| ==> IsWordChar(s[i]) && !IsAsciiUpper(s[i])
  }

  /** Lower-casing word characters gives word characters. */
  lemma {:induction false} LowerWords(s: string)
    requires forall i :: 0 <= i < |s| ==> IsWordChar(s[i])
    ensures IsIdentText(Lower(s))
  {
    forall i | 0 <= i < |s| ensures IsWordChar(Lower(s)[i]) && !IsAsciiUpper(Lower(s)[i]) {
      var c := s[i];
      assert Lower(s)[i] == LowerChar(c);
    }
  }

  /** Stripping keeps a property every character has. */
  lemma {:induction false} StripKeepsIdentText(s: string, p: char -> bool)
    requires IsIdentText(s)
    ensures IsIdentText(StripBy(s, p))
  {
    var t := TrimLeftBy(s, p);
    var r := StripBy(s, p);
    assert r == t[..|r|];
    forall i | 0 <= i < |r| ensures IsWordChar(r[i]) && !IsAsciiUpper(r[i]) {
      assert r[i] == s[SpanBy(s, p) + i];
    }
  }

  /** `_normalize_name`: leading numbering removed, punctuation dropped,
      whitespace runs turned into `_`, lower-cased, outer `_` stripped. */
  function NormalizeName(title: string): (r: string)
    ensures IsIdentText(r)
    ensures r == [] || (r[0] != '_' && r[|r| - 1] != '_')
  {
    var c := Lower(Underscores(KeepNameChars(Strip(TrimLeftBy(title, IsNumbering)))));
    LowerWords(Underscores(KeepNameChars(Strip(TrimLeftBy(title, IsNumbering)))));
    StripKeepsIdentText(c, IsUnderscore);
    StripBy(c, IsUnderscore)
  }

  /** A name the fallback rule produced, unless it starts with a digit,
      is normalised to itself. */
  lemma NormalizeNameStable(t: string)
    requires NormalizeName(t) == [] || !IsDigit(NormalizeName(t)[0])
    ensures NormalizeName(NormalizeName(t)) == NormalizeName(t)
  {
    var r := NormalizeName(t);
    StableSteps(r);
    LowerIdentText(r);
  }

  /** Every step of the fallback rule but lower-casing leaves a derived
      name that does not start with a digit unchanged. */
  lemma {:induction false} StableSteps(r: string)
    requires IsIdentText(r)
    requires r == [] || (r[0] != '_' && r[|r| - 1] != '_' && !IsDigit(r[0]))
    ensures Strip(TrimLeftBy(r, IsNumbering)) == r
    ensures Underscores(KeepNameChars(r)) == r
    ensures StripBy(r, IsUnderscore) == r
  {
    StableTrim(r);
    StableKeep(r);
    StableUnderscores(r);
  }

  lemma StableKeep(r: string)
    requires IsIdentText(r)
    ensures Underscores(KeepNameChars(r)) == r
  {
    assert forall i :: 0 <= i < |r| ==> IsNameChar(r[i]) && !IsSpace(r[i]);
  }

  lemma StableUnderscores(r: string)
    requires r == [] || (r[0] != '_' && r[|r| - 1] != '_')
    ensures StripBy(r, IsUnderscore) == r
  {
    assert SpanBy(r, IsUnderscore) == 0;
    assert TrimLeftBy(r, IsUnderscore) == r;
  }

  lemma {:induction false} StableTrim(r: string)
    requires IsIdentText(r)
    requires r == [] || !IsDigit(r[0])
    ensures Strip(TrimLeftBy(r, IsNumbering)) == r
  {
    if r != [] {
      assert !IsNumbering(r[0]);
      assert IsWordChar(r[0]) && IsWordChar(r[|r| - 1]);
    }
    StripOfStripped(r);
  }

  lemma {:induction false} LowerIdentText(r: string)
    requires IsIdentText(r)
    ensures Lower(r) == r
  {
    forall i | 0 <= i < |r| ensures Lower(r)[i] == r[i] {
      assert !IsUpper(r[i]);
    }
  }

  // ---------------------------------------------------------------------
  // identifier and title of a heading line
  // ---------------------------------------------------------------------

  /** Index of the last `c` in `s`. */
  function LastIndexOf(s: string, c: char): (r: Option<nat>)
    ensures r.Some? ==> r.value < |s| && s[r.value] == c && c !in s[r.value + 1..]
    ensures r.None? ==> c !in s
  {
    if s == [] then None
    else if s[|s| - 1] == c then Some(|s| - 1)
    else
      var r := LastIndexOf(s[..|s| - 1], c);
      assert r.Some? ==> s[r.value + 1..] == s[..|s| - 1][r.value + 1..] + [s[|s| - 1]];
      r
  }

  predicate AllSpace(s: string) {
    forall i :: 0 <= i < |s| ==> IsSpace(s[i])
  }

  lemma MarkerOfLength(s: string)
    requires MarkerLength(s) > 0
    ensures s[..MarkerLength(s)] == Marker(s[4..MarkerLength(s) - 1])
  {
    var n := MarkerLength(s);
    assert s[..n] == s[..4] + s[4..n - 1] + [s[n - 1]];
  }

  /** The match of `\[id:([a-zA-Z_][a-zA-Z0-9_]*)\]\s*$` in `line`: where it
      starts and the captured name.  Such a match can only start at the
      last `[` of the line. */
  function MarkerAtEnd(line: string): (r: Option<(nat, string)>)
    ensures r.Some? ==> var (j, name) := r.value;
              j + |Marker(name)| <= |line| && line[j..j + |Marker(name)|] == Marker(name)
              && IsIdent(name) && AllSpace(line[j + |Marker(name)|..])
  {
    match LastIndexOf(line, '[')
    case None => None
    case Some(j) =>
      var n := MarkerLength(line[j..]);
      if n > 0 && AllSpace(line[j + n..]) then
        MarkerOfLength(line[j..]);
        assert line[j..][..n] == line[j..j + n];
        Some((j, line[j..][4..n - 1]))
      else None
  }

  /** `_extract_id_and_title`: with a trailing `[id:NAME]` marker the
      identifier is NAME and the title is the text before the marker without
      its `#` run and outer whitespace; otherwise the title is the line
      without its `#` run and outer whitespace, and the identifier is
      derived from it. */
  function ExtractIdAndTitle(line: string): (r: (string, string))
    ensures r.1 == [] || (!IsSpace(r.1[0]) && !IsSpace(r.1[|r.1| - 1]))
    ensures IsIdent(r.0) || r.0 == NormalizeName(r.1)
    ensures MarkerAtEnd(line).Some? ==>
              r == (MarkerAtEnd(line).value.1, Strip(TrimLeftBy(Strip(line[..MarkerAtEnd(line).value.0]), IsHash)))
    ensures MarkerAtEnd(line).None? ==>
              r == (NormalizeName(Strip(TrimLeftBy(line, IsHash))), Strip(TrimLeftBy(line, IsHash)))
  {
    var marker := MarkerAtEnd(line);
    if marker.Some? then
      (marker.value.1, Strip(TrimLeftBy(Strip(line[..marker.value.0]), IsHash)))
    else
      var title := Strip(TrimLeftBy(line, IsHash));
      (NormalizeName(title), title)
  }

  /** No `[` after the opening one of a marker and the whitespace after it. */
  lemma NoBracketAfterOpen(name: string, ws: string)
    requires IsIdent(name) && AllSpace(ws)
    ensures '[' !in (Marker(name) + ws)[1..]
  {
    assert (Marker(name) + ws)[1..] == "id:" + name + "]" + ws;
    assert '[' !in name by {
      forall i | 0 <= i < |name| ensures name[i] != '[' {
        assert IsIdentChar(name[i]);
      }
    }
    assert '[' !in ws by {
      forall i | 0 <= i < |ws| ensures ws[i] != '[' {
        assert IsSpace(ws[i]);
      }
    }
  }

  /** The marker the line ends with is found. */
  lemma {:induction false} MarkerAtEndOf(p: string, name: string, ws: string)
    requires IsIdent(name) && AllSpace(ws)
    ensures MarkerAtEnd(p + Marker(name) + ws) == Some((|p|, name))
  {
    var line := p + Marker(name) + ws;
    var j := |p|;
    var n := |Marker(name)|;
    var tail := Marker(name) + ws;
    assert line[j..] == tail by {
      assert line == p + tail;
    }
    assert LastIndexOf(line, '[') == Some(j) by {
      assert line[j + 1..] == tail[1..];
      NoBracketAfterOpen(name, ws);
      LastBracket(line, j);
    }
    assert MarkerLength(line[j..]) == n by {
      MarkerLengthOf(name, ws);
    }
    assert line[j + n..] == ws;
    assert line[j..][4..n - 1] == name by {
      MarkerName(name, ws);
    }
    MarkerFound(line, j, name);
  }

  lemma MarkerName(name: string, ws: string)
    ensures (Marker(name) + ws)[4..|Marker(name)| - 1] == name
  {
    var m := Marker(name);
    assert (m + ws)[4..|m| - 1] == m[4..|m| - 1];
  }

  /** The marker of `MarkerAtEnd` is read at the last `[`. */
  lemma MarkerFound(line: string, j: nat, name: string)
    requires LastIndexOf(line, '[') == Some(j) && j <= |line|
    requires MarkerLength(line[j..]) == |Marker(name)| && j + |Marker(name)| <= |line|
    requires AllSpace(line[j + |Marker(name)|..]) && line[j..][4..|Marker(name)| - 1] == name
    ensures MarkerAtEnd(line) == Some((j, name))
  {
  }

  /** A heading written with a trailing marker yields that marker's name,
      and the title written before it. */
  lemma {:induction false} ExtractMarked(p: string, name: string, ws: string)
    requires IsIdent(name) && AllSpace(ws)
    ensures ExtractIdAndTitle(p + Marker(name) + ws) == (name, Strip(TrimLeftBy(Strip(p), IsHash)))
  {
    MarkerAtEndOf(p, name, ws);
    var line := p + Marker(name) + ws;
    assert line[..|p|] == p;
  }

  lemma {:induction false} LastBracket(s: string, j: nat)
    requires j < |s| && s[j] == '[' && '[' !in s[j + 1..]
    ensures LastIndexOf(s, '[') == Some(j)
    decreases |s|
  {
    if j < |s| - 1 {
      assert s[|s| - 1] == s[j + 1..][|s| - j - 2];
      assert s[..|s| - 1][j + 1..] == s[j + 1..][..|s| - j - 2];
      LastBracket(s[..|s| - 1], j);
    }
  }

  /** A heading without any `[` falls back to the derived identifier. */
  lemma ExtractUnmarked(line: string)
    requires '[' !in line
    ensures ExtractIdAndTitle(line) == (NormalizeName(Strip(TrimLeftBy(line, IsHash))), Strip(TrimLeftBy(line, IsHash)))
  {
  }
}

=== FILE: src/gen_python.dfy ===
/** The module text `generate_python_code` writes for a skeleton document
    (`utils/generator.py`): import lines, the code of the class tree, the
    registration decorator and the skeleton text on the top class. */
module GenPython {
  import opened Wrappers
  import opened Text
  import opened GenNames
  import opened GenTree
  import opened GenCode

  /** The `IndexError` of `generated_classes[-1]` on an empty list. */
  datatype GenError = IndexError

  /** The four import lines at the head of every generated module. */
  const Preamble: seq<string> := [
    "# -*- coding: utf-8 -*-",
    "from typing import Optional",
    "from pydantic import BaseModel, Field",
    "from llm_structured_extract.core.schema_registry import register_schema"
  ]

  const Quotes := "\"\"\""

  /** The class attribute that carries the stripped document. */
  function SkeletonLine(md: string): string {
    Indent + "__business_architecture__: str = " + Quotes + "\n" + Strip(md) + "\n" + Quotes + ".strip()"
  }

  /** What the header of the decorated class becomes. */
  function Decorated(name: string, md: string): string {
    "@register_schema\n" + ClassHeader(name) + "\n" + SkeletonLine(md) + "\n"
  }

  /** The start of the docstring removal pattern: the class header, then the
      indent and an opening triple quote on the next line. */
  function DocOpen(hdr: string): string {
    hdr + "\n" + Indent + Quotes
  }

  /** `re.sub(hdr + '\n' + indent + '""".*?"""', hdr, s, flags=re.DOTALL)`:
      from the left, each header followed on the next line by a docstring
      loses the docstring up to the first closing triple quote. */
  function StripDoc(s: string, hdr: string): (r: string)
    ensures |r| <= |s|
    decreases |s|
  {
    if s == [] then []
    else if DocOpen(hdr) <= s then
      match Find(s[|DocOpen(hdr)|..], Quotes)
      case Some(i) => hdr + StripDoc(s[|DocOpen(hdr)| + i + |Quotes|..], hdr)
      case None => [s[0]] + StripDoc(s[1..], hdr)
    else [s[0]] + StripDoc(s[1..], hdr)
  }

  /** Text in which no header is followed by a docstring comes back
      unchanged. */
  lemma {:induction false} StripDocAbsent(s: string, hdr: string)
    requires !Contains(s, DocOpen(hdr))
    ensures StripDoc(s, hdr) == s
    decreases |s|
  {
    if s != [] {
      StripDocAbsent(s[1..], hdr);
    }
  }

  /** A header followed by a docstring without quote characters loses the
      docstring. */
  lemma StripDocRemoves(hdr: string, doc: string, rest: string)
    requires '"' !in doc
    ensures StripDoc(DocOpen(hdr) + doc + Quotes + rest, hdr) == hdr + StripDoc(rest, hdr)
  {
    var open := DocOpen(hdr);
    var s := open + doc + Quotes + rest;
    assert open <= s;
    var tail := s[|open|..];
    assert tail == doc + Quotes + rest;
    FindAfter(doc, rest);
    assert s[|open| + |doc| + |Quotes|..] == rest;
    assert StripDoc(s, hdr) == hdr + StripDoc(s[|open| + |doc| + |Quotes|..], hdr);
  }

  /** The first triple quote after text without quote characters is the one
      that follows it. */
  lemma {:induction false} FindAfter(doc: string, rest: string)
    requires '"' !in doc
    ensures Find(doc + Quotes + rest, Quotes) == Some(|doc|)
    decreases |doc|
  {
    var hay := doc + Quotes + rest;
    if doc == [] {
      assert hay == Quotes + rest;
      assert Quotes <= hay;
    } else {
      assert hay[0] == doc[0] != Quotes[0];
      assert !(Quotes <= hay);
      assert hay[1..] == doc[1..] + Quotes + rest;
      FindAfter(doc[1..], rest);
      assert Find(hay[1..], Quotes) == Some(|doc| - 1);
    }
  }

  /** `"\n".join(output)` over the import lines, the blank entry and the
      generated code. */
  function Module(code: string): string {
    Join(Preamble + ["\n", code], "\n")
  }

  /** The two substitutions on the generated code: the header of class
      `name` gets the decorator and the skeleton, then the docstring that
      follows a header of that class is removed. */
  function Finish(code: string, name: string, md: string): string {
    var hdr := ClassHeader(name);
    StripDoc(ReplaceAll(code, hdr, Decorated(name, md)), hdr)
  }

  /** `generate_python_code` as written: the decorated class is the last
      entry of `generated_classes`. */
  function PythonCodeAsWritten(md: string): Result<string, GenError> {
    var hs := MarkdownHeadings(md);
    if hs == [] then Ok("")
    else
      var (code, gen) := Gen(TreeOf(hs), 0, []);
      if gen == [] then Err(IndexError)
      else Ok(Module(Finish(code, gen[|gen| - 1], md)))
  }

  /** `generate_python_code` decorating the class of the top heading, as
      its comments intend. */
  function PythonCode(md: string): Result<string, GenError> {
    var hs := MarkdownHeadings(md);
    if hs == [] then Ok("")
    else
      var (code, gen) := Gen(TreeOf(hs), 0, []);
      if gen == [] then Err(IndexError)
      else Ok(Module(Finish(code, TreeOf(hs).names[0], md)))
  }

  // ---------------------------------------------------------------------
  // what `generate_python_code` promises
  // ---------------------------------------------------------------------

  /** The module is the import lines, two blank lines and the code. */
  lemma ModuleLayout(code: string)
    ensures Module(code) == Join(Preamble, "\n") + "\n\n\n" + code
  {
    var p := Preamble;
    assert Join(["\n", code], "\n") == "\n\n" + code;
    assert Join([p[3], "\n", code], "\n") == p[3] + "\n" + "\n\n" + code;
    assert Join([p[2], p[3], "\n", code], "\n") == p[2] + "\n" + (p[3] + "\n" + "\n\n" + code);
    assert Join([p[1], p[2], p[3], "\n", code], "\n") == p[1] + "\n" + (p[2] + "\n" + (p[3] + "\n" + "\n\n" + code));
    assert p + ["\n", code] == [p[0], p[1], p[2], p[3], "\n", code];
    assert Join([p[2], p[3]], "\n") == p[2] + "\n" + p[3];
    assert Join([p[1], p[2], p[3]], "\n") == p[1] + "\n" + (p[2] + "\n" + p[3]);
  }

  /** A document without headings gives the empty string, and only such a
      document does. */
  lemma PythonCodeEmpty(md: string)
    ensures PythonCode(md) == Ok("") <==> MarkdownHeadings(md) == []
  {
    var hs := MarkdownHeadings(md);
    if hs != [] && PythonCode(md).Ok? {
      var (code, gen) := Gen(TreeOf(hs), 0, []);
      ModuleLayout(Finish(code, TreeOf(hs).names[0], md));
    }
  }

  /** `generated_classes[-1]` fails exactly when the first heading has no
      children: then nothing was generated. */
  lemma PythonCodeError(md: string)
    ensures PythonCode(md).Err? <==> MarkdownHeadings(md) != [] && Kids(MarkdownHeadings(md), 0) == []
    ensures PythonCodeAsWritten(md).Err? <==> PythonCode(md).Err?
  {
    var hs := MarkdownHeadings(md);
    if hs != [] {
      GenGrows(TreeOf(hs), 0, []);
    }
  }

  /** A generated module starts with the four import lines followed by
      two blank lines. */
  lemma PythonCodePreamble(md: string)
    requires PythonCode(md).Ok? && MarkdownHeadings(md) != []
    ensures Join(Preamble, "\n") + "\n\n\n" <= PythonCode(md).value
  {
    var hs := MarkdownHeadings(md);
    var (code, gen) := Gen(TreeOf(hs), 0, []);
    ModuleLayout(Finish(code, TreeOf(hs).names[0], md));
  }

  /** The code handed to the substitutions holds the header of the top
      class, so the decorator and the skeleton are inserted there. */
  lemma TopClassDecorated(md: string)
    requires PythonCode(md).Ok? && MarkdownHeadings(md) != []
    ensures var hs := MarkdownHeadings(md);
            var code := Gen(TreeOf(hs), 0, []).0;
            var name := TreeOf(hs).names[0];
            Contains(code, ClassHeader(name)) &&
            Contains(ReplaceAll(code, ClassHeader(name), Decorated(name, md)), Decorated(name, md))
  {
    var hs := MarkdownHeadings(md);
    var t := TreeOf(hs);
    var name := t.names[0];
    PythonCodeError(md);
    GenGrows(t, 0, []);
    TreeOfHeaded(hs);
    GenHeaders(t, 0, []);
    var gen := Gen(t, 0, []).1;
    var j :| 0 <= j < |gen| && gen[j] == name;
    ReplaceAllPresent(Gen(t, 0, []).0, ClassHeader(name), Decorated(name, md));
  }

  /** The docstring removal never applies at a decorated header: the
      skeleton line, not the docstring, follows it. */
  lemma DocOpenMissesDecorated(name: string, md: string, rest: string)
    ensures !(DocOpen(ClassHeader(name)) <= ClassHeader(name) + "\n" + SkeletonLine(md) + rest)
  {
    var hdr := ClassHeader(name);
    var i := |hdr| + 1 + |Indent|;
    assert (hdr + "\n" + SkeletonLine(md) + rest)[i] == '_';
    assert DocOpen(hdr)[i] == '"';
  }

  // ---------------------------------------------------------------------
  // the decorated class
  // ---------------------------------------------------------------------

  /** The source and the intended behaviour agree unless a descendant of
      the top heading already generated a class of the top class's name. */
  lemma AsWrittenAgrees(md: string)
    requires MarkdownHeadings(md) != [] && Kids(MarkdownHeadings(md), 0) != []
    requires TreeOf(MarkdownHeadings(md)).names[0] !in AfterChildren(TreeOf(MarkdownHeadings(md)), 0, [])
    ensures PythonCodeAsWritten(md) == PythonCode(md)
  {
    var hs := MarkdownHeadings(md);
    GenBottomUp(TreeOf(hs), 0, []);
  }

  function H(level: nat, ident: string): Heading {
    Heading(level, ident, "#", ident)
  }

  const Example := [H(1, "a"), H(2, "a"), H(3, "z"), H(2, "c"), H(3, "v")]

  /** The headings `a` (level 1), `a` (2), `z` (3), `c` (2), `v` (3): the
      level-2 heading `a` generates `AView` first, so the top heading's
      class is not generated again and the last generated class is
      `CView`. */
  lemma LastGeneratedNotTop()
    ensures var gen := Gen(TreeOf(Example), 0, []).1;
            gen != [] && gen[|gen| - 1] != TreeOf(Example).names[0]
  {
    var t := TreeOf(Example);
    ExampleKids();
    ExampleNames();
    RepeatedNameSkipped(t);
  }

  lemma ExampleKids()
    ensures TreeOf(Example).kids == [[1, 3], [2], [], [4], []]
  {
    var hs := Example;
    assert ParentOf(hs, 0) == None;
    assert ParentOf(hs, 1) == Some(0);
    assert ParentOf(hs, 2) == Some(1);
    assert ParentOf(hs, 3) == Some(0);
    assert ParentOf(hs, 4) == Some(3);
    assert ChildIdx(hs, 1, 0) == [] && ChildIdx(hs, 1, 1) == [] && ChildIdx(hs, 1, 3) == [];
    assert ChildIdx(hs, 2, 0) == [1] && ChildIdx(hs, 2, 1) == [] && ChildIdx(hs, 2, 3) == [];
    assert ChildIdx(hs, 3, 0) == [1] && ChildIdx(hs, 3, 1) == [2] && ChildIdx(hs, 3, 3) == [];
    assert ChildIdx(hs, 4, 0) == [1, 3] && ChildIdx(hs, 4, 1) == [2] && ChildIdx(hs, 4, 3) == [];
    assert ChildIdx(hs, 5, 0) == [1, 3] && ChildIdx(hs, 5, 1) == [2] && ChildIdx(hs, 5, 3) == [4];
    NoChildrenYet(hs, 5, 4);
    NoChildrenYet(hs, 3, 2);
    assert ChildIdx(hs, 4, 2) == [] && ChildIdx(hs, 5, 2) == [];
  }

  lemma ExampleNames()
    ensures TreeOf(Example).names[0] == TreeOf(Example).names[1] != TreeOf(Example).names[3]
  {
    assert Split("a", '_') == ["a"];
    assert Split("c", '_') == ["c"];
    assert TreeOf(Example).names[0] == "AView";
    assert TreeOf(Example).names[3] == "CView";
  }

  /** In a tree of this shape whose level-2 heading repeats the top class's
      name, the last generated class is that of the other level-2 heading. */
  lemma RepeatedNameSkipped(t: ClassTree)
    requires t.Valid() && t.kids == [[1, 3], [2], [], [4], []]
    requires t.names[0] == t.names[1] != t.names[3]
    ensures Gen(t, 0, []).1 == [t.names[1], t.names[3]]
  {
    var g1 := [t.names[1]];
    var g3 := [t.names[1], t.names[3]];
    assert t.kids[1][0] == 2 && t.kids[2] == [];
    assert ChildCodes(t, 1, 1, []) == ([], []);
    assert Gen(t, 1, []).1 == g1;
    assert t.kids[3][0] == 4 && t.kids[4] == [];
    assert ChildCodes(t, 3, 1, g1) == ([], g1);
    assert Gen(t, 3, g1).1 == g3;
    assert t.kids[0][0] == 1 && t.kids[0][1] == 3;
    assert ChildCodes(t, 0, 1, []).1 == g1;
    assert ChildCodes(t, 0, 2, []).1 == g3;
    assert t.names[0] in g3;
  }

  // ---------------------------------------------------------------------
  // `generate_python_code` on the nodes
  // ---------------------------------------------------------------------

  /** `generate_python_code(md_content)`: parse the document, generate the
      classes of the first root's subtree, decorate the top class and put
      the import lines in front. */
  method GeneratePythonCode(md: string) returns (r: Result<string, GenError>)
    ensures r == PythonCode(md)
  {
    var roots, nodes := ParseMarkdown(md);
    ghost var hs := MarkdownHeadings(md);
    if |roots| == 0 {
      if hs != [] {
        FirstIsRoot(hs);
      }
      return Ok("");
    }
    FirstIsRoot(hs);
    var top := roots[0];
    var code, generated := GenerateModelCode(top, nodes, hs, 0, []);
    if |generated| == 0 {
      return Err(IndexError);
    }
    NodeAt(nodes, hs, 0);
    var name := ClassName(top.ident, top.level);
    assert name == TreeOf(hs).names[0];
    var hdr := ClassHeader(name);
    code := ReplaceAll(code, hdr, Decorated(name, md));
    code := StripDoc(code, hdr);
    r := Ok(Module(code));
  }
}

=== FILE: src/gen_tree.dfy ===
/** The heading tree of the skeleton-to-schema generator
    (`utils/generator.py`, `MarkdownNode` and `parse_markdown`): every line
    that starts with `#` becomes a node, attached to the nearest open node
    of a smaller level, which a stack of open nodes keeps track of. */
module GenTree {
  import opened Wrappers
  import opened Text
  import opened GenNames

  /** What a heading line contributes to its node: its level (the number of
      leading `#`, unbounded), title, stripped line and identifier. */
  datatype Heading = Heading(level: nat, title: string, raw: string, ident: string)

  /** The heading of a line: the stripped line must start with `#`. */
  function LineHeading(line: string): (r: Option<Heading>)
    ensures r.Some? <==> Strip(line) != [] && Strip(line)[0] == '#'
    ensures r.Some? ==> r.value.level >= 1 && r.value.raw == Strip(line)
    ensures r.Some? ==>
              && r.value.level <= |Strip(line)|
              && (forall k :: 0 <= k < r.value.level ==> Strip(line)[k] == '#')
              && (r.value.level == |Strip(line)| || Strip(line)[r.value.level] != '#')
    ensures r.Some? ==> (r.value.ident, r.value.title) == ExtractIdAndTitle(Strip(line))
  {
    var l := Strip(line);
    if l == [] || l[0] != '#' then None
    else
      var (ident, title) := ExtractIdAndTitle(l);
      Some(Heading(SpanBy(l, IsHash), title, l, ident))
  }

  /** The heading, if any, of each line. */
  function LineHeadings(lines: seq<string>): (os: seq<Option<Heading>>)
    ensures |os| == |lines|
  {
    seq(|lines|, j requires 0 <= j < |lines| => LineHeading(lines[j]))
  }

  /** The headings present in `os`, in order. */
  function Somes(os: seq<Option<Heading>>): (hs: seq<Heading>)
    ensures |hs| <= |os|
  {
    if os == [] then []
    else Somes(os[..|os| - 1]) + (if os[|os| - 1].Some? then [os[|os| - 1].value] else [])
  }

  /** The headings of a document, in order: one per line, after stripping
      the document as a whole, that starts with `#`. */
  function MarkdownHeadings(md: string): seq<Heading> {
    Somes(LineHeadings(Split(Strip(md), '\n')))
  }

  lemma {:induction false} SomesPrefix(os: seq<Option<Heading>>, i: nat)
    requires i <= |os|
    ensures Somes(os[..i]) <= Somes(os)
    decreases |os| - i
  {
    if i < |os| {
      SomesPrefix(os, i + 1);
      assert os[..i + 1][..i] == os[..i];
    } else {
      assert os[..i] == os;
    }
  }

  // ---------------------------------------------------------------------
  // the reference definition of the parent
  // ---------------------------------------------------------------------

  /** The nearest of the first `n` headings whose level is below `level`. */
  function Nearest(hs: seq<Heading>, n: nat, level: nat): (r: Option<nat>)
    requires n <= |hs|
    ensures r.Some? ==> r.value < n
  {
    if n == 0 then None
    else if hs[n - 1].level < level then Some(n - 1)
    else Nearest(hs, n - 1, level)
  }

  /** `Nearest` finds a heading of a smaller level with none between it and
      position `n`, or there is no heading of a smaller level at all. */
  lemma {:induction false} NearestIsNearest(hs: seq<Heading>, n: nat, level: nat)
    requires n <= |hs|
    ensures Nearest(hs, n, level).Some? ==>
              var p := Nearest(hs, n, level).value;
              hs[p].level < level && forall j :: p < j < n ==> hs[j].level >= level
    ensures Nearest(hs, n, level).None? ==> forall j :: 0 <= j < n ==> hs[j].level >= level
  {
    if n > 0 && hs[n - 1].level >= level {
      NearestIsNearest(hs, n - 1, level);
    }
  }

  /** The parent of heading `k`: the nearest preceding heading of a smaller
      level; `None` makes it a root. */
  function ParentOf(hs: seq<Heading>, k: nat): (r: Option<nat>)
    requires k < |hs|
    ensures r.Some? ==> r.value < k
  {
    Nearest(hs, k, hs[k].level)
  }

  /** Indices, among the first `n` headings, of the children of heading `k`. */
  function ChildIdx(hs: seq<Heading>, n: nat, k: nat): (cs: seq<nat>)
    requires n <= |hs|
    ensures forall i :: 0 <= i < |cs| ==> cs[i] < n
  {
    if n == 0 then []
    else ChildIdx(hs, n - 1, k) + (if ParentOf(hs, n - 1) == Some(k) then [n - 1] else [])
  }

  /** `ChildIdx` lists, in increasing order, exactly the headings below `n`
      whose parent is `k`. */
  lemma {:induction false} ChildIdxSpec(hs: seq<Heading>, n: nat, k: nat)
    requires n <= |hs|
    ensures forall i :: 0 <= i < |ChildIdx(hs, n, k)| ==>
              k < ChildIdx(hs, n, k)[i] && ParentOf(hs, ChildIdx(hs, n, k)[i]) == Some(k)
    ensures forall i, j :: 0 <= i < j < |ChildIdx(hs, n, k)| ==> ChildIdx(hs, n, k)[i] < ChildIdx(hs, n, k)[j]
    ensures forall c :: 0 <= c < n && ParentOf(hs, c) == Some(k) ==> c in ChildIdx(hs, n, k)
  {
    if n > 0 {
      var cs := ChildIdx(hs, n - 1, k);
      ChildIdxSpec(hs, n - 1, k);
      var add := if ParentOf(hs, n - 1) == Some(k) then [n - 1] else [];
      assert ChildIdx(hs, n, k) == cs + add;
      forall c | 0 <= c < n && ParentOf(hs, c) == Some(k) ensures c in cs + add {
        if c < n - 1 {
          assert c in cs;
        } else {
          assert add == [c];
        }
      }
    }
  }

  /** The children of heading `k` come after it. */
  lemma {:induction false} ChildIdxAfter(hs: seq<Heading>, n: nat, k: nat)
    requires n <= |hs|
    ensures forall i :: 0 <= i < |ChildIdx(hs, n, k)| ==> k < ChildIdx(hs, n, k)[i]
  {
    if n > 0 {
      ChildIdxAfter(hs, n - 1, k);
    }
  }

  /** The indices of the children of heading `k` in the whole document. */
  function Kids(hs: seq<Heading>, k: nat): (cs: seq<nat>)
    requires k < |hs|
    ensures forall i :: 0 <= i < |cs| ==> k < cs[i] < |hs|
  {
    ChildIdxAfter(hs, |hs|, k);
    ChildIdx(hs, |hs|, k)
  }

  /** Indices, among the first `n` headings, of the roots. */
  function RootIdx(hs: seq<Heading>, n: nat): (rs: seq<nat>)
    requires n <= |hs|
    ensures forall i :: 0 <= i < |rs| ==> rs[i] < n
  {
    if n == 0 then []
    else RootIdx(hs, n - 1) + (if ParentOf(hs, n - 1).None? then [n - 1] else [])
  }

  /** `RootIdx` lists, in increasing order, exactly the headings below `n`
      without a parent. */
  lemma {:induction false} RootIdxSpec(hs: seq<Heading>, n: nat)
    requires n <= |hs|
    ensures forall i :: 0 <= i < |RootIdx(hs, n)| ==> ParentOf(hs, RootIdx(hs, n)[i]).None?
    ensures forall i, j :: 0 <= i < j < |RootIdx(hs, n)| ==> RootIdx(hs, n)[i] < RootIdx(hs, n)[j]
    ensures forall c :: 0 <= c < n && ParentOf(hs, c).None? ==> c in RootIdx(hs, n)
  {
    if n > 0 {
      var rs := RootIdx(hs, n - 1);
      RootIdxSpec(hs, n - 1);
      var add := if ParentOf(hs, n - 1).None? then [n - 1] else [];
      assert RootIdx(hs, n) == rs + add;
      forall c | 0 <= c < n && ParentOf(hs, c).None? ensures c in rs + add {
        if c < n - 1 {
          assert c in rs;
        } else {
          assert add == [c];
        }
      }
    }
  }

  /** A heading has no children among the headings up to itself. */
  lemma {:induction false} NoChildrenYet(hs: seq<Heading>, n: nat, k: nat)
    requires n <= |hs| && n <= k + 1
    ensures ChildIdx(hs, n, k) == []
  {
    if n > 0 {
      NoChildrenYet(hs, n - 1, k);
    }
  }

  /** The first heading of a document is a root. */
  lemma FirstIsRoot(hs: seq<Heading>)
    requires hs != []
    ensures RootIdx(hs, |hs|) != [] && RootIdx(hs, |hs|)[0] == 0
  {
    RootIdxFirst(hs, |hs|);
  }

  lemma {:induction false} RootIdxFirst(hs: seq<Heading>, n: nat)
    requires 0 < n <= |hs|
    ensures RootIdx(hs, n) != [] && RootIdx(hs, n)[0] == 0
  {
    if n > 1 {
      RootIdxFirst(hs, n - 1);
    }
  }

  // ---------------------------------------------------------------------
  // the stack of open headings
  // ---------------------------------------------------------------------

  /** `while stack and stack[-1].level >= level: stack.pop()`. */
  function Pop(hs: seq<Heading>, sp: seq<nat>, level: nat): (r: seq<nat>)
    requires forall i :: 0 <= i < |sp| ==> sp[i] < |hs|
    ensures r <= sp
  {
    if sp == [] || hs[sp[|sp| - 1]].level < level then sp
    else Pop(hs, sp[..|sp| - 1], level)
  }

  /** The stack after the first `n` headings. */
  function Spine(hs: seq<Heading>, n: nat): (sp: seq<nat>)
    requires n <= |hs|
    ensures forall i :: 0 <= i < |sp| ==> sp[i] < n
  {
    if n == 0 then []
    else Pop(hs, Spine(hs, n - 1), hs[n - 1].level) + [n - 1]
  }

  function Last(sp: seq<nat>): Option<nat> {
    if sp == [] then None else Some(sp[|sp| - 1])
  }

  /** Popping to a level and then to a lower one pops to the lower one. */
  lemma {:induction false} PopPop(hs: seq<Heading>, sp: seq<nat>, a: nat, b: nat)
    requires forall i :: 0 <= i < |sp| ==> sp[i] < |hs|
    requires b <= a
    ensures Pop(hs, Pop(hs, sp, a), b) == Pop(hs, sp, b)
  {
    if sp != [] && hs[sp[|sp| - 1]].level >= a {
      PopPop(hs, sp[..|sp| - 1], a, b);
    }
  }

  /** The stack finds the reference parent: after popping every open
      heading of level `level` or more, the top is the nearest preceding
      heading of a smaller level. */
  lemma {:induction false} SpineNearest(hs: seq<Heading>, n: nat, level: nat)
    requires n <= |hs|
    ensures Last(Pop(hs, Spine(hs, n), level)) == Nearest(hs, n, level)
  {
    if n > 0 {
      var l := hs[n - 1].level;
      var p := Pop(hs, Spine(hs, n - 1), l);
      assert Spine(hs, n) == p + [n - 1];
      if l >= level {
        assert (p + [n - 1])[..|p|] == p;
        PopPop(hs, Spine(hs, n - 1), l, level);
        SpineNearest(hs, n - 1, level);
      }
    }
  }

  // ---------------------------------------------------------------------
  // the nodes
  // ---------------------------------------------------------------------

  /** `MarkdownNode`: the fields fixed at creation, and the `children` and
      `parent` links that `parse_markdown` sets. */
  class MarkdownNode {
    const level: nat
    const title: string
    const rawTitle: string
    const ident: string
    var children: seq<MarkdownNode>
    var parent: MarkdownNode?

    constructor (h: Heading)
      ensures level == h.level && title == h.title && rawTitle == h.raw && ident == h.ident
      ensures children == [] && parent == null
    {
      level := h.level;
      title := h.title;
      rawTitle := h.raw;
      ident := h.ident;
      children := [];
      parent := null;
    }

    function Header(): Heading {
      Heading(level, title, rawTitle, ident)
    }

    /** `is_leaf`. */
    predicate IsLeaf()
      reads this
    {
      children == []
    }
  }

  /** The nodes at the given indices. */
  function Pick(nodes: seq<MarkdownNode>, idx: seq<nat>): (r: seq<MarkdownNode>)
    requires forall i :: 0 <= i < |idx| ==> idx[i] < |nodes|
    ensures |r| == |idx|
    ensures forall i :: 0 <= i < |idx| ==> r[i] == nodes[idx[i]]
  {
    if idx == [] then [] else [nodes[idx[0]]] + Pick(nodes, idx[1..])
  }

  function ParentNode(nodes: seq<MarkdownNode>, p: Option<nat>): MarkdownNode?
    requires p.Some? ==> p.value < |nodes|
  {
    if p.Some? then nodes[p.value] else null
  }

  predicate Distinct(nodes: seq<MarkdownNode>) {
    forall i, j :: 0 <= i < j < |nodes| ==> nodes[i] != nodes[j]
  }

  /** Node `j` stands for heading `j`. */
  predicate HeadersMatch(nodes: seq<MarkdownNode>, hs: seq<Heading>) {
    |nodes| <= |hs| && forall j :: 0 <= j < |nodes| ==> nodes[j].Header() == hs[j]
  }

  /** The `children` of each node are the nodes of its child headings, in
      order, among the headings seen so far. */
  predicate ChildrenMatch(nodes: seq<MarkdownNode>, hs: seq<Heading>)
    requires |nodes| <= |hs|
    reads nodes
  {
    forall j {:trigger nodes[j].children} :: 0 <= j < |nodes| ==> nodes[j].children == Pick(nodes, ChildIdx(hs, |nodes|, j))
  }

  /** The `parent` of each node is the node of its parent heading. */
  predicate ParentsMatch(nodes: seq<MarkdownNode>, hs: seq<Heading>)
    requires |nodes| <= |hs|
    reads nodes
  {
    forall j {:trigger nodes[j].parent} :: 0 <= j < |nodes| ==> nodes[j].parent == ParentNode(nodes, ParentOf(hs, j))
  }

  /** The nodes of the first `|nodes|` headings, linked as the reference
      definition says. */
  predicate Linked(nodes: seq<MarkdownNode>, hs: seq<Heading>)
    reads nodes
  {
    HeadersMatch(nodes, hs) && Distinct(nodes) && ChildrenMatch(nodes, hs) && ParentsMatch(nodes, hs)
  }

  lemma {:induction false} PickSnoc(nodes: seq<MarkdownNode>, node: MarkdownNode, idx: seq<nat>)
    requires forall i :: 0 <= i < |idx| ==> idx[i] < |nodes|
    ensures Pick(nodes + [node], idx) == Pick(nodes, idx)
  {
  }

  lemma {:induction false} PickAppend(nodes: seq<MarkdownNode>, idx: seq<nat>, k: nat)
    requires forall i :: 0 <= i < |idx| ==> idx[i] < |nodes|
    requires k < |nodes|
    ensures Pick(nodes, idx + [k]) == Pick(nodes, idx) + [nodes[k]]
  {
  }

  /** `parse_markdown`: the roots of the heading tree of `md`; `nodes`
      holds every node created, one per heading line, linked by `children`
      and `parent` exactly as the reference parent says. */
  method ParseMarkdown(md: string) returns (roots: seq<MarkdownNode>, ghost nodes: seq<MarkdownNode>)
    ensures |nodes| == |MarkdownHeadings(md)|
    ensures Linked(nodes, MarkdownHeadings(md))
    ensures roots == Pick(nodes, RootIdx(MarkdownHeadings(md), |nodes|))
    ensures forall j :: 0 <= j < |nodes| ==> fresh(nodes[j])
  {
    roots, nodes := ParseLines(Split(Strip(md), '\n'));
  }

  /** `parse_markdown` after splitting: each line is classified by
      `LineHeading`, and the heading lines build the tree. */
  method ParseLines(lines: seq<string>) returns (roots: seq<MarkdownNode>, ghost nodes: seq<MarkdownNode>)
    ensures |nodes| == |Somes(LineHeadings(lines))|
    ensures Linked(nodes, Somes(LineHeadings(lines)))
    ensures roots == Pick(nodes, RootIdx(Somes(LineHeadings(lines)), |nodes|))
    ensures forall j :: 0 <= j < |nodes| ==> fresh(nodes[j])
  {
    roots, nodes := BuildTree(LineHeadings(lines));
    assert Built(Somes(LineHeadings(lines)), nodes, roots);
  }

  /** The loop of `parse_markdown` over the heading (if any) of each line:
      the stack holds the open nodes, and the roots and the links grow with
      each heading. */
  method BuildTree(os: seq<Option<Heading>>) returns (roots: seq<MarkdownNode>, ghost nodes: seq<MarkdownNode>)
    ensures |nodes| == |Somes(os)|
    ensures Built(Somes(os), nodes, roots) == true
    ensures forall j :: 0 <= j < |nodes| ==> fresh(nodes[j])
  {
    ghost var hs := Somes(os);
    roots := [];
    nodes := [];
    var stack: seq<MarkdownNode> := [];
    ghost var made: set<MarkdownNode> := {};
    for i := 0 to |os|
      invariant |nodes| == Count(os, i) <= |hs|
      invariant Tree(hs, nodes, stack, roots) == true && Among(nodes, made) == true
      invariant fresh(made)
    {
      ghost var added;
      stack, roots, nodes, added := ReadLine(os, hs, i, nodes, stack, roots, made);
      made := made + added;
    }
    AllCounted(os);
    forall j | 0 <= j < |nodes| ensures fresh(nodes[j]) {
      assert Among(nodes, made);
      assert nodes[j] in made;
    }
  }

  /** One pass of the loop: a heading pops the open nodes of its level or
      deeper, is attached to the top one (or becomes a root) and is pushed;
      any other line is skipped. `added` holds the node allocated. */
  method ReadLine(os: seq<Option<Heading>>, ghost hs: seq<Heading>, i: nat, ghost nodes: seq<MarkdownNode>,
              stack: seq<MarkdownNode>, roots: seq<MarkdownNode>, ghost made: set<MarkdownNode>)
      returns (stack': seq<MarkdownNode>, roots': seq<MarkdownNode>, ghost nodes': seq<MarkdownNode>,
               ghost added: set<MarkdownNode>)
    requires i < |os| && hs == Somes(os) && |nodes| == Count(os, i) <= |hs|
    requires Tree(hs, nodes, stack, roots) == true && Among(nodes, made) == true
    modifies made
    ensures |nodes'| == Count(os, i + 1) <= |hs|
    ensures Tree(hs, nodes', stack', roots') == true && Among(nodes', made + added) == true
    ensures fresh(added)
  {
    if os[i].Some? {
      HeadingAt(os, i);
      var node := new MarkdownNode(os[i].value);
      nodes', added := nodes + [node], {node};
      assert fresh(added);
      assert Among(nodes', made + added);
      stack', roots' := AddNode(hs, nodes, stack, roots, node, made + {node});
    } else {
      stack', roots', nodes', added := stack, roots, nodes, {};
    }
  }

  /** Every node is one of `made`. */
  predicate Among(nodes: seq<MarkdownNode>, made: set<MarkdownNode>) {
    forall j :: 0 <= j < |nodes| ==> nodes[j] in made
  }

  /** The number of headings among the first `i` lines. */
  function Count(os: seq<Option<Heading>>, i: nat): (n: nat)
    requires i <= |os|
    ensures n <= i
  {
    if i == 0 then 0 else Count(os, i - 1) + (if os[i - 1].Some? then 1 else 0)
  }

  lemma {:induction false} CountSomes(os: seq<Option<Heading>>, i: nat)
    requires i <= |os|
    ensures Count(os, i) == |Somes(os[..i])|
  {
    if i > 0 {
      CountSomes(os, i - 1);
      assert os[..i][..i - 1] == os[..i - 1];
    }
  }

  /** The heading of line `i` is heading number `Count(os, i)`. */
  lemma HeadingAt(os: seq<Option<Heading>>, i: nat)
    requires i < |os| && os[i].Some?
    ensures Count(os, i) < |Somes(os)| && Somes(os)[Count(os, i)] == os[i].value
  {
    CountSomes(os, i);
    SomesPrefix(os, i + 1);
    assert Somes(os[..i + 1]) == Somes(os[..i]) + [os[i].value] by {
      assert os[..i + 1][..i] == os[..i];
    }
  }

  /** Every heading is counted. */
  lemma AllCounted(os: seq<Option<Heading>>)
    ensures Count(os, |os|) == |Somes(os)|
  {
    CountSomes(os, |os|);
    assert os[..|os|] == os;
  }

  /** The nodes of the first `|nodes|` headings, linked, with the open nodes
      on the stack and the roots collected. */
  /** The state of the loop after the first `|nodes|` headings: the links,
      the stack of open nodes and the roots are those of the specification. */
  ghost predicate Tree(hs: seq<Heading>, nodes: seq<MarkdownNode>, stack: seq<MarkdownNode>, roots: seq<MarkdownNode>)
    reads nodes
  {
    Built(hs, nodes, roots) && stack == Pick(nodes, Spine(hs, |nodes|))
  }

  /** The nodes of the first `|nodes|` headings are linked as the
      specification says, and `roots` lists those without a parent. */
  ghost predicate Built(hs: seq<Heading>, nodes: seq<MarkdownNode>, roots: seq<MarkdownNode>)
    reads nodes
  {
    Linked(nodes, hs) && roots == Pick(nodes, RootIdx(hs, |nodes|))
  }

  /** `while stack and stack[-1].level >= level: stack.pop()` on the stack
      of open nodes. */
  method PopOpen(ghost hs: seq<Heading>, ghost nodes: seq<MarkdownNode>, stack: seq<MarkdownNode>, level: nat)
      returns (st: seq<MarkdownNode>, ghost cur: seq<nat>)
    requires |nodes| <= |hs| && HeadersMatch(nodes, hs)
    requires stack == Pick(nodes, Spine(hs, |nodes|))
    ensures cur == Pop(hs, Spine(hs, |nodes|), level)
    ensures forall i :: 0 <= i < |cur| ==> cur[i] < |nodes|
    ensures st == Pick(nodes, cur)
  {
    ghost var sp := Spine(hs, |nodes|);
    st := stack;
    cur := sp;
    while |st| > 0 && st[|st| - 1].level >= level
      invariant forall i :: 0 <= i < |cur| ==> cur[i] < |nodes|
      invariant st == Pick(nodes, cur)
      invariant Pop(hs, cur, level) == Pop(hs, sp, level)
      decreases |st|
    {
      PopOne(hs, nodes, st, cur, level);
      st := st[..|st| - 1];
      cur := cur[..|cur| - 1];
    }
    PopDone(hs, nodes, st, cur, level);
  }

  /** Popping the top node pops the top heading. */
  lemma {:induction false} PopOne(hs: seq<Heading>, nodes: seq<MarkdownNode>, st: seq<MarkdownNode>, cur: seq<nat>, level: nat)
    requires |nodes| <= |hs| && HeadersMatch(nodes, hs)
    requires forall i :: 0 <= i < |cur| ==> cur[i] < |nodes|
    requires st == Pick(nodes, cur) && |st| > 0 && st[|st| - 1].level >= level
    ensures st[..|st| - 1] == Pick(nodes, cur[..|cur| - 1])
    ensures Pop(hs, cur, level) == Pop(hs, cur[..|cur| - 1], level)
  {
    var k := cur[|cur| - 1];
    assert st[|st| - 1] == nodes[k];
    assert nodes[k].Header() == hs[k];
    PickPrefix(nodes, cur);
  }

  /** Once the top node is of a smaller level, the popping is over. */
  lemma {:induction false} PopDone(hs: seq<Heading>, nodes: seq<MarkdownNode>, st: seq<MarkdownNode>, cur: seq<nat>, level: nat)
    requires |nodes| <= |hs| && HeadersMatch(nodes, hs)
    requires forall i :: 0 <= i < |cur| ==> cur[i] < |nodes|
    requires st == Pick(nodes, cur) && !(|st| > 0 && st[|st| - 1].level >= level)
    ensures Pop(hs, cur, level) == cur
  {
    if cur != [] {
      var k := cur[|cur| - 1];
      assert st[|st| - 1] == nodes[k];
      assert nodes[k].Header() == hs[k];
    }
  }

  lemma {:induction false} PickPrefix(nodes: seq<MarkdownNode>, idx: seq<nat>)
    requires forall i :: 0 <= i < |idx| ==> idx[i] < |nodes|
    requires idx != []
    ensures Pick(nodes, idx)[..|idx| - 1] == Pick(nodes, idx[..|idx| - 1])
  {
  }

  /** One heading line of `parse_markdown`: pop the open nodes of the same
      or a deeper level, attach the new node to the top (or make it a
      root), and push it. */
  method AddNode(ghost hs: seq<Heading>, ghost nodes: seq<MarkdownNode>, stack: seq<MarkdownNode>,
                 roots: seq<MarkdownNode>, node: MarkdownNode, ghost made: set<MarkdownNode>)
      returns (stack': seq<MarkdownNode>, roots': seq<MarkdownNode>)
    requires |nodes| < |hs| && hs[|nodes|] == node.Header()
    requires node !in nodes && node.children == [] && node.parent == null
    requires Linked(nodes, hs)
    requires stack == Pick(nodes, Spine(hs, |nodes|))
    requires roots == Pick(nodes, RootIdx(hs, |nodes|))
    requires node in made && forall j :: 0 <= j < |nodes| ==> nodes[j] in made
    modifies made
    ensures Linked(nodes + [node], hs)
    ensures stack' == Pick(nodes + [node], Spine(hs, |nodes + [node]|))
    ensures roots' == Pick(nodes + [node], RootIdx(hs, |nodes + [node]|))
  {
    var n := |nodes|;
    var st;
    ghost var cur;
    st, cur := PopOpen(hs, nodes, stack, node.level);
    ghost var p := ParentOf(hs, n);
    TopIsParent(hs, nodes, cur, st);
    Link(hs, nodes, st, p, node);
    roots' := if |st| > 0 then roots else roots + [node];
    stack' := st + [node];
    assert stack' == Pick(nodes + [node], Spine(hs, |nodes + [node]|)) by {
      StackStep(hs, nodes, node, cur, st);
    }
    assert roots' == Pick(nodes + [node], RootIdx(hs, |nodes + [node]|)) by {
      RootsStep(hs, nodes, node, roots);
    }
  }

  /** The top of the stack, after popping, is the node of the parent. */
  lemma TopIsParent(hs: seq<Heading>, nodes: seq<MarkdownNode>, cur: seq<nat>, st: seq<MarkdownNode>)
    requires |nodes| < |hs| && cur == Pop(hs, Spine(hs, |nodes|), hs[|nodes|].level)
    requires forall i :: 0 <= i < |cur| ==> cur[i] < |nodes|
    requires st == Pick(nodes, cur)
    ensures ParentOf(hs, |nodes|).Some? <==> |st| > 0
    ensures |st| > 0 ==> st[|st| - 1] == nodes[ParentOf(hs, |nodes|).value]
  {
    SpineNearest(hs, |nodes|, hs[|nodes|].level);
  }

  /** Attach a new node to the top of the stack of open nodes, if any. */
  method Link(ghost hs: seq<Heading>, ghost nodes: seq<MarkdownNode>, st: seq<MarkdownNode>,
              ghost p: Option<nat>, node: MarkdownNode)
    requires |nodes| < |hs| && p == ParentOf(hs, |nodes|)
    requires Linked(nodes, hs) && node !in nodes
    requires node.Header() == hs[|nodes|] && node.children == [] && node.parent == null
    requires p.Some? <==> |st| > 0
    requires |st| > 0 ==> st[|st| - 1] == nodes[p.value]
    modifies nodes, node
    ensures Linked(nodes + [node], hs)
  {
    if |st| > 0 {
      Attach(nodes, p.value, st[|st| - 1], node);
    }
    LinkedStep(hs, nodes, node, p);
  }

  /** `node.parent = top; top.children.append(node)`, with `top` the node
      at index `j`. */
  method Attach(ghost nodes: seq<MarkdownNode>, ghost j: nat, top: MarkdownNode, node: MarkdownNode)
    requires j < |nodes| && top == nodes[j] && Distinct(nodes) && node !in nodes
    modifies top, node
    ensures node.parent == nodes[j] && node.children == old(node.children)
    ensures nodes[j].children == old(nodes[j].children) + [node]
    ensures forall i :: 0 <= i < |nodes| ==> nodes[i].parent == old(nodes[i].parent)
    ensures forall i :: 0 <= i < |nodes| && i != j ==> nodes[i].children == old(nodes[i].children)
  {
    node.parent := top;
    top.children := top.children + [node];
  }

  /** The stack after pushing the new node. */
  lemma StackStep(hs: seq<Heading>, nodes: seq<MarkdownNode>, node: MarkdownNode, cur: seq<nat>, st: seq<MarkdownNode>)
    requires |nodes| < |hs| && cur == Pop(hs, Spine(hs, |nodes|), hs[|nodes|].level)
    requires st == Pick(nodes, cur)
    ensures st + [node] == Pick(nodes + [node], Spine(hs, |nodes + [node]|))
  {
    var n := |nodes|;
    assert Spine(hs, n + 1) == cur + [n];
    PickAppend(nodes + [node], cur, n);
    PickSnoc(nodes, node, cur);
  }

  /** The roots after the new node. */
  lemma RootsStep(hs: seq<Heading>, nodes: seq<MarkdownNode>, node: MarkdownNode, roots: seq<MarkdownNode>)
    requires |nodes| < |hs| && roots == Pick(nodes, RootIdx(hs, |nodes|))
    ensures ParentOf(hs, |nodes|).Some? ==> roots == Pick(nodes + [node], RootIdx(hs, |nodes + [node]|))
    ensures ParentOf(hs, |nodes|).None? ==> roots + [node] == Pick(nodes + [node], RootIdx(hs, |nodes + [node]|))
  {
    var n := |nodes|;
    PickSnoc(nodes, node, RootIdx(hs, n));
    if ParentOf(hs, n).None? {
      PickAppend(nodes + [node], RootIdx(hs, n), n);
    }
  }

  /** The links after attaching node `n` under heading `p`. */
  lemma {:induction false} LinkedStep(hs: seq<Heading>, nodes: seq<MarkdownNode>, node: MarkdownNode, p: Option<nat>)
    requires |nodes| < |hs| && p == ParentOf(hs, |nodes|)
    requires HeadersMatch(nodes, hs) && Distinct(nodes) && node !in nodes
    requires node.Header() == hs[|nodes|] && node.children == []
    requires node.parent == ParentNode(nodes, p)
    requires forall j :: 0 <= j < |nodes| ==> nodes[j].parent == ParentNode(nodes, ParentOf(hs, j))
    requires forall j :: 0 <= j < |nodes| && Some(j) != p ==> nodes[j].children == Pick(nodes, ChildIdx(hs, |nodes|, j))
    requires p.Some? ==> nodes[p.value].children == Pick(nodes, ChildIdx(hs, |nodes|, p.value)) + [node]
    ensures Linked(nodes + [node], hs)
  {
    HeadersStep(hs, nodes, node);
    ChildrenStep(hs, nodes, node, p);
    ParentsStep(hs, nodes, node, p);
  }

  lemma {:induction false} HeadersStep(hs: seq<Heading>, nodes: seq<MarkdownNode>, node: MarkdownNode)
    requires |nodes| < |hs| && HeadersMatch(nodes, hs) && Distinct(nodes) && node !in nodes
    requires node.Header() == hs[|nodes|]
    ensures HeadersMatch(nodes + [node], hs) && Distinct(nodes + [node])
  {
    var nodes' := nodes + [node];
    forall j | 0 <= j < |nodes'| ensures nodes'[j].Header() == hs[j] {
      if j < |nodes| {
        assert nodes'[j] == nodes[j];
      }
    }
  }

  lemma {:induction false} ChildrenStep(hs: seq<Heading>, nodes: seq<MarkdownNode>, node: MarkdownNode, p: Option<nat>)
    requires |nodes| < |hs| && p == ParentOf(hs, |nodes|)
    requires node.children == []
    requires forall j {:trigger ChildIdx(hs, |nodes|, j)} :: 0 <= j < |nodes| && Some(j) != p ==> nodes[j].children == Pick(nodes, ChildIdx(hs, |nodes|, j))
    requires p.Some? ==> nodes[p.value].children == Pick(nodes, ChildIdx(hs, |nodes|, p.value)) + [node]
    ensures ChildrenMatch(nodes + [node], hs)
  {
    var nodes' := nodes + [node];
    forall j | 0 <= j < |nodes'|
      ensures nodes'[j].children == Pick(nodes', ChildIdx(hs, |nodes'|, j))
    {
      ChildrenOne(hs, nodes, node, p, j);
    }
  }

  lemma {:induction false} ParentsStep(hs: seq<Heading>, nodes: seq<MarkdownNode>, node: MarkdownNode, p: Option<nat>)
    requires |nodes| < |hs| && p == ParentOf(hs, |nodes|)
    requires node.parent == ParentNode(nodes, p)
    requires forall j :: 0 <= j < |nodes| ==> nodes[j].parent == ParentNode(nodes, ParentOf(hs, j))
    ensures ParentsMatch(nodes + [node], hs)
  {
    var n := |nodes|;
    var nodes' := nodes + [node];
    forall j | 0 <= j < n + 1
      ensures nodes'[j].parent == ParentNode(nodes', ParentOf(hs, j))
    {
      var q := ParentOf(hs, j);
      if j < n {
        assert nodes'[j] == nodes[j];
        assert nodes[j].parent == ParentNode(nodes, q);
      }
      if q.Some? {
        assert nodes'[q.value] == nodes[q.value];
      }
    }
  }

  lemma {:induction false} ChildrenOne(hs: seq<Heading>, nodes: seq<MarkdownNode>, node: MarkdownNode, p: Option<nat>, j: nat)
    requires |nodes| < |hs| && p == ParentOf(hs, |nodes|) && j <= |nodes|
    requires node.children == []
    requires forall j {:trigger ChildIdx(hs, |nodes|, j)} :: 0 <= j < |nodes| && Some(j) != p ==> nodes[j].children == Pick(nodes, ChildIdx(hs, |nodes|, j))
    requires p.Some? ==> nodes[p.value].children == Pick(nodes, ChildIdx(hs, |nodes|, p.value)) + [node]
    ensures (nodes + [node])[j].children == Pick(nodes + [node], ChildIdx(hs, |nodes + [node]|, j))
  {
    var n := |nodes|;
    var nodes' := nodes + [node];
    if j == n {
      NoChildrenYet(hs, n + 1, n);
    } else {
      PickSnoc(nodes, node, ChildIdx(hs, n, j));
      if Some(j) == p {
        PickAppend(nodes', ChildIdx(hs, n, j), n);
      }
    }
  }
}

=== FILE: src/order.dfy ===
/** Python's ordering of `str` values and `sorted` over a set of them. */
module Order {
  /** `a <= b` on Python strings: code-point lexicographic order. */
  predicate StrLe(a: string, b: string)
    decreases |a|
  {
    a == [] || (b != [] && (a[0] < b[0] || (a[0] == b[0] && StrLe(a[1..], b[1..]))))
  }

  lemma {:induction false} StrLeTotal(a: string, b: string)
    ensures StrLe(a, b) || StrLe(b, a)
    decreases |a|
  {
    if a != [] && b != [] && a[0] == b[0] {
      StrLeTotal(a[1..], b[1..]);
    }
  }

  lemma {:induction false} StrLeAntisym(a: string, b: string)
    requires StrLe(a, b) && StrLe(b, a)
    ensures a == b
    decreases |a|
  {
    if a != [] {
      StrLeAntisym(a[1..], b[1..]);
      assert a == [a[0]] + a[1..] && b == [b[0]] + b[1..];
    }
  }

  lemma {:induction false} StrLeTrans(a: string, b: string, c: string)
    requires StrLe(a, b) && StrLe(b, c)
    ensures StrLe(a, c)
    decreases |a|
  {
    if a != [] && a[0] == b[0] && b[0] == c[0] {
      StrLeTrans(a[1..], b[1..], c[1..]);
    }
  }

  lemma StrLeRefl(a: string)
    ensures StrLe(a, a)
  {
    StrLeTotal(a, a);
  }

  lemma AntisymAll()
    ensures forall a, b :: StrLe(a, b) && StrLe(b, a) ==> a == b
  {
    forall a, b | StrLe(a, b) && StrLe(b, a) ensures a == b {
      StrLeAntisym(a, b);
    }
  }

  /** `m` is the smallest string of `s`. */
  predicate IsLeast(m: string, s: set<string>) {
    m in s && forall y :: y in s ==> StrLe(m, y)
  }

  /** Every non-empty finite set of strings has a smallest element. */
  lemma {:induction false} LeastExists(s: set<string>)
    requires s != {}
    ensures exists m :: IsLeast(m, s)
    decreases |s|
  {
    var x :| x in s;
    if s != {x} {
      LeastExists(s - {x});
      var m :| IsLeast(m, s - {x});
      StrLeTotal(m, x);
      if StrLe(m, x) {
        assert IsLeast(m, s);
      } else {
        forall y | y in s ensures StrLe(x, y) {
          if y != x { StrLeTrans(x, m, y); } else { StrLeRefl(x); }
        }
        assert IsLeast(x, s);
      }
    } else {
      StrLeRefl(x);
      assert IsLeast(x, s);
    }
  }

  /** Strictly increasing: sorted, with no string twice. */
  predicate Increasing(r: seq<string>) {
    forall i, j :: 0 <= i < j < |r| ==> StrLe(r[i], r[j]) && r[i] != r[j]
  }

  /** `sorted(s)` for a set of strings. */
  function Sorted(s: set<string>): (r: seq<string>)
    ensures Increasing(r) && |r| == |s|
    ensures forall x :: x in r <==> x in s
    decreases |s|
  {
    if s == {} then []
    else
      LeastExists(s);
      AntisymAll();
      var m :| IsLeast(m, s);
      LeastCons(m, s, Sorted(s - {m}));
      [m] + Sorted(s - {m})
  }

  /** The least string followed by an increasing listing of the others is
      increasing. */
  lemma LeastCons(m: string, s: set<string>, rest: seq<string>)
    requires IsLeast(m, s) && Increasing(rest) && forall x :: x in rest <==> x in s - {m}
    ensures Increasing([m] + rest)
  {
    var r := [m] + rest;
    forall i, j | 0 <= i < j < |r| ensures StrLe(r[i], r[j]) && r[i] != r[j] {
      assert r[j] == rest[j - 1] && rest[j - 1] in rest;
      if i > 0 {
        assert r[i] == rest[i - 1];
      }
    }
  }

  /** The sorted list is the only strictly increasing listing of the set. */
  lemma {:induction false} SortedUnique(r: seq<string>, s: set<string>)
    requires Increasing(r) && forall x :: x in r <==> x in s
    ensures r == Sorted(s)
    decreases |r|
  {
    if r != [] {
      HeadIsLeast(r, s);
      SortedHead(s, r[0]);
      TailListsRest(r, s);
      SortedUnique(r[1..], s - {r[0]});
      assert r == [r[0]] + r[1..];
    } else {
      NothingListed(s);
    }
  }

  lemma NothingListed(s: set<string>)
    requires forall x :: x in [] <==> x in s
    ensures s == {}
  {
  }

  /** The sorted list starts with the smallest string. */
  lemma SortedHead(s: set<string>, m: string)
    requires IsLeast(m, s)
    ensures Sorted(s) == [m] + Sorted(s - {m})
  {
    var q := Sorted(s);
    HeadIsLeast(q, s);
    LeastUnique(m, q[0], s);
  }

  lemma LeastUnique(m: string, n: string, s: set<string>)
    requires IsLeast(m, s) && IsLeast(n, s)
    ensures m == n
  {
    StrLeAntisym(m, n);
  }

  lemma HeadIsLeast(r: seq<string>, s: set<string>)
    requires r != [] && Increasing(r) && forall x :: x in r <==> x in s
    ensures IsLeast(r[0], s)
  {
    forall y | y in s ensures StrLe(r[0], y) {
      var j :| 0 <= j < |r| && r[j] == y;
      if j == 0 { StrLeRefl(y); }
    }
  }

  lemma TailListsRest(r: seq<string>, s: set<string>)
    requires r != [] && Increasing(r) && forall x :: x in r <==> x in s
    ensures Increasing(r[1..]) && forall x :: x in r[1..] <==> x in s - {r[0]}
  {
    forall x ensures x in r[1..] <==> x in s - {r[0]} {
      if x in r[1..] {
        var j :| 1 <= j < |r| && r[j] == x;
      }
    }
  }
}

=== FILE: src/parser.dfy ===
/** `MarkdownParser`: from a Markdown answer back to the fields of a model.
    The answer is cleaned, split into a section tree, the wrapping top-level
    section is skipped, each field is looked up by its title, and the
    collected values are validated against the field annotations. */
module Parser {
  import opened Wrappers
  import opened Text
  import opened Strings
  import opened Schema
  import opened Skeleton
  import opened Sections

  /** The exceptions a parse can raise. */
  datatype ParseError =
    | NotAClass           // `issubclass` on a list item type that is not a class
    | NoConcreteType      // `next(...)` over a union whose only member is `None`
    | MissingField(model: string, field: string)  // a model built without a required field
    | ValidationFailed    // `model_validate` rejects the collected data

  // ---------------------------------------------------------------------
  // _find_section_by_title
  // ---------------------------------------------------------------------

  /** Two titles match when either normalised form contains the other. */
  predicate TitlesMatch(key: string, target: string) {
    Contains(NormalizeTitle(key), NormalizeTitle(target)) || Contains(NormalizeTitle(target), NormalizeTitle(key))
  }

  /** The index of the first key satisfying `p`, or `|keys|`. */
  function FirstIndex(keys: seq<string>, p: string -> bool): (k: nat)
    ensures k <= |keys|
    ensures forall i :: 0 <= i < k ==> !p(keys[i])
    ensures k < |keys| ==> p(keys[k])
  {
    if keys == [] then 0 else if p(keys[0]) then 0 else 1 + FirstIndex(keys[1..], p)
  }

  /** The subsection a title designates: its exact key, else the first
      subsection with the same normalised title, else the first whose
      normalised title contains the target's or is contained in it. */
  function FindSection(subs: seq<(string, Section)>, target: string): (r: Option<Section>)
    ensures target in Keys(subs) ==> r == Lookup(subs, target)
    ensures r.None? <==> target !in Keys(subs) && forall i :: 0 <= i < |subs| ==> !TitlesMatch(subs[i].0, target)
    ensures r.Some? ==> exists i :: 0 <= i < |subs| && r.value == subs[i].1
                                    && (subs[i].0 == target || TitlesMatch(subs[i].0, target))
  {
    var exact := Lookup(subs, target);
    if exact.Some? then
      LookupIndex(subs, target);
      exact
    else
      var keys := Keys(subs);
      var nt := NormalizeTitle(target);
      var a := FirstIndex(keys, NormalizesTo(nt));
      if a < |subs| then
        SameNormalized(subs[a].0, target);
        Some(subs[a].1)
      else
        var b := FirstIndex(keys, MatchesTitle(target));
        if b < |subs| then Some(subs[b].1) else None
  }

  function NormalizesTo(nt: string): string -> bool {
    k => NormalizeTitle(k) == nt
  }

  function MatchesTitle(target: string): string -> bool {
    k => TitlesMatch(k, target)
  }

  lemma {:induction false} FirstIndexNone(keys: seq<string>, p: string -> bool)
    requires forall i :: 0 <= i < |keys| ==> !p(keys[i])
    ensures FirstIndex(keys, p) == |keys|
  {
  }

  lemma {:induction false} FirstIndexZero(keys: seq<string>, p: string -> bool)
    requires keys != [] && p(keys[0])
    ensures FirstIndex(keys, p) == 0
  {
  }

  /** Titles with equal normal forms match. */
  lemma {:induction false} SameNormalized(key: string, target: string)
    requires NormalizeTitle(key) == NormalizeTitle(target)
    ensures TitlesMatch(key, target)
  {
    ContainsSelf(NormalizeTitle(target));
  }

  lemma {:induction false} ContainsSelf(s: string)
    ensures Contains(s, s)
  {
  }

  /** Titles whose normal forms are equal find each other: letter case,
      full-width forms and trailing colons or question marks do not matter. */
  lemma {:induction false} FindSectionFuzzy(subs: seq<(string, Section)>, target: string, i: nat)
    requires i < |subs|
    requires NormalizeTitle(subs[i].0) == NormalizeTitle(target)
    ensures FindSection(subs, target).Some?
  {
    SameNormalized(subs[i].0, target);
  }

  /** A target that normalises to nothing is contained in every title, so
      it finds a section whenever there is one. */
  lemma {:induction false} FindSectionEmptyTarget(subs: seq<(string, Section)>, target: string)
    requires subs != [] && NormalizeTitle(target) == ""
    ensures FindSection(subs, target).Some?
  {
    assert [] <= NormalizeTitle(subs[0].0);
    assert TitlesMatch(subs[0].0, target);
  }

  /** When no title matches exactly and none normalises to nothing, an empty
      target designates the first subsection. */
  lemma {:induction false} FindSectionEmptyTargetFirst(subs: seq<(string, Section)>, target: string)
    requires subs != [] && NormalizeTitle(target) == "" && target !in Keys(subs)
    requires forall i :: 0 <= i < |subs| ==> NormalizeTitle(subs[i].0) != ""
    ensures FindSection(subs, target) == Some(subs[0].1)
  {
    var keys := Keys(subs);
    forall i | 0 <= i < |keys| ensures !NormalizesTo(NormalizeTitle(target))(keys[i]) {
      assert keys[i] == subs[i].0;
    }
    FirstIndexNone(keys, NormalizesTo(NormalizeTitle(target)));
    assert [] <= NormalizeTitle(keys[0]);
    FirstIndexZero(keys, MatchesTitle(target));
  }

  /** The first of the keys that satisfies `p` is found. */
  lemma {:induction false} FirstIndexAt(keys: seq<string>, p: string -> bool, i: nat)
    requires i < |keys| && p(keys[i])
    requires forall j :: 0 <= j < i ==> !p(keys[j])
    ensures FirstIndex(keys, p) == i
  {
  }

  /** Without an exact key, the first subsection whose normalised title
      equals the target's is the one designated. */
  lemma {:induction false} FindSectionNormalizedFirst(subs: seq<(string, Section)>, target: string, i: nat)
    requires target !in Keys(subs) && i < |subs|
    requires NormalizeTitle(subs[i].0) == NormalizeTitle(target)
    requires forall j :: 0 <= j < i ==> NormalizeTitle(subs[j].0) != NormalizeTitle(target)
    ensures FindSection(subs, target) == Some(subs[i].1)
  {
    var keys := Keys(subs);
    var p := NormalizesTo(NormalizeTitle(target));
    forall j | 0 <= j < i ensures !p(keys[j]) {
      assert keys[j] == subs[j].0;
    }
    assert keys[i] == subs[i].0;
    FirstIndexAt(keys, p, i);
  }

  /** Without an exact key or an equal normal form, the first subsection
      whose normalised title contains the target's, or is contained in it,
      is the one designated. */
  lemma {:induction false} FindSectionContainsFirst(subs: seq<(string, Section)>, target: string, i: nat)
    requires target !in Keys(subs) && i < |subs|
    requires forall j :: 0 <= j < |subs| ==> NormalizeTitle(subs[j].0) != NormalizeTitle(target)
    requires TitlesMatch(subs[i].0, target)
    requires forall j :: 0 <= j < i ==> !TitlesMatch(subs[j].0, target)
    ensures FindSection(subs, target) == Some(subs[i].1)
  {
    var keys := Keys(subs);
    var p := NormalizesTo(NormalizeTitle(target));
    forall j | 0 <= j < |keys| ensures !p(keys[j]) {
      assert keys[j] == subs[j].0;
    }
    FirstIndexNone(keys, p);
    var q := MatchesTitle(target);
    forall j | 0 <= j < i ensures !q(keys[j]) {
      assert keys[j] == subs[j].0;
    }
    assert keys[i] == subs[i].0;
    FirstIndexAt(keys, q, i);
  }

  // ---------------------------------------------------------------------
  // _parse_markdown_list
  // ---------------------------------------------------------------------

  predicate IsBullet(c: char) { c == '-' || c == '*' || c == '+' }

  /** The item a stripped line holds, if it is `- x`, `* x`, `+ x` or `12. x`. */
  function ListItem(line: string): (r: Option<string>)
    ensures r.Some? ==> IsStripped(r.value)
  {
    if |line| > 1 && IsBullet(line[0]) && IsSpace(line[1]) then
      Some(Strip(line[1..]))
    else
      var d := SpanBy(line, IsDigit);
      if 0 < d && d + 2 <= |line| && line[d] == '.' && IsSpace(line[d + 1]) then
        Some(Strip(line[d + 1..]))
      else None
  }

  /** One line of the list scan: a marked line adds its item, an unmarked
      non-empty line is kept only when nothing has been collected yet. */
  function ListStep(items: seq<string>, raw: string): (r: seq<string>)
    ensures |r| <= |items| + 1
  {
    var line := Strip(raw);
    match ListItem(line)
    case Some(x) => items + [x]
    case None => if line != "" && items == [] then [line] else items
  }

  /** The list scan over `lines`, defined by its last step. */
  function ListFold(lines: seq<string>): (items: seq<string>)
    ensures forall i :: 0 <= i < |items| ==> IsStripped(items[i])
    ensures |items| <= |lines|
  {
    if lines == [] then []
    else
      var prev := ListFold(lines[..|lines| - 1]);
      var line := Strip(lines[|lines| - 1]);
      var r := ListStep(prev, lines[|lines| - 1]);
      assert forall i :: 0 <= i < |r| ==> IsStripped(r[i]) by {
        if ListItem(line).None? && line != "" && prev == [] {
          StrippedIs(lines[|lines| - 1]);
        }
      }
      r
  }

  lemma {:induction false} StrippedIs(s: string)
    ensures IsStripped(Strip(s))
  {
  }

  /** The items of a Markdown list. */
  function ListItems(text: string): seq<string> {
    if text == "" then [] else ListFold(Split(text, '\n'))
  }

  /** `_parse_markdown_list`. */
  method ParseMarkdownList(text: string) returns (items: seq<string>)
    ensures items == ListItems(text)
    ensures forall i :: 0 <= i < |items| ==> IsStripped(items[i])
  {
    if text == "" {
      return [];
    }
    items := [];
    var lines := Split(text, '\n');
    var i := 0;
    while i < |lines|
      invariant 0 <= i <= |lines|
      invariant items == ListFold(lines[..i])
    {
      assert lines[..i + 1][..i] == lines[..i];
      var line := Strip(lines[i]);
      var m := ListItem(line);
      if m.Some? {
        items := items + [m.value];
      } else if line != "" && items == [] {
        items := items + [line];
      }
      i := i + 1;
    }
    assert lines[..|lines|] == lines;
  }

  /** A bulleted line. */
  function Bullet(x: string): string {
    "- " + x
  }

  function Bullets(xs: seq<string>): (lines: seq<string>)
    ensures |lines| == |xs|
    ensures forall i :: 0 <= i < |xs| ==> lines[i] == Bullet(xs[i])
  {
    if xs == [] then [] else Bullets(xs[..|xs| - 1]) + [Bullet(xs[|xs| - 1])]
  }

  lemma {:induction false} BulletItem(x: string)
    requires x != [] && IsStripped(x)
    ensures Strip(Bullet(x)) == Bullet(x)
    ensures ListItem(Bullet(x)) == Some(x)
  {
    var b := Bullet(x);
    assert b[1..] == " " + x;
    assert b[|b| - 1] == x[|x| - 1];
    StripOfStripped(b);
    assert TrimLeftBy(" " + x, IsSpace) == x by {
      assert (" " + x)[1..] == x;
    }
    StripOfStripped(x);
  }

  /** Items written as a bulleted list are read back. */
  lemma {:induction false} ListFoldBullets(xs: seq<string>)
    requires forall i :: 0 <= i < |xs| ==> xs[i] != [] && IsStripped(xs[i])
    ensures ListFold(Bullets(xs)) == xs
  {
    if xs != [] {
      var n := |xs|;
      assert Bullets(xs)[..n - 1] == Bullets(xs[..n - 1]);
      ListFoldBullets(xs[..n - 1]);
      BulletItem(xs[n - 1]);
      assert xs == xs[..n - 1] + [xs[n - 1]];
    }
  }

  /** A list written one bullet per line and parsed back gives its items. */
  lemma {:induction false} ListItemsRoundTrip(xs: seq<string>)
    requires forall i :: 0 <= i < |xs| ==> xs[i] != [] && IsStripped(xs[i]) && '\n' !in xs[i]
    ensures ListItems(Join(Bullets(xs), "\n")) == xs
  {
    if xs != [] {
      var lines := Bullets(xs);
      BulletsOneLine(xs);
      SplitJoin(lines, '\n');
      JoinFirst(lines);
      ListFoldBullets(xs);
    }
  }

  lemma {:induction false} BulletsOneLine(xs: seq<string>)
    requires forall i :: 0 <= i < |xs| ==> '\n' !in xs[i]
    ensures forall i :: 0 <= i < |xs| ==> '\n' !in Bullets(xs)[i]
  {
    forall i | 0 <= i < |xs| ensures '\n' !in Bullets(xs)[i] {
      assert Bullets(xs)[i] == "- " + xs[i];
    }
  }

  lemma {:induction false} JoinFirst(lines: seq<string>)
    requires lines != [] && lines[0] != ""
    ensures Join(lines, "\n") != ""
  {
  }

  /** Text with no list markers yields at most its first non-empty line. */
  lemma {:induction false} ListFoldProse(lines: seq<string>)
    requires forall i :: 0 <= i < |lines| ==> ListItem(Strip(lines[i])).None?
    ensures |ListFold(lines)| <= 1
    ensures forall i :: 0 <= i < |lines| && Strip(lines[i]) != "" ==> ListFold(lines) != []
  {
    if lines != [] {
      var n := |lines|;
      ListFoldProse(lines[..n - 1]);
      assert forall i :: 0 <= i < n - 1 ==> lines[..n - 1][i] == lines[i];
    }
  }

  // ---------------------------------------------------------------------
  // _map_sections_to_model
  // ---------------------------------------------------------------------

  /** The `markdown_title` of a field if it is non-empty, else its name. */
  function LookupTitle(f: Field): (t: string)
    ensures HasTitle(f) ==> t == f.title.value
    ensures !HasTitle(f) ==> t == f.name
  {
    if HasTitle(f) then f.title.value else f.name
  }

  /** Whether the annotation is `Optional[T]` (a union with `None`), and
      the type the field is then handled as: the union's first member that
      is not `None`. */
  function Unwrap(t: TypeExpr): (r: Result<(bool, TypeExpr), ParseError>)
    ensures r.Ok? && r.value.0 ==> t.TUnion? && TNone in t.args && r.value.1 in t.args && r.value.1 != TNone
    ensures r.Ok? && r.value.0 ==> r.value.1 == t.args[FirstNotNone(t.args)]
    ensures r.Ok? && !r.value.0 ==> r.value.1 == t
    ensures r.Err? <==> t.TUnion? && TNone in t.args && forall i :: 0 <= i < |t.args| ==> t.args[i] == TNone
  {
    if t.TUnion? && TNone in t.args then
      var k := FirstNotNone(t.args);
      if k == |t.args| then Err(NoConcreteType) else Ok((true, t.args[k]))
    else Ok((false, t))
  }

  /** An instance built by calling the model class with no arguments. */
  function DefaultInstance(m: ModelClass): (r: Result<Value, ParseError>)
    ensures r.Ok? ==> r.value.Instance? && r.value.model == m.name
    decreases m, 1
  {
    var entries :- DefaultEntries(m, 0);
    Ok(Instance(m.name, entries))
  }

  function DefaultEntries(m: ModelClass, i: nat): (r: Result<seq<(string, Value)>, ParseError>)
    requires i <= |m.fields|
    ensures r.Ok? ==> |r.value| == |m.fields| - i
    ensures r.Ok? ==> forall k :: 0 <= k < |r.value| ==> r.value[k].0 == m.fields[i + k].name
    decreases m, 0, |m.fields| - i
  {
    if i == |m.fields| then Ok([])
    else
      var f := m.fields[i];
      var v :- match f.default
        case Required => Err(MissingField(m.name, f.name))
        case DefaultNone => Ok(Null)
        case DefaultEmptyList => Ok(Items([]))
        case DefaultFactory(sub) => DefaultInstance(sub);
      var rest :- DefaultEntries(m, i + 1);
      Ok([(f.name, v)] + rest)
  }

  /** The value collected for one field from the section it belongs to. */
  function MapField(m: ModelClass, f: Field, sec: Section): (r: Result<Value, ParseError>)
    requires f in m.fields
    decreases m, 1
  {
    if f.name == "summary" && sec.content != "" then Ok(Str(Strip(sec.content)))
    else
      var u :- Unwrap(f.annotation);
      MapActual(m, f, sec, u.0, u.1)
  }

  /** The value of field `f` once its annotation is unwrapped to `actual`,
      `optional` saying whether `None` was one of its alternatives. */
  function MapActual(m: ModelClass, f: Field, sec: Section, optional: bool, actual: TypeExpr): (r: Result<Value, ParseError>)
    requires f in m.fields
    requires actual == f.annotation || (f.annotation.TUnion? && actual in f.annotation.args)
    decreases m, 0
  {
      var title := LookupTitle(f);
      match actual
      case TList(args) =>
        var found := FindSection(sec.subsections, title);
        if found.None? then Ok(Items([]))
        else if |args| > 0 && (args[0].TUnion? || args[0].TList?) then Err(NotAClass)
        else Ok(Items(ListItems(Strip(found.value.content))))
      case TModel(sub) =>
        if HasTitle(f) then TitledRecord(sub, sec, title, optional)
        else RecordOf(sub, sec)
      case TStr =>
        (match FindSection(sec.subsections, title)
         case Some(s) => if Strip(s.content) == "" then Ok(Null) else Ok(Str(Strip(s.content)))
         case None => Ok(Null))
      case _ => Ok(Null)
  }

  /** The values of fields `i..` of `m`, in declaration order. */
  function MapFieldsFrom(m: ModelClass, i: nat, sec: Section): (r: Result<seq<(string, Value)>, ParseError>)
    requires i <= |m.fields|
    ensures r.Ok? ==> |r.value| == |m.fields| - i
    ensures r.Ok? ==> forall k :: 0 <= k < |r.value| ==>
              r.value[k].0 == m.fields[i + k].name && MapField(m, m.fields[i + k], sec) == Ok(r.value[k].1)
    ensures r.Err? ==> exists k :: i <= k < |m.fields| && MapField(m, m.fields[k], sec) == Err(r.error)
    decreases m, 2, |m.fields| - i
  {
    if i == |m.fields| then Ok([])
    else
      var v :- MapField(m, m.fields[i], sec);
      var rest :- MapFieldsFrom(m, i + 1, sec);
      Ok([(m.fields[i].name, v)] + rest)
  }

  /** `_map_sections_to_model`: one entry per field, in declaration order,
      holding the value mapped for that field; an error is the error of
      one of the fields. */
  function MapModel(m: ModelClass, sec: Section): (r: Result<seq<(string, Value)>, ParseError>)
    ensures r.Ok? ==> |r.value| == |m.fields|
    ensures r.Ok? ==> forall k :: 0 <= k < |m.fields| ==>
              r.value[k].0 == m.fields[k].name && MapField(m, m.fields[k], sec) == Ok(r.value[k].1)
    ensures r.Err? ==> exists k :: 0 <= k < |m.fields| && MapField(m, m.fields[k], sec) == Err(r.error)
    decreases m, 3
  {
    MapFieldsFrom(m, 0, sec)
  }

  /** A nested model's values, collected as a record. */
  function RecordOf(m: ModelClass, sec: Section): (r: Result<Value, ParseError>)
    decreases m, 4
  {
    var entries :- MapModel(m, sec);
    Ok(Record(entries))
  }

  /** A titled model field's value: the record read from the subsection
      under `title`, or when there is none, None if the field is optional
      and an instance built with no arguments if not. */
  function TitledRecord(m: ModelClass, sec: Section, title: string, optional: bool): (r: Result<Value, ParseError>)
    decreases m, 5
  {
    match FindSection(sec.subsections, title)
    case Some(nested) => RecordOf(m, nested)
    case None => if optional then Ok(Null) else DefaultInstance(m)
  }

  /** `Optional[str]`. */
  const OptionalStr := TUnion([TStr, TNone])

  predicate IsTextField(f: Field) {
    f.annotation == TStr || f.annotation == OptionalStr
  }

  /** A text field is read from the subsection under its title (or its name
      when it has none): the trimmed content, or None when that is blank.
      A `summary` field does this too when the section's own content is
      empty. */
  lemma {:induction false} MapFieldText(m: ModelClass, f: Field, sec: Section, s: Section)
    requires f in m.fields && IsTextField(f)
    requires f.name != "summary" || sec.content == ""
    requires Lookup(sec.subsections, LookupTitle(f)) == Some(s)
    ensures MapField(m, f, sec) == if Strip(s.content) == "" then Ok(Null) else Ok(Str(Strip(s.content)))
  {
    assert Unwrap(f.annotation) == Ok((f.annotation == OptionalStr, TStr)) by {
      if f.annotation == OptionalStr {
        assert FirstNotNone([TStr, TNone]) == 0;
      }
    }
  }

  /** A `summary` field takes the trimmed content of the section itself
      when there is any. */
  lemma {:induction false} MapFieldSummary(m: ModelClass, f: Field, sec: Section)
    requires f in m.fields && f.name == "summary" && sec.content != ""
    ensures MapField(m, f, sec) == Ok(Str(Strip(sec.content)))
  {
  }

  /** A text field with no matching subsection is None. */
  lemma {:induction false} MapFieldTextMissing(m: ModelClass, f: Field, sec: Section)
    requires f in m.fields && IsTextField(f) && (f.name != "summary" || sec.content == "")
    requires FindSection(sec.subsections, LookupTitle(f)).None?
    ensures MapField(m, f, sec) == Ok(Null)
  {
    if f.annotation == OptionalStr {
      assert FirstNotNone([TStr, TNone]) == 0;
    }
  }

  /** Past the `summary` case, a field's value is that of its unwrapped annotation. */
  lemma {:induction false} MapFieldUnwrapped(m: ModelClass, f: Field, sec: Section)
    requires f in m.fields && (f.name != "summary" || sec.content == "") && Unwrap(f.annotation).Ok?
    ensures MapField(m, f, sec) == MapActual(m, f, sec, Unwrap(f.annotation).value.0, Unwrap(f.annotation).value.1)
  {
  }

  /** An unwrapped list annotation with no matching subsection gives the empty list. */
  lemma {:induction false} MapActualListMissing(m: ModelClass, f: Field, sec: Section, optional: bool, args: seq<TypeExpr>)
    requires f in m.fields && f.annotation == TList(args)
    requires FindSection(sec.subsections, LookupTitle(f)).None?
    ensures MapActual(m, f, sec, optional, TList(args)) == Ok(Items([]))
  {
  }

  /** An unwrapped titled model annotation with no matching subsection
      gives None when optional and a default instance otherwise. */
  lemma {:induction false} MapActualModelMissing(m: ModelClass, f: Field, sec: Section, optional: bool, sub: ModelClass)
    requires f in m.fields && HasTitle(f)
    requires TModel(sub) == f.annotation || (f.annotation.TUnion? && TModel(sub) in f.annotation.args)
    requires FindSection(sec.subsections, LookupTitle(f)).None?
    ensures MapActual(m, f, sec, optional, TModel(sub)) == if optional then Ok(Null) else DefaultInstance(sub)
  {
    assert MapActual(m, f, sec, optional, TModel(sub)) == TitledRecord(sub, sec, LookupTitle(f), optional);
  }

  /** A list field with no matching subsection is the empty list. */
  lemma {:induction false} MapFieldListMissing(m: ModelClass, f: Field, sec: Section)
    requires f in m.fields && f.annotation.TList? && (f.name != "summary" || sec.content == "")
    requires FindSection(sec.subsections, LookupTitle(f)).None?
    ensures MapField(m, f, sec) == Ok(Items([]))
  {
    assert Unwrap(f.annotation) == Ok((false, f.annotation));
    MapFieldUnwrapped(m, f, sec);
    MapActualListMissing(m, f, sec, false, f.annotation.args);
  }

  /** A titled model field with no matching subsection is None when the
      annotation is `Optional[...]`, and otherwise an instance built with
      no arguments. */
  lemma {:induction false} MapFieldModelMissing(m: ModelClass, f: Field, sec: Section, sub: ModelClass)
    requires f in m.fields && HasTitle(f) && (f.name != "summary" || sec.content == "")
    requires f.annotation == TModel(sub) || f.annotation == TUnion([TModel(sub), TNone])
    requires FindSection(sec.subsections, LookupTitle(f)).None?
    ensures f.annotation.TModel? ==> MapField(m, f, sec) == DefaultInstance(sub)
    ensures f.annotation.TUnion? ==> MapField(m, f, sec) == Ok(Null)
  {
    if f.annotation.TUnion? {
      assert FirstNotNone([TModel(sub), TNone]) == 0;
      assert Unwrap(f.annotation) == Ok((true, TModel(sub)));
    } else {
      assert Unwrap(f.annotation) == Ok((false, TModel(sub)));
    }
    MapFieldUnwrapped(m, f, sec);
    MapActualModelMissing(m, f, sec, f.annotation.TUnion?, sub);
  }

  /** A model field without a title is filled from the same section as its
      parent: its fields are looked up among the parent's subsections. */
  lemma {:induction false} MapFieldTransparent(m: ModelClass, f: Field, sec: Section)
    requires f in m.fields && f.annotation.TModel? && !HasTitle(f) && f.name != "summary"
    ensures MapField(m, f, sec).Ok? <==> MapModel(f.annotation.model, sec).Ok?
    ensures MapField(m, f, sec).Ok? ==> MapField(m, f, sec).value == Record(MapModel(f.annotation.model, sec).value)
  {
    assert Unwrap(f.annotation) == Ok((false, f.annotation));
    MapFieldUnwrapped(m, f, sec);
    assert MapField(m, f, sec) == RecordOf(f.annotation.model, sec);
  }

  /** A model made only of titled text fields. */
  predicate FlatTextModel(m: ModelClass) {
    forall i :: 0 <= i < |m.fields| ==> IsTextField(m.fields[i]) && HasTitle(m.fields[i]) && m.fields[i].name != "summary"
  }

  /** Values written under the titles of a flat text model's fields are
      read back, and the result passes validation. */
  lemma {:induction false} MapModelReadsBack(m: ModelClass, sec: Section, values: seq<string>)
    requires FlatTextModel(m) && |values| == |m.fields|
    requires forall i :: 0 <= i < |m.fields| ==> values[i] != ""
    requires forall i :: 0 <= i < |m.fields| ==>
               Lookup(sec.subsections, m.fields[i].title.value).Some?
               && Strip(Lookup(sec.subsections, m.fields[i].title.value).value.content) == values[i]
    ensures MapModel(m, sec).Ok?
    ensures forall i :: 0 <= i < |m.fields| ==> MapModel(m, sec).value[i] == (m.fields[i].name, Str(values[i]))
    ensures ConformsFields(m, MapModel(m, sec).value)
  {
    forall i | 0 <= i < |m.fields|
      ensures MapField(m, m.fields[i], sec) == Ok(Str(values[i]))
    {
      var f := m.fields[i];
      MapFieldText(m, f, sec, Lookup(sec.subsections, f.title.value).value);
    }
    forall i | 0 <= i < |m.fields| ensures Conforms(m.fields[i].annotation, Str(values[i])) {
      if m.fields[i].annotation == OptionalStr {
        assert TStr in m.fields[i].annotation.args;
      }
    }
  }

  /** A plain `str` field with no matching subsection is mapped to None,
      which validation rejects. */
  lemma {:induction false} MissingTextFails(m: ModelClass, sec: Section, i: nat)
    requires i < |m.fields| && m.fields[i].annotation == TStr && m.fields[i].name != "summary"
    requires FindSection(sec.subsections, LookupTitle(m.fields[i])).None?
    requires MapModel(m, sec).Ok?
    ensures !ConformsFields(m, MapModel(m, sec).value)
  {
    MapFieldTextMissing(m, m.fields[i], sec);
  }

  // ---------------------------------------------------------------------
  // validation (`model_validate`)
  // ---------------------------------------------------------------------

  /** Whether a value passes validation against an annotation. */
  predicate Conforms(t: TypeExpr, v: Value)
    decreases t, 1
  {
    match t
    case TStr => v.Str?
    case TNone => v.Null?
    case TOther(_) => false
    case TList(args) =>
      v.Items? && (args == [] || forall x :: x in v.xs ==> Conforms(args[0], Str(x)))
    case TUnion(args) => exists a :: a in args && Conforms(a, v)
    case TModel(mc) =>
      (v.Record? && ConformsFields(mc, v.entries)) || (v.Instance? && v.model == mc.name)
  }

  /** Whether field values, in order, pass validation against a model's fields. */
  predicate ConformsFields(m: ModelClass, entries: seq<(string, Value)>)
    decreases m, 0
  {
    |entries| == |m.fields|
    && forall i :: 0 <= i < |entries| ==> entries[i].0 == m.fields[i].name && Conforms(m.fields[i].annotation, entries[i].1)
  }

  // ---------------------------------------------------------------------
  // parse
  // ---------------------------------------------------------------------

  /** The section the fields of `m` are looked up in: the one named by the
      skeleton's single level-1 heading if there is one and it is found;
      without a skeleton, the only top-level section if there is exactly one;
      else the whole document. */
  function EntrySection(m: ModelClass, root: Section): (sec: Section)
    ensures sec == root || sec in SectionsBelow(root)
    ensures SkeletonText(m) != "" && |TopHeadings(SkeletonText(m))| == 1
            && FindSection(root.subsections, Strip(TopHeadings(SkeletonText(m))[0])).Some?
            ==> sec == FindSection(root.subsections, Strip(TopHeadings(SkeletonText(m))[0])).value
    ensures SkeletonText(m) != "" && |TopHeadings(SkeletonText(m))| == 1
            && FindSection(root.subsections, Strip(TopHeadings(SkeletonText(m))[0])).None?
            ==> sec == root
    ensures SkeletonText(m) != "" && |TopHeadings(SkeletonText(m))| != 1 ==> sec == root
    ensures SkeletonText(m) == "" && |root.subsections| == 1 ==> sec == root.subsections[0].1
    ensures SkeletonText(m) == "" && |root.subsections| != 1 ==> sec == root
  {
    var arch := SkeletonText(m);
    if arch != "" then
      var tops := TopHeadings(arch);
      if |tops| == 1 then
        match FindSection(root.subsections, Strip(tops[0]))
        case Some(s) => s
        case None => root
      else root
    else if |root.subsections| == 1 then root.subsections[0].1
    else root
  }

  /** The direct subsections of a section. */
  function SectionsBelow(root: Section): set<Section> {
    set i | 0 <= i < |root.subsections| :: root.subsections[i].1
  }

  /** `MarkdownParser.parse`. */
  function Parse(m: ModelClass, text: string): (r: Result<Value, ParseError>)
    ensures text == "" ==> r == DefaultInstance(m)
    ensures r.Ok? ==> r.value.Instance? && r.value.model == m.name
    ensures r.Ok? && text != "" ==> ConformsFields(m, r.value.entries)
    ensures text != "" ==>
              var sec := EntrySection(m, SplitDoc(CleanMarkdownCodeBlock(text)));
              (MapModel(m, sec).Err? ==> r == Err(MapModel(m, sec).error))
              && (MapModel(m, sec).Ok? ==> (r.Ok? <==> ConformsFields(m, MapModel(m, sec).value)))
              && (MapModel(m, sec).Ok? && !ConformsFields(m, MapModel(m, sec).value) ==> r == Err(ValidationFailed))
              && (r.Ok? ==> r.value.entries == MapModel(m, sec).value)
  {
    if text == "" then DefaultInstance(m)
    else
      var root := SplitDoc(CleanMarkdownCodeBlock(text));
      var data :- MapModel(m, EntrySection(m, root));
      if ConformsFields(m, data) then Ok(Instance(m.name, data)) else Err(ValidationFailed)
  }

  /** End to end: when the section `parse` enters holds, under the title of
      every field of a flat text model, a non-blank text, the parsed instance
      holds exactly those texts in declaration order. */
  lemma {:induction false} ParseReadsBack(m: ModelClass, text: string, values: seq<string>)
    requires text != "" && FlatTextModel(m) && |values| == |m.fields|
    requires forall i :: 0 <= i < |m.fields| ==> values[i] != ""
    requires var sec := EntrySection(m, SplitDoc(CleanMarkdownCodeBlock(text)));
             forall i :: 0 <= i < |m.fields| ==>
               Lookup(sec.subsections, m.fields[i].title.value).Some?
               && Strip(Lookup(sec.subsections, m.fields[i].title.value).value.content) == values[i]
    ensures Parse(m, text).Ok? && Parse(m, text).value.model == m.name
    ensures |Parse(m, text).value.entries| == |m.fields|
    ensures forall i :: 0 <= i < |m.fields| ==> Parse(m, text).value.entries[i] == (m.fields[i].name, Str(values[i]))
  {
    var sec := EntrySection(m, SplitDoc(CleanMarkdownCodeBlock(text)));
    MapModelReadsBack(m, sec, values);
  }
}

=== FILE: src/prompt.dfy ===
/** The prompt side of the mapping (`core/prompt_engine.py`): the ordered
    listing of every field path with the heading the answer must use for
    it, and the checks `build_prompt` makes before the template is
    rendered. */
module Prompt {
  import opened Wrappers
  import opened Text
  import opened Schema
  import opened Skeleton

  datatype PromptError =
    | MissingSkeleton(model: string) // no `__business_architecture__`, or only whitespace
    | RenderFailed                   // loading or rendering the template raised

  const SummaryHint: string := "概要说明"

  function UndefinedHint(name: string): string {
    "（未定义标题: " + name + "）"
  }

  /** The heading announced for a field: its `markdown_title` when that is
      present and non-empty, otherwise a hint. */
  function SpecTitle(f: Field): (t: string)
    ensures HasTitle(f) ==> t == f.title.value
    ensures !HasTitle(f) && f.name == "summary" ==> t == SummaryHint
    ensures !HasTitle(f) && f.name != "summary" ==> t == UndefinedHint(f.name)
  {
    if HasTitle(f) then f.title.value
    else if f.name == "summary" then SummaryHint
    else UndefinedHint(f.name)
  }

  /** The dotted path of a field below `prefix`; a top-level field's path is
      its bare name. */
  function FieldPath(prefix: string, name: string): string {
    if prefix == "" then name else prefix + "." + name
  }

  function SpecLine(entry: (string, string)): (line: string)
    ensures "- `" <= line
  {
    "- `" + entry.0 + "`: " + entry.1
  }

  /** The number of lines `_extract_specs` emits for fields `i..` of `m`:
      one per field, plus the lines of a model named directly as the
      annotation (an `Optional[...]` model is not expanded). */
  function CountFrom(m: ModelClass, i: nat): nat
    requires i <= |m.fields|
    decreases m, |m.fields| - i
  {
    if i == |m.fields| then 0
    else
      var f := m.fields[i];
      1 + (if f.annotation.TModel? then CountFrom(f.annotation.model, 0) else 0) + CountFrom(m, i + 1)
  }

  /** The lines that a field's own line is followed by. */
  function Expanded(m: ModelClass, i: nat): nat
    requires i < |m.fields|
  {
    var f := m.fields[i];
    if f.annotation.TModel? then CountFrom(f.annotation.model, 0) else 0
  }

  /** Where the line of field `i` of `m` sits in the listing of `m`. */
  function Offset(m: ModelClass, i: nat): nat
    requires i <= |m.fields|
  {
    if i == 0 then 0 else Offset(m, i - 1) + 1 + Expanded(m, i - 1)
  }

  /** The entries of field `i` of `m` below `prefix`: its own `(path,
      title)` and then those of its directly nested model. */
  function FieldEntries(m: ModelClass, i: nat, prefix: string): (es: seq<(string, string)>)
    requires i < |m.fields|
    ensures |es| == 1 + Expanded(m, i)
    decreases m, 0, 0
  {
    var f := m.fields[i];
    var path := FieldPath(prefix, f.name);
    [(path, SpecTitle(f))] + (if f.annotation.TModel? then SpecsFrom(f.annotation.model, 0, path) else [])
  }

  /** `(path, title)` for fields `i..` of `m` below `prefix`. */
  function SpecsFrom(m: ModelClass, i: nat, prefix: string): (es: seq<(string, string)>)
    requires i <= |m.fields|
    ensures |es| == CountFrom(m, i)
    decreases m, 1, |m.fields| - i
  {
    if i == |m.fields| then [] else FieldEntries(m, i, prefix) + SpecsFrom(m, i + 1, prefix)
  }

  /** `_extract_specs(model, prefix)`. */
  function ExtractSpecs(m: ModelClass, prefix: string): (lines: seq<string>)
    ensures |lines| == CountFrom(m, 0)
    ensures forall k :: 0 <= k < |lines| ==> lines[k] == SpecLine(SpecsFrom(m, 0, prefix)[k])
  {
    var es := SpecsFrom(m, 0, prefix);
    seq(|es|, k requires 0 <= k < |es| => SpecLine(es[k]))
  }

  lemma {:induction false} OffsetMonotone(m: ModelClass, j: nat, i: nat)
    requires j <= i <= |m.fields|
    ensures Offset(m, j) <= Offset(m, i)
    decreases i - j
  {
    if j < i {
      OffsetMonotone(m, j, i - 1);
    }
  }

  /** `e` occurs in `es` starting at index `lo`. */
  ghost predicate Within<T>(es: seq<T>, lo: nat, e: seq<T>) {
    lo + |e| <= |es| && es[lo..lo + |e|] == e
  }

  lemma {:induction false} WithinShift<T>(head: seq<T>, rest: seq<T>, lo: nat, e: seq<T>)
    requires Within(rest, lo, e)
    ensures Within(head + rest, |head| + lo, e)
  {
    assert (head + rest)[|head| + lo..|head| + lo + |e|] == rest[lo..lo + |e|];
  }

  lemma {:induction false} WithinFront<T>(head: seq<T>, rest: seq<T>)
    ensures Within(head + rest, 0, head)
  {
    assert (head + rest)[..|head|] == head;
  }

  lemma {:induction false} WithinTail<T>(es: seq<T>, lo: nat, e: seq<T>, tail: seq<T>)
    requires Within(es, lo, e) && e != [] && tail == e[1..]
    ensures Within(es, lo + 1, tail)
  {
    assert es[lo + 1..lo + |e|] == es[lo..lo + |e|][1..];
  }

  /** Within the entries of fields `j..`, those of field `i` start at its
      offset relative to field `j`. */
  lemma {:induction false} SpecsFromLayout(m: ModelClass, j: nat, i: nat, prefix: string)
    requires j <= i < |m.fields|
    ensures Offset(m, j) <= Offset(m, i)
    ensures Within(SpecsFrom(m, j, prefix), Offset(m, i) - Offset(m, j), FieldEntries(m, i, prefix))
    decreases i - j
  {
    OffsetMonotone(m, j, i);
    var head := FieldEntries(m, j, prefix);
    var rest := SpecsFrom(m, j + 1, prefix);
    assert SpecsFrom(m, j, prefix) == head + rest;
    if j < i {
      SpecsFromLayout(m, j + 1, i, prefix);
      var o' := Offset(m, i) - Offset(m, j + 1);
      assert Offset(m, i) - Offset(m, j) == |head| + o';
      WithinShift(head, rest, o', FieldEntries(m, i, prefix));
    } else {
      WithinFront(head, rest);
    }
  }

  /** The line of field `i` of `m` sits at its offset: after the lines of
      every earlier field and of their nested models. */
  lemma {:induction false} ExtractSpecsFieldLine(m: ModelClass, prefix: string, i: nat)
    requires i < |m.fields|
    ensures Offset(m, i) < |ExtractSpecs(m, prefix)|
    ensures ExtractSpecs(m, prefix)[Offset(m, i)]
            == SpecLine((FieldPath(prefix, m.fields[i].name), SpecTitle(m.fields[i])))
  {
    EntriesAtOffset(m, i, prefix);
    var es := SpecsFrom(m, 0, prefix);
    var o := Offset(m, i);
    assert es[o] == es[o..o + 1 + Expanded(m, i)][0];
  }

  /** The line of a field whose annotation is a model is directly followed
      by the lines of that model, with paths extended by the field's name. */
  lemma {:induction false} ExtractSpecsNested(m: ModelClass, prefix: string, i: nat)
    requires i < |m.fields| && m.fields[i].annotation.TModel?
    ensures Offset(m, i) + 1 + Expanded(m, i) <= |ExtractSpecs(m, prefix)|
    ensures ExtractSpecs(m, prefix)[Offset(m, i) + 1..Offset(m, i) + 1 + Expanded(m, i)]
            == ExtractSpecs(m.fields[i].annotation.model, FieldPath(prefix, m.fields[i].name))
  {
    var f := m.fields[i];
    var es := SpecsFrom(m, 0, prefix);
    var nested := SpecsFrom(f.annotation.model, 0, FieldPath(prefix, f.name));
    NestedEntries(m, prefix, i);
    MapSlice(es, ExtractSpecs(m, prefix), Offset(m, i) + 1, Offset(m, i) + 1 + |nested|,
             ExtractSpecs(f.annotation.model, FieldPath(prefix, f.name)));
  }

  /** The entries of a nested model follow its field's own entry. */
  lemma {:induction false} NestedEntries(m: ModelClass, prefix: string, i: nat)
    requires i < |m.fields| && m.fields[i].annotation.TModel?
    ensures Within(SpecsFrom(m, 0, prefix), Offset(m, i) + 1,
                   SpecsFrom(m.fields[i].annotation.model, 0, FieldPath(prefix, m.fields[i].name)))
  {
    EntriesAtOffset(m, i, prefix);
    FieldEntriesTail(m, i, prefix);
    WithinTail(SpecsFrom(m, 0, prefix), Offset(m, i), FieldEntries(m, i, prefix),
               SpecsFrom(m.fields[i].annotation.model, 0, FieldPath(prefix, m.fields[i].name)));
  }

  /** The entries of field `i` start at its offset in the whole listing. */
  lemma {:induction false} EntriesAtOffset(m: ModelClass, i: nat, prefix: string)
    requires i < |m.fields|
    ensures Within(SpecsFrom(m, 0, prefix), Offset(m, i), FieldEntries(m, i, prefix))
  {
    SpecsFromLayout(m, 0, i, prefix);
    assert Offset(m, 0) == 0;
  }

  lemma {:induction false} FieldEntriesTail(m: ModelClass, i: nat, prefix: string)
    requires i < |m.fields| && m.fields[i].annotation.TModel?
    ensures FieldEntries(m, i, prefix) != []
    ensures FieldEntries(m, i, prefix)[1..]
         == SpecsFrom(m.fields[i].annotation.model, 0, FieldPath(prefix, m.fields[i].name))
  {
  }

  /** Lines built entry by entry from `es` agree with `sub` on a slice when
      `sub` is built from that slice of `es`. */
  lemma {:induction false} MapSlice(es: seq<(string, string)>, lines: seq<string>, lo: nat, hi: nat, sub: seq<string>)
    requires |lines| == |es| && lo <= hi <= |es| && |sub| == hi - lo
    requires forall k :: 0 <= k < |lines| ==> lines[k] == SpecLine(es[k])
    requires forall k :: 0 <= k < |sub| ==> sub[k] == SpecLine(es[lo..hi][k])
    ensures lines[lo..hi] == sub
  {
    forall k | 0 <= k < |sub| ensures lines[lo..hi][k] == sub[k] {
      assert es[lo..hi][k] == es[lo + k];
    }
  }

  /** Every path in `es` begins with `p`. */
  predicate AllBelow(p: string, es: seq<(string, string)>) {
    forall k :: 0 <= k < |es| ==> p <= es[k].0
  }

  lemma {:induction false} AllBelowConcat(p: string, a: seq<(string, string)>, b: seq<(string, string)>)
    requires AllBelow(p, a) && AllBelow(p, b)
    ensures AllBelow(p, a + b)
  {
    forall k | 0 <= k < |a + b| ensures p <= (a + b)[k].0 {
      if k >= |a| {
        assert (a + b)[k] == b[k - |a|];
      }
    }
  }

  /** Every path listed below a non-empty prefix extends that prefix. */
  lemma {:induction false} SpecsFromPaths(m: ModelClass, i: nat, prefix: string)
    requires i <= |m.fields| && prefix != ""
    ensures AllBelow(prefix + ".", SpecsFrom(m, i, prefix))
    decreases m, |m.fields| - i
  {
    if i < |m.fields| {
      var f := m.fields[i];
      var path := FieldPath(prefix, f.name);
      var nested := if f.annotation.TModel? then SpecsFrom(f.annotation.model, 0, path) else [];
      assert FieldEntries(m, i, prefix) == [(path, SpecTitle(f))] + nested;
      assert prefix + "." <= path;
      if f.annotation.TModel? {
        SpecsFromPaths(f.annotation.model, 0, path);
        forall k | 0 <= k < |nested| ensures prefix + "." <= nested[k].0 {
          PrefixTrans(prefix + ".", path + ".", nested[k].0);
        }
      }
      AllBelowConcat(prefix + ".", [(path, SpecTitle(f))], nested);
      SpecsFromPaths(m, i + 1, prefix);
      AllBelowConcat(prefix + ".", FieldEntries(m, i, prefix), SpecsFrom(m, i + 1, prefix));
    }
  }

  lemma PrefixTrans(a: string, b: string, c: string)
    requires a <= b && b <= c
    ensures a <= c
  {
    assert c[..|a|] == b[..|a|];
  }

  /** The field specification lines of a nested model name full dotted
      paths: each begins with the parent's path and a dot. */
  lemma ExtractSpecsNestedPaths(m: ModelClass, prefix: string, k: nat)
    requires prefix != "" && k < |ExtractSpecs(m, prefix)|
    ensures "- `" + prefix + "." <= ExtractSpecs(m, prefix)[k]
  {
    SpecsFromPaths(m, 0, prefix);
    var e := SpecsFrom(m, 0, prefix)[k];
    assert ExtractSpecs(m, prefix)[k] == "- `" + (e.0 + "`: " + e.1);
    assert e.0 == (prefix + ".") + e.0[|prefix| + 1..];
  }

  /** `build_prompt`: the model must carry a non-blank skeleton; the
      template then receives the skeleton with its `[id:NAME]` markers
      removed and the field specification lines joined by newlines.
      `render` stands for loading and rendering the template with the
      configured few-shot `example`; `None` means it raised. */
  function BuildPrompt(text: string, m: ModelClass, example: string,
                       render: (string, string, string, string) -> Option<string>): (r: Result<string, PromptError>)
    ensures r == Err(MissingSkeleton(m.name)) <==> Strip(SkeletonText(m)) == []
    ensures r == Err(RenderFailed) <==>
              Strip(SkeletonText(m)) != []
              && render(StripIdMarkers(SkeletonText(m)), Join(ExtractSpecs(m, ""), "\n"), text, example).None?
    ensures r.Ok? ==>
              Some(r.value) == render(StripIdMarkers(SkeletonText(m)), Join(ExtractSpecs(m, ""), "\n"), text, example)
  {
    var arch := SkeletonText(m);
    if Strip(arch) == [] then Err(MissingSkeleton(m.name))
    else
      match render(StripIdMarkers(arch), Join(ExtractSpecs(m, ""), "\n"), text, example)
      case Some(p) => Ok(p)
      case None => Err(RenderFailed)
  }
}

=== FILE: src/registry.dfy ===
/** The schema registry (`core/schema_registry.py`): a map from snake_case
    schema names to model classes, filled by the `register_schema`
    decorator and, once, by discovery over the bundled model modules. */
module Registry {
  import opened Wrappers
  import opened Text
  import opened Schema
  import opened Order

  // ---------------------------------------------------------------------
  // `_to_snake_case`
  // ---------------------------------------------------------------------

  /** Whether `(.)([A-Z][a-z]+)` matches at the start of `s`. */
  predicate WordAt(s: string) {
    |s| >= 3 && s[0] != '\n' && IsAsciiUpper(s[1]) && IsAsciiLower(s[2])
  }

  /** `re.sub('(.)([A-Z][a-z]+)', r'\1_\2', s)`: an underscore before each
      capitalised word that follows some character, scanning from the left
      and resuming after the word. */
  function SplitWords(s: string): (r: string)
    decreases |s|
  {
    if s == [] then []
    else if WordAt(s) then
      var k := 2 + SpanBy(s[2..], IsAsciiLower);
      [s[0]] + "_" + s[1..k] + SplitWords(s[k..])
    else [s[0]] + SplitWords(s[1..])
  }

  /** Whether `([a-z0-9])([A-Z])` matches at the start of `s`. */
  predicate HumpAt(s: string) {
    |s| >= 2 && (IsAsciiLower(s[0]) || IsDigit(s[0])) && IsAsciiUpper(s[1])
  }

  /** `re.sub('([a-z0-9])([A-Z])', r'\1_\2', s)`. */
  function SplitHumps(s: string): (r: string)
    decreases |s|
  {
    if s == [] then []
    else if HumpAt(s) then [s[0], '_', s[1]] + SplitHumps(s[2..])
    else [s[0]] + SplitHumps(s[1..])
  }

  /** `_to_snake_case(name)`. */
  function ToSnakeCase(name: string): (r: string)
    ensures forall i :: 0 <= i < |r| ==> !IsUpper(r[i])
  {
    Lower(SplitHumps(SplitWords(name)))
  }

  /** The text with every underscore removed. */
  function DropUnderscores(s: string): (r: string)
    ensures '_' !in r
  {
    if s == [] then [] else (if s[0] == '_' then [] else [s[0]]) + DropUnderscores(s[1..])
  }

  lemma {:induction false} DropAppend(a: string, b: string)
    ensures DropUnderscores(a + b) == DropUnderscores(a) + DropUnderscores(b)
    decreases |a|
  {
    if a == [] {
      assert a + b == b;
    } else {
      assert (a + b)[0] == a[0];
      assert (a + b)[1..] == a[1..] + b;
      DropAppend(a[1..], b);
    }
  }

  lemma {:induction false} SplitWordsInserts(s: string)
    ensures DropUnderscores(SplitWords(s)) == DropUnderscores(s)
    decreases |s|
  {
    if s != [] {
      if WordAt(s) {
        var k := 2 + SpanBy(s[2..], IsAsciiLower);
        SplitWordsInserts(s[k..]);
        WordStep(s, k);
      } else {
        SplitWordsInserts(s[1..]);
        CharStep(s);
      }
    }
  }

  lemma WordStep(s: string, k: nat)
    requires WordAt(s) && k == 2 + SpanBy(s[2..], IsAsciiLower)
    requires DropUnderscores(SplitWords(s[k..])) == DropUnderscores(s[k..])
    ensures DropUnderscores(SplitWords(s)) == DropUnderscores(s)
  {
    var w, rest := s[1..k], s[k..];
    calc {
      DropUnderscores(SplitWords(s));
      { WordStepOut(s, k); }
      DropUnderscores([s[0]] + "_" + w) + DropUnderscores(SplitWords(rest));
      DropUnderscores([s[0]] + "_" + w) + DropUnderscores(rest);
      { DropSplice(s[0], w, rest); }
      DropUnderscores([s[0]] + w + rest);
      { Resplit(s, k); }
      DropUnderscores(s);
    }
  }

  lemma Resplit(s: string, k: nat)
    requires 1 <= k <= |s|
    ensures [s[0]] + s[1..k] + s[k..] == s
  {
  }

  /** An underscore inserted after the first character disappears again. */
  lemma DropSplice(c: char, w: string, rest: string)
    ensures DropUnderscores([c] + "_" + w) + DropUnderscores(rest) == DropUnderscores([c] + w + rest)
  {
    var h, u := [c], "_";
    var a, b, d := DropUnderscores(h), DropUnderscores(w), DropUnderscores(rest);
    assert DropUnderscores(h + u + w) == a + b by {
      DropAppend(h + u, w);
      DropAppend(h, u);
      assert DropUnderscores(u) == [] by {
        assert u[1..] == [];
      }
      assert a + [] == a;
    }
    assert DropUnderscores(h + w + rest) == a + b + d by {
      DropAppend(h + w, rest);
      DropAppend(h, w);
    }
  }

  lemma WordStepOut(s: string, k: nat)
    requires WordAt(s) && k == 2 + SpanBy(s[2..], IsAsciiLower)
    ensures DropUnderscores(SplitWords(s)) == DropUnderscores([s[0]] + "_" + s[1..k]) + DropUnderscores(SplitWords(s[k..]))
  {
    SplitWordsAt(s);
    DropAppend([s[0]] + "_" + s[1..k], SplitWords(s[k..]));
  }

  lemma SplitWordsAt(s: string)
    requires WordAt(s)
    ensures var k := 2 + SpanBy(s[2..], IsAsciiLower);
            SplitWords(s) == ([s[0]] + "_" + s[1..k]) + SplitWords(s[k..])
  {
  }

  lemma CharStep(s: string)
    requires s != [] && !WordAt(s)
    requires DropUnderscores(SplitWords(s[1..])) == DropUnderscores(s[1..])
    ensures DropUnderscores(SplitWords(s)) == DropUnderscores(s)
  {
    var head := [s[0]];
    assert SplitWords(s) == head + SplitWords(s[1..]);
    DropAppend(head, SplitWords(s[1..]));
    assert s == head + s[1..];
    DropAppend(head, s[1..]);
  }

  lemma {:induction false} SplitHumpsInserts(s: string)
    ensures DropUnderscores(SplitHumps(s)) == DropUnderscores(s)
    decreases |s|
  {
    if s != [] {
      if HumpAt(s) {
        var rest := s[2..];
        assert SplitHumps(s) == [s[0], '_', s[1]] + SplitHumps(rest);
        SplitHumpsInserts(rest);
        DropAppend([s[0], '_', s[1]], SplitHumps(rest));
        assert s == [s[0], s[1]] + rest;
        DropAppend([s[0], s[1]], rest);
      } else {
        assert SplitHumps(s) == [s[0]] + SplitHumps(s[1..]);
        SplitHumpsInserts(s[1..]);
        DropAppend([s[0]], SplitHumps(s[1..]));
        assert s == [s[0]] + s[1..];
        DropAppend([s[0]], s[1..]);
      }
    }
  }

  lemma {:induction false} DropLower(s: string)
    ensures DropUnderscores(Lower(s)) == Lower(DropUnderscores(s))
    decreases |s|
  {
    if s != [] {
      DropLower(s[1..]);
      assert Lower(s) == [LowerChar(s[0])] + Lower(s[1..]);
      DropAppend([LowerChar(s[0])], Lower(s[1..]));
      LowerAppend(if s[0] == '_' then [] else [s[0]], DropUnderscores(s[1..]));
    }
  }

  /** The snake_case name only adds underscores: without them it is the
      lower-cased name without them. */
  lemma ToSnakeCaseInserts(name: string)
    ensures DropUnderscores(ToSnakeCase(name)) == Lower(DropUnderscores(name))
  {
    SplitWordsInserts(name);
    SplitHumpsInserts(SplitWords(name));
    DropLower(SplitHumps(SplitWords(name)));
  }

  /** A capitalised word: an ASCII capital and at least one lower-case
      ASCII letter after it. */
  predicate CapWord(w: string) {
    |w| >= 2 && IsAsciiUpper(w[0]) && forall i :: 1 <= i < |w| ==> IsAsciiLower(w[i])
  }

  /** What `SplitWords` makes of capitalised words written together: an
      underscore inside every other boundary. */
  function Pairs(ws: seq<string>): string {
    if |ws| == 0 then []
    else if |ws| == 1 then ws[0]
    else ws[0] + "_" + ws[1] + Pairs(ws[2..])
  }

  lemma {:induction false} SplitWordsSkip(x: string, t: string)
    requires forall p :: 0 <= p < |x| ==> !WordAt((x + t)[p..])
    ensures SplitWords(x + t) == x + SplitWords(t)
    decreases |x|
  {
    if x != [] {
      var xt := x + t;
      assert xt[1..] == x[1..] + t;
      forall p | 0 <= p < |x[1..]| ensures !WordAt((x[1..] + t)[p..]) {
        assert (x[1..] + t)[p..] == xt[p + 1..];
      }
      SplitWordsSkip(x[1..], t);
      assert !WordAt(xt) by {
        assert xt[0..] == xt;
      }
      SplitWordsChar(xt);
      assert [x[0]] + (x[1..] + SplitWords(t)) == x + SplitWords(t);
    } else {
      assert x + t == t;
    }
  }

  lemma SplitWordsChar(s: string)
    requires s != [] && !WordAt(s)
    ensures SplitWords(s) == [s[0]] + SplitWords(s[1..])
  {
  }

  lemma {:induction false} SplitHumpsSkip(x: string, t: string)
    requires forall p :: 0 <= p < |x| ==> !HumpAt((x + t)[p..])
    ensures SplitHumps(x + t) == x + SplitHumps(t)
    decreases |x|
  {
    if x != [] {
      assert (x + t)[1..] == x[1..] + t;
      forall p | 0 <= p < |x[1..]| ensures !HumpAt((x[1..] + t)[p..]) {
        assert (x[1..] + t)[p..] == (x + t)[p + 1..];
      }
      SplitHumpsSkip(x[1..], t);
      assert (x + t)[0..] == x + t;
      assert !HumpAt(x + t);
      assert x == [x[0]] + x[1..];
    } else {
      assert x + t == t;
    }
  }

  lemma {:induction false} JoinHead(ws: seq<string>, sep: string)
    requires ws != [] && ws[0] != []
    ensures Join(ws, sep) != [] && Join(ws, sep)[0] == ws[0][0]
  {
  }

  lemma {:induction false} PairsHead(ws: seq<string>)
    requires ws != [] && ws[0] != []
    ensures Pairs(ws) != [] && Pairs(ws)[0] == ws[0][0]
  {
  }

  lemma {:induction false} SplitWordsPairs(ws: seq<string>)
    requires forall i :: 0 <= i < |ws| ==> CapWord(ws[i])
    ensures SplitWords(Join(ws, "")) == Pairs(ws)
    decreases |ws|
  {
    if |ws| == 1 {
      SplitWordsOne(ws[0]);
    } else if |ws| >= 2 {
      var a, b, r := ws[0], ws[1], ws[2..];
      var j := Join(r, "");
      SplitWordsPairs(r);
      if r != [] {
        JoinHead(r, "");
      }
      JoinTwo(ws);
      SplitWordsTwo(a, b, j, Pairs(r));
    }
  }

  /** The words joined, two at a time. */
  lemma JoinTwo(ws: seq<string>)
    requires |ws| >= 2
    ensures Join(ws, "") == ws[0] + (ws[1] + Join(ws[2..], ""))
  {
    var t, j := ws[1..], Join(ws[2..], "");
    assert Join(ws, "") == ws[0] + "" + Join(t, "");
    assert ws[0] + "" == ws[0];
    assert t[0] == ws[1] && t[1..] == ws[2..];
    if |ws| == 2 {
      assert Join(t, "") == ws[1];
      assert ws[1] + j == ws[1];
    } else {
      assert Join(t, "") == t[0] + "" + Join(t[1..], "");
      assert t[0] + "" == t[0];
    }
  }

  /** A single capitalised word holds no match. */
  lemma SplitWordsOne(w: string)
    requires CapWord(w)
    ensures SplitWords(w) == w
  {
    forall p | 0 <= p < |w| ensures !WordAt((w + [])[p..]) {
      assert (w + [])[p..] == w[p..];
      if p + 2 < |w| { assert w[p..][1] == w[p + 1]; }
    }
    SplitWordsSkip(w, []);
    assert w + [] == w;
  }

  /** Two capitalised words ahead of text that starts a new word (or is
      empty): the second word is split off the first. */
  lemma SplitWordsTwo(a: string, b: string, j: string, q: string)
    requires CapWord(a) && CapWord(b)
    requires j == [] || IsAsciiUpper(j[0])
    requires SplitWords(j) == q
    ensures SplitWords(a + (b + j)) == a + "_" + b + q
  {
    var x := a[..|a| - 1];
    var c := a[|a| - 1];
    var t := [c] + (b + j);
    SplitBeforeLast(a, b, j, q);
    NoWordInside(a, x, t);
    SplitWordsSkip(x, t);
    SplitWordsAfter(c, b, j, q);
  }

  lemma SplitBeforeLast(a: string, b: string, j: string, q: string)
    requires a != []
    ensures a + (b + j) == a[..|a| - 1] + ([a[|a| - 1]] + (b + j))
    ensures a[..|a| - 1] + ([a[|a| - 1]] + "_" + b + q) == a + "_" + b + q
  {
    assert a == a[..|a| - 1] + [a[|a| - 1]];
  }

  /** No match starts before the last letter of a capitalised word. */
  lemma NoWordInside(a: string, x: string, t: string)
    requires CapWord(a) && x == a[..|a| - 1]
    requires t != [] && t[0] == a[|a| - 1]
    ensures forall p :: 0 <= p < |x| ==> !WordAt((x + t)[p..])
  {
    forall p | 0 <= p < |x| ensures !WordAt((x + t)[p..]) {
      assert (x + t)[p..][1] == (x + t)[p + 1];
      if p + 1 < |x| {
        assert (x + t)[p + 1] == a[p + 1];
      } else {
        assert (x + t)[p + 1] == t[0];
      }
    }
  }

  /** A lower-case letter followed by a capitalised word: the match. */
  lemma SplitWordsAfter(c: char, b: string, j: string, q: string)
    requires IsAsciiLower(c) && CapWord(b)
    requires j == [] || IsAsciiUpper(j[0])
    requires SplitWords(j) == q
    ensures SplitWords([c] + (b + j)) == [c] + "_" + b + q
  {
    var t := [c] + (b + j);
    assert WordAt(t);
    assert t[2..] == b[1..] + j;
    SpanAll(b[1..], j);
    var k := 2 + SpanBy(t[2..], IsAsciiLower);
    assert k == |b| + 1;
    assert t[1..k] == b;
    assert t[k..] == j;
  }

  /** The lower-case run at the start of a capitalised word's tail stops
      where the next word begins. */
  lemma {:induction false} SpanAll(l: string, j: string)
    requires forall i :: 0 <= i < |l| ==> IsAsciiLower(l[i])
    requires j == [] || IsAsciiUpper(j[0])
    ensures SpanBy(l + j, IsAsciiLower) == |l|
    decreases |l|
  {
    if l == [] {
      assert l + j == j;
    } else {
      assert (l + j)[1..] == l[1..] + j;
      SpanAll(l[1..], j);
    }
  }

  lemma {:induction false} SplitHumpsPairs(ws: seq<string>)
    requires forall i :: 0 <= i < |ws| ==> CapWord(ws[i])
    ensures SplitHumps(Pairs(ws)) == Join(ws, "_")
    decreases |ws|
  {
    if |ws| == 1 {
      SplitHumpsOne(ws[0]);
    } else if |ws| >= 2 {
      var a, b, r := ws[0], ws[1], ws[2..];
      assert Pairs(ws) == a + "_" + b + Pairs(r);
      assert ws[1..] == [b] + r;
      assert ws[1..][1..] == r;
      if r == [] {
        assert Join(ws, "_") == a + "_" + b;
        assert Pairs(ws) == a + "_" + b;
        SplitHumpsEnd(a, b);
      } else {
        assert Join(ws, "_") == a + "_" + (b + "_" + Join(r, "_"));
        SplitHumpsPairs(r);
        PairsHead(r);
        SplitHumpsTwo(a, b, Pairs(r), Join(r, "_"));
      }
    }
  }

  /** A single capitalised word holds no match. */
  lemma SplitHumpsOne(w: string)
    requires CapWord(w)
    ensures SplitHumps(w) == w
  {
    forall p | 0 <= p < |w| ensures !HumpAt((w + [])[p..]) {
      assert (w + [])[p..] == w[p..];
      if p + 1 < |w| { assert w[p..][1] == w[p + 1]; }
    }
    SplitHumpsSkip(w, []);
    assert w + [] == w;
  }

  /** Two capitalised words already split by an underscore hold no match. */
  lemma SplitHumpsEnd(a: string, b: string)
    requires CapWord(a) && CapWord(b)
    ensures SplitHumps(a + "_" + b) == a + "_" + b
  {
    var x := a + "_" + b;
    NoHumpInside(a, b, x, []);
    SplitHumpsSkip(x, []);
    assert x + [] == x;
  }

  /** No match starts in `a + "_" + b` before the last letter of `b`. */
  lemma NoHumpInside(a: string, b: string, x: string, t: string)
    requires CapWord(a) && CapWord(b)
    requires (x == a + "_" + b && t == []) || (x == a + "_" + b[..|b| - 1] && t != [] && IsAsciiLower(t[0]))
    ensures forall p :: 0 <= p < |x| ==> !HumpAt((x + t)[p..])
  {
    forall p | 0 <= p < |x| ensures !HumpAt((x + t)[p..]) {
      if p + 1 < |x + t| {
        assert (x + t)[p..][0] == (x + t)[p] && (x + t)[p..][1] == (x + t)[p + 1];
        if p < |a| - 1 {
          assert (x + t)[p + 1] == a[p + 1];
        } else if p == |a| - 1 {
          assert (x + t)[p + 1] == '_';
        } else if p == |a| {
          assert (x + t)[p] == '_';
        } else if p + 1 < |x| {
          assert (x + t)[p + 1] == b[p - |a|];
        } else if x != a + "_" + b {
          assert (x + t)[p + 1] == t[0];
        }
      }
    }
  }

  /** Two capitalised words ahead of text starting with a capital: an
      underscore goes in before that text. */
  lemma SplitHumpsTwo(a: string, b: string, q: string, joined: string)
    requires CapWord(a) && CapWord(b)
    requires q != [] && IsAsciiUpper(q[0])
    requires SplitHumps(q) == joined
    ensures SplitHumps(a + "_" + b + q) == a + "_" + (b + "_" + joined)
  {
    var x := a + "_" + b[..|b| - 1];
    var c := b[|b| - 1];
    var t := [c] + q;
    SplitAtLast(a, b, q, joined);
    NoHumpInside(a, b, x, t);
    SplitHumpsSkip(x, t);
    SplitHumpsAfter(c, q, joined);
  }

  lemma SplitAtLast(a: string, b: string, q: string, joined: string)
    requires b != []
    ensures a + "_" + b + q == (a + "_" + b[..|b| - 1]) + ([b[|b| - 1]] + q)
    ensures (a + "_" + b[..|b| - 1]) + ([b[|b| - 1]] + "_" + joined) == a + "_" + (b + "_" + joined)
  {
    assert b == b[..|b| - 1] + [b[|b| - 1]];
  }

  /** A lower-case letter followed by a capital: the match. */
  lemma SplitHumpsAfter(c: char, q: string, joined: string)
    requires IsAsciiLower(c)
    requires q != [] && IsAsciiUpper(q[0])
    requires SplitHumps(q) == joined
    ensures SplitHumps([c] + q) == [c] + "_" + joined
  {
    var t := [c] + q;
    assert HumpAt(t);
    assert t[2..] == q[1..];
    assert !HumpAt(q);
    assert SplitHumps(q) == [q[0]] + SplitHumps(q[1..]);
  }

  /** Capitalised words written together come out lower-cased and joined
      by underscores: `CompanyCoreView` becomes `company_core_view`. */
  lemma ToSnakeCaseWords(ws: seq<string>)
    requires forall i :: 0 <= i < |ws| ==> CapWord(ws[i])
    ensures ToSnakeCase(Join(ws, "")) == Lower(Join(ws, "_"))
  {
    SplitWordsPairs(ws);
    SplitHumpsPairs(ws);
  }

  // ---------------------------------------------------------------------
  // The registry
  // ---------------------------------------------------------------------

  /** What a name bound in a scanned module, or handed to the decorator,
      can be: a `BaseModel` subclass, `BaseModel` itself, another class,
      or something that is not a class at all. */
  datatype PyObject =
    | ModelType(cls: ModelClass)
    | BaseModelType
    | OtherType(typeName: string)
    | NotAType

  datatype RegistryError =
    | TypeError(msg: string)
    | SchemaError(msg: string)

  /** The bundled models directory as discovery sees it: missing (with the
      path it looked at), or present with the objects its modules bind,
      module after module in scan order. */
  datatype ModelsDir =
    | Missing(path: string)
    | Found(objects: seq<PyObject>)

  /** What `register_schema` accepts: a class that is `BaseModel` or one of
      its subclasses. */
  predicate Registrable(o: PyObject) {
    o.ModelType? || o.BaseModelType?
  }

  /** What discovery registers: a `BaseModel` subclass other than
      `BaseModel` itself (every such class carries `model_config`). */
  predicate Discoverable(o: PyObject) {
    o.ModelType?
  }

  function TypeName(o: PyObject): string
    requires Registrable(o)
  {
    if o.ModelType? then o.cls.name else "BaseModel"
  }

  /** The key a class is registered under. */
  function SchemaName(o: PyObject): (k: string)
    requires Registrable(o)
    ensures DropUnderscores(k) == Lower(DropUnderscores(TypeName(o)))
  {
    ToSnakeCaseInserts(TypeName(o));
    ToSnakeCase(TypeName(o))
  }

  const TypeErrorMessage := "Only Pydantic BaseModel subclasses can be registered"

  /** The discovery loop over the scanned objects, from the given map. */
  function Discovered(e: map<string, PyObject>, objs: seq<PyObject>): (r: map<string, PyObject>)
    ensures e.Keys <= r.Keys
    decreases |objs|
  {
    if objs == [] then e
    else
      var p := Discovered(e, objs[..|objs| - 1]);
      var o := objs[|objs| - 1];
      if Discoverable(o) then p[SchemaName(o) := o] else p
  }

  /** The names discovery registers objects under. */
  function DiscoveredNames(objs: seq<PyObject>): set<string> {
    set i | 0 <= i < |objs| && Discoverable(objs[i]) :: SchemaName(objs[i])
  }

  /** The keys after discovery: the old keys and the names of the
      discoverable objects, nothing else. */
  lemma {:induction false} DiscoveredKeys(e: map<string, PyObject>, objs: seq<PyObject>)
    ensures Discovered(e, objs).Keys == e.Keys + DiscoveredNames(objs)
    decreases |objs|
  {
    if objs != [] {
      DiscoveredKeys(e, objs[..|objs| - 1]);
      NamesSnoc(objs);
    }
  }

  lemma NamesSnoc(objs: seq<PyObject>)
    requires objs != []
    ensures var o := objs[|objs| - 1];
      DiscoveredNames(objs)
      == DiscoveredNames(objs[..|objs| - 1]) + (if Discoverable(o) then {SchemaName(o)} else {})
  {
    NamesSnocSub(objs);
    NamesSnocSup(objs);
  }

  lemma NamesSnocSub(objs: seq<PyObject>)
    requires objs != []
    ensures var o := objs[|objs| - 1];
      DiscoveredNames(objs) <= DiscoveredNames(objs[..|objs| - 1]) + (if Discoverable(o) then {SchemaName(o)} else {})
  {
    var init, o := objs[..|objs| - 1], objs[|objs| - 1];
    forall k | k in DiscoveredNames(objs) ensures k in DiscoveredNames(init) || (Discoverable(o) && k == SchemaName(o)) {
      var i :| 0 <= i < |objs| && Discoverable(objs[i]) && SchemaName(objs[i]) == k;
      if i < |init| {
        assert objs[i] == init[i];
        assert Discoverable(init[i]) && SchemaName(init[i]) == k;
      } else {
        assert objs[i] == o;
      }
    }
  }

  lemma NamesSnocSup(objs: seq<PyObject>)
    requires objs != []
    ensures var o := objs[|objs| - 1];
      DiscoveredNames(objs[..|objs| - 1]) + (if Discoverable(o) then {SchemaName(o)} else {}) <= DiscoveredNames(objs)
  {
    var init, o := objs[..|objs| - 1], objs[|objs| - 1];
    forall k | k in DiscoveredNames(init) ensures k in DiscoveredNames(objs) {
      var i :| 0 <= i < |init| && Discoverable(init[i]) && SchemaName(init[i]) == k;
      assert objs[i] == init[i];
    }
    if Discoverable(o) {
      assert SchemaName(objs[|objs| - 1]) in DiscoveredNames(objs);
    }
  }

  /** A discoverable object that no later one shadows ends up registered. */
  lemma {:induction false} DiscoveredLast(e: map<string, PyObject>, objs: seq<PyObject>, i: nat)
    requires i < |objs| && Discoverable(objs[i])
    requires forall j :: i < j < |objs| && Discoverable(objs[j]) ==> SchemaName(objs[j]) != SchemaName(objs[i])
    ensures SchemaName(objs[i]) in Discovered(e, objs)
    ensures Discovered(e, objs)[SchemaName(objs[i])] == objs[i]
    decreases |objs|
  {
    var init := objs[..|objs| - 1];
    if i < |init| {
      assert init[i] == objs[i];
      forall j | i < j < |init| && Discoverable(init[j]) ensures SchemaName(init[j]) != SchemaName(init[i]) {
        assert init[j] == objs[j];
      }
      DiscoveredLast(e, init, i);
    }
  }

  /** A key no discoverable object maps to keeps its old entry. */
  lemma {:induction false} DiscoveredKeeps(e: map<string, PyObject>, objs: seq<PyObject>, k: string)
    requires k in e
    requires forall j :: 0 <= j < |objs| && Discoverable(objs[j]) ==> SchemaName(objs[j]) != k
    ensures k in Discovered(e, objs) && Discovered(e, objs)[k] == e[k]
    decreases |objs|
  {
    if objs != [] {
      var init := objs[..|objs| - 1];
      forall j | 0 <= j < |init| && Discoverable(init[j]) ensures SchemaName(init[j]) != k {
        assert init[j] == objs[j];
      }
      DiscoveredKeeps(e, init, k);
    }
  }

  /** The registry after the discover-once step that every public
      operation starts with. */
  datatype Outcome = Outcome(error: Option<RegistryError>, entries: map<string, PyObject>, discovered: bool)

  function AfterDiscovery(e: map<string, PyObject>, discovered: bool, dir: ModelsDir): (r: Outcome)
    ensures r.error.None? <==> r.discovered
    ensures e.Keys <= r.entries.Keys
    ensures discovered || r.error.Some? ==> r.entries == e
  {
    if discovered then Outcome(None, e, true)
    else match dir
      case Missing(path) => Outcome(Some(SchemaError("Models directory not found: " + path)), e, false)
      case Found(objs) => Outcome(None, Discovered(e, objs), true)
  }

  /** Discovery runs once: once it has succeeded, running it again, over
      any directory, changes nothing. */
  lemma DiscoverOnce(e: map<string, PyObject>, discovered: bool, dir: ModelsDir, dir': ModelsDir)
    requires AfterDiscovery(e, discovered, dir).error.None?
    ensures var o := AfterDiscovery(e, discovered, dir);
      AfterDiscovery(o.entries, o.discovered, dir') == o
  {
  }

  /** The error `get_model` raises for an unknown name. */
  function NotFoundMessage(name: string, keys: set<string>): string {
    "Schema '" + name + "' not found. Available schemas: " + Join(Sorted(keys), ", ")
  }

  /** The not-found message names every registered schema. */
  lemma NotFoundNamesAll(name: string, keys: set<string>, k: string)
    requires k in keys
    ensures Contains(NotFoundMessage(name, keys), k)
  {
    var sorted := Sorted(keys);
    var i :| 0 <= i < |sorted| && sorted[i] == k;
    JoinContains(sorted, ", ", i);
    ContainsAfter("Schema '" + name + "' not found. Available schemas: ", Join(sorted, ", "), k);
  }

  /** `get_model(name)`. */
  function Lookup(e: map<string, PyObject>, discovered: bool, dir: ModelsDir, name: string): (r: Result<PyObject, RegistryError>)
    ensures var o := AfterDiscovery(e, discovered, dir);
      r.Ok? <==> o.error.None? && name in o.entries
  {
    var o := AfterDiscovery(e, discovered, dir);
    if o.error.Some? then Err(o.error.value)
    else if name in o.entries then Ok(o.entries[name])
    else Err(SchemaError(NotFoundMessage(name, o.entries.Keys)))
  }

  /** A registered class is found under its snake_case name once discovery
      has run. */
  lemma LookupRegistered(e: map<string, PyObject>, dir: ModelsDir, o: PyObject)
    requires Registrable(o)
    ensures Lookup(e[SchemaName(o) := o], true, dir, SchemaName(o)) == Ok(o)
  {
  }

  /** A model discovered last under its name is found by that name. */
  lemma LookupDiscovered(e: map<string, PyObject>, objs: seq<PyObject>, i: nat)
    requires i < |objs| && Discoverable(objs[i])
    requires forall j :: i < j < |objs| && Discoverable(objs[j]) ==> SchemaName(objs[j]) != SchemaName(objs[i])
    ensures Lookup(e, false, Found(objs), SchemaName(objs[i])) == Ok(objs[i])
  {
    DiscoveredLast(e, objs, i);
  }

  /** The registry's state: the name-to-class map and whether discovery
      has completed. */
  class SchemaRegistry {
    var entries: map<string, PyObject>
    var discovered: bool

    constructor()
      ensures entries == map[] && !discovered
    {
      entries := map[];
      discovered := false;
    }

    /** `register_schema(o)`: the decorator hands the class back. */
    method Register(o: PyObject) returns (r: Result<PyObject, RegistryError>)
      modifies this
      ensures discovered == old(discovered)
      ensures Registrable(o) ==> r == Ok(o) && entries == old(entries)[SchemaName(o) := o]
      ensures !Registrable(o) ==> r == Err(TypeError(TypeErrorMessage)) && entries == old(entries)
    {
      if !Registrable(o) {
        return Err(TypeError(TypeErrorMessage));
      }
      var name := ToSnakeCase(TypeName(o));
      entries := entries[name := o];
      r := Ok(o);
    }

    /** `_auto_discover_schemas()`. */
    method Discover(dir: ModelsDir) returns (err: Option<RegistryError>)
      modifies this
      ensures Outcome(err, entries, discovered) == AfterDiscovery(old(entries), old(discovered), dir)
    {
      if discovered {
        return None;
      }
      if dir.Missing? {
        return Some(SchemaError("Models directory not found: " + dir.path));
      }
      var objs := dir.objects;
      var i := 0;
      while i < |objs|
        invariant 0 <= i <= |objs|
        invariant entries == Discovered(old(entries), objs[..i])
        invariant !discovered
      {
        var o := objs[i];
        if o.ModelType? {
          entries := entries[ToSnakeCase(o.cls.name) := o];
        }
        assert objs[..i + 1][..i] == objs[..i];
        i := i + 1;
      }
      assert objs[..i] == objs;
      discovered := true;
      err := None;
    }

    /** `get_model(name)`. */
    method GetModel(name: string, dir: ModelsDir) returns (r: Result<PyObject, RegistryError>)
      modifies this
      ensures Outcome(AfterDiscovery(old(entries), old(discovered), dir).error, entries, discovered)
        == AfterDiscovery(old(entries), old(discovered), dir)
      ensures r == Lookup(old(entries), old(discovered), dir, name)
    {
      var err := Discover(dir);
      if err.Some? {
        return Err(err.value);
      }
      if name !in entries {
        var available := Sorted(entries.Keys);
        return Err(SchemaError("Schema '" + name + "' not found. Available schemas: " + Join(available, ", ")));
      }
      r := Ok(entries[name]);
    }

    /** `list_available_schemas()`. */
    method ListAvailable(dir: ModelsDir) returns (r: Result<seq<string>, RegistryError>)
      modifies this
      ensures Outcome(AfterDiscovery(old(entries), old(discovered), dir).error, entries, discovered)
        == AfterDiscovery(old(entries), old(discovered), dir)
      ensures r.Ok? <==> discovered
      ensures r.Ok? ==> r.value == Sorted(entries.Keys)
      ensures r.Err? ==> r.error == AfterDiscovery(old(entries), old(discovered), dir).error.value
    {
      var err := Discover(dir);
      if err.Some? {
        return Err(err.value);
      }
      r := Ok(Sorted(entries.Keys));
    }

    /** `get_all_schemas()`: a copy of the map. */
    method GetAll(dir: ModelsDir) returns (r: Result<map<string, PyObject>, RegistryError>)
      modifies this
      ensures Outcome(AfterDiscovery(old(entries), old(discovered), dir).error, entries, discovered)
        == AfterDiscovery(old(entries), old(discovered), dir)
      ensures r.Ok? <==> discovered
      ensures r.Ok? ==> r.value == entries
      ensures r.Err? ==> r.error == AfterDiscovery(old(entries), old(discovered), dir).error.value
    {
      var err := Discover(dir);
      if err.Some? {
        return Err(err.value);
      }
      r := Ok(entries);
    }
  }
}

=== FILE: src/schema.dfy ===
/** The schema side of the mapping: model classes, their fields and the
    annotations on those fields, as the runtime reflection of the source
    exposes them, plus the plain values a parse produces. */
module Schema {
  import opened Wrappers

  /** A field annotation.  `TUnion` covers both `Union[...]`/`Optional[...]`
      and `T | None` (the visualizer resolves the latter as Python 3.14
      does); `TOther` is any class that is neither `str`, `None`
      nor a model (for instance `int`). */
  datatype TypeExpr =
    | TStr
    | TNone
    | TOther(name: string)
    | TList(args: seq<TypeExpr>)
    | TUnion(args: seq<TypeExpr>)
    | TModel(model: ModelClass)

  /** How a field is filled when a model is built without arguments. */
  datatype DefaultKind =
    | Required                       // `Field(...)`: no default
    | DefaultNone                    // `Field(None, ...)`
    | DefaultEmptyList               // `Field(default_factory=list, ...)`
    | DefaultFactory(of: ModelClass) // `Field(default_factory=SomeView, ...)`

  /** One entry of `model_fields`: its name, the `markdown_title` of its
      `json_schema_extra` (absent or present, possibly empty), its annotation
      and its default. */
  datatype Field = Field(name: string, title: Option<string>, annotation: TypeExpr, default: DefaultKind)

  /** A model class: its name, its docstring, its `__business_architecture__`
      attribute (absent or present) and its fields in declaration order. */
  datatype ModelClass = ModelClass(name: string, doc: Option<string>, skeleton: Option<string>, fields: seq<Field>)

  /** The values a parse yields: a string, a list of strings, a dictionary of
      field values (in field order), `None`, or an instance built by calling
      a model class with no arguments. */
  datatype Value =
    | Str(s: string)
    | Items(xs: seq<string>)
    | Record(entries: seq<(string, Value)>)
    | Null
    | Instance(model: string, entries: seq<(string, Value)>)

  /** Python truthiness of the `markdown_title` entry: present and non-empty. */
  predicate HasTitle(f: Field) {
    f.title.Some? && f.title.value != ""
  }

  /** Field names of a model, in declaration order. */
  function FieldNames(fields: seq<Field>): (names: seq<string>)
    ensures |names| == |fields|
    ensures forall i :: 0 <= i < |fields| ==> names[i] == fields[i].name
  {
    if fields == [] then [] else [fields[0].name] + FieldNames(fields[1..])
  }

  /** The value of `getattr(cls, "__business_architecture__", "")`. */
  function SkeletonText(m: ModelClass): string {
    m.skeleton.GetOr("")
  }

  /** The position of the first member of a union that is not `None`
      (`|args|` when there is none). */
  function FirstNotNone(args: seq<TypeExpr>): (k: nat)
    ensures k <= |args|
    ensures forall i :: 0 <= i < k ==> args[i] == TNone
    ensures k < |args| ==> args[k] != TNone
  {
    if args == [] || args[0] != TNone then 0 else 1 + FirstNotNone(args[1..])
  }
}

=== FILE: src/sections.dfy ===
/** The section tree the parser builds from a Markdown answer
    (`MarkdownParser._split_sections`): a line scanner with a stack of open
    sections, each keyed in its parent by the literal heading text. */
module Sections {
  import opened Wrappers
  import opened Text

  /** A section: the text directly under its heading and its subsections,
      in insertion order with unique keys (a Python dict). */
  datatype Section = Section(content: string, subsections: seq<(string, Section)>)

  const EmptySection := Section("", [])

  // ---------------------------------------------------------------------
  // the subsections dictionary
  // ---------------------------------------------------------------------

  function Keys(subs: seq<(string, Section)>): (ks: seq<string>)
    ensures |ks| == |subs|
    ensures forall i :: 0 <= i < |subs| ==> ks[i] == subs[i].0
  {
    if subs == [] then [] else [subs[0].0] + Keys(subs[1..])
  }

  predicate UniqueKeys(subs: seq<(string, Section)>) {
    forall i, j :: 0 <= i < j < |subs| ==> subs[i].0 != subs[j].0
  }

  /** `key in d` followed by `d[key]`. */
  function Lookup(subs: seq<(string, Section)>, key: string): (r: Option<Section>)
    ensures r.None? <==> key !in Keys(subs)
  {
    if subs == [] then None
    else if subs[0].0 == key then Some(subs[0].1)
    else Lookup(subs[1..], key)
  }

  /** A key found by `Lookup` sits at some position of the dictionary. */
  lemma {:induction false} LookupIndex(subs: seq<(string, Section)>, key: string)
    requires Lookup(subs, key).Some?
    ensures exists i :: 0 <= i < |subs| && subs[i].0 == key && subs[i].1 == Lookup(subs, key).value
  {
    if subs[0].0 != key {
      LookupIndex(subs[1..], key);
      var i :| 0 <= i < |subs[1..]| && subs[1..][i].0 == key && subs[1..][i].1 == Lookup(subs[1..], key).value;
      assert subs[i + 1] == subs[1..][i];
    }
  }

  /** `d[key] = value`: an existing key keeps its position, a new key goes last. */
  function Put(subs: seq<(string, Section)>, key: string, value: Section): (r: seq<(string, Section)>)
    ensures key in Keys(subs) ==> Keys(r) == Keys(subs)
    ensures key !in Keys(subs) ==> Keys(r) == Keys(subs) + [key]
    ensures Lookup(r, key) == Some(value)
    ensures forall k :: k != key ==> Lookup(r, k) == Lookup(subs, k)
  {
    if subs == [] then [(key, value)]
    else if subs[0].0 == key then
      var r := [(key, value)] + subs[1..];
      assert r[1..] == subs[1..];
      r
    else
      var rest := Put(subs[1..], key, value);
      var r := [subs[0]] + rest;
      assert r[1..] == rest;
      r
  }

  /** Assignment keeps the keys of a dictionary distinct. */
  lemma {:induction false} PutKeepsUnique(subs: seq<(string, Section)>, key: string, value: Section)
    requires UniqueKeys(subs)
    ensures UniqueKeys(Put(subs, key, value))
  {
    if subs != [] {
      assert [subs[0]] + subs[1..] == subs;
      UniqueTail(subs[0], subs[1..]);
      if subs[0].0 == key {
        UniqueCons((key, value), subs[1..]);
      } else {
        PutKeepsUnique(subs[1..], key, value);
        UniqueCons(subs[0], Put(subs[1..], key, value));
      }
    }
  }

  /** The tail of a dictionary with distinct keys has distinct keys and
      does not hold the first key. */
  lemma {:induction false} UniqueTail(x: (string, Section), rest: seq<(string, Section)>)
    requires UniqueKeys([x] + rest)
    ensures x.0 !in Keys(rest) && UniqueKeys(rest)
  {
    var s := [x] + rest;
    forall i, j | 0 <= i < j < |rest| ensures rest[i].0 != rest[j].0 {
      assert s[i + 1] == rest[i] && s[j + 1] == rest[j];
    }
    forall j | 0 <= j < |rest| ensures Keys(rest)[j] != x.0 {
      assert s[j + 1] == rest[j] && s[0] == x;
    }
  }

  /** A first key missing from a dictionary with distinct keys keeps them distinct. */
  lemma {:induction false} UniqueCons(x: (string, Section), rest: seq<(string, Section)>)
    requires x.0 !in Keys(rest) && UniqueKeys(rest)
    ensures UniqueKeys([x] + rest)
  {
    var s := [x] + rest;
    forall i, j | 0 <= i < j < |s| ensures s[i].0 != s[j].0 {
      assert s[j] == rest[j - 1];
      if i > 0 {
        assert s[i] == rest[i - 1];
      } else {
        assert Keys(rest)[j - 1] == rest[j - 1].0;
      }
    }
  }

  // ---------------------------------------------------------------------
  // headings
  // ---------------------------------------------------------------------

  function HashRun(line: string): (k: nat)
    ensures k <= |line|
  {
    SpanBy(line, IsHash)
  }

  /** `re.match(r'^(#{1,6})\s+(.*)', line)`: one to six `#` and then whitespace. */
  predicate IsHeading(line: string) {
    var k := HashRun(line);
    1 <= k <= 6 && k < |line| && IsSpace(line[k])
  }

  /** The heading's title: the rest of the line, stripped. */
  function HeadingTitle(line: string): string
    requires IsHeading(line)
  {
    Strip(line[HashRun(line)..])
  }

  /** A run of one to six `#` followed by whitespace is a heading of that
      level, titled by the stripped rest of the line. */
  lemma {:induction false} HeadingShape(k: nat, tail: string)
    requires 1 <= k <= 6 && tail != [] && IsSpace(tail[0])
    ensures IsHeading(Repeat('#', k) + tail)
    ensures HashRun(Repeat('#', k) + tail) == k
    ensures HeadingTitle(Repeat('#', k) + tail) == Strip(tail)
  {
    HashRunOf(k, tail);
    var line := Repeat('#', k) + tail;
    assert line[k..] == tail;
  }

  lemma {:induction false} HashRunOf(k: nat, rest: string)
    requires rest == [] || rest[0] != '#'
    ensures HashRun(Repeat('#', k) + rest) == k
  {
    if k == 0 {
      assert Repeat('#', k) + rest == rest;
    } else {
      assert (Repeat('#', k) + rest)[1..] == Repeat('#', k - 1) + rest;
      HashRunOf(k - 1, rest);
    }
  }

  /** Seven or more `#`, or `#` not followed by whitespace, is not a heading. */
  lemma {:induction false} NotHeading(k: nat, rest: string)
    requires rest == [] || rest[0] != '#'
    requires k > 6 || rest == [] || !IsSpace(rest[0])
    ensures !IsHeading(Repeat('#', k) + rest)
  {
    HashRunOf(k, rest);
    var line := Repeat('#', k) + rest;
    if k <= 6 && k < |line| {
      assert line[k] == rest[0];
    }
  }

  // ---------------------------------------------------------------------
  // the stack of open sections
  // ---------------------------------------------------------------------

  /** An open section: its heading level, its key in the parent, its contents so far. */
  datatype Frame = Frame(level: nat, title: string, section: Section)

  const RootFrame := Frame(0, "", EmptySection)

  /** The stack is never empty, starts with the root at level 0, and its
      levels strictly increase. */
  predicate ValidStack(st: seq<Frame>) {
    |st| >= 1 && st[0].level == 0
    && forall i :: 1 <= i < |st| ==> st[i - 1].level < st[i].level
  }

  function Top(st: seq<Frame>): Frame
    requires |st| >= 1
  {
    st[|st| - 1]
  }

  /** Closing the innermost open section stores it in its parent under its title. */
  function CloseTop(st: seq<Frame>): (r: seq<Frame>)
    requires |st| >= 2
    ensures |r| == |st| - 1
    ensures Top(r).level == st[|st| - 2].level && Top(r).title == st[|st| - 2].title
    ensures SameSpine(r, st)
  {
    var parent := st[|st| - 2];
    var top := Top(st);
    var sec := Section(parent.section.content, Put(parent.section.subsections, top.title, top.section));
    st[..|st| - 2] + [Frame(parent.level, parent.title, sec)]
  }

  /** `a` holds the levels and titles of the bottom `|a|` frames of `b`. */
  predicate SameSpine(a: seq<Frame>, b: seq<Frame>) {
    |a| <= |b| && forall i :: 0 <= i < |a| ==> a[i].level == b[i].level && a[i].title == b[i].title
  }

  /** The pops before a level-`level` heading is opened: every open section
      of level `level` or deeper is closed, so the new top is the nearest
      open section whose level is below `level`. */
  function PopTo(st: seq<Frame>, level: nat): (r: seq<Frame>)
    requires ValidStack(st) && level >= 1
    ensures ValidStack(r)
    ensures 1 <= |r| <= |st| && SameSpine(r, st)
    ensures Top(r).level < level
    ensures forall k :: |r| <= k < |st| ==> st[k].level >= level
    decreases |st|
  {
    if Top(st).level >= level then
      var c := CloseTop(st);
      CloseTopValid(st);
      var r := PopTo(c, level);
      SpineTrans(r, c, st);
      r
    else st
  }

  lemma {:induction false} CloseTopValid(st: seq<Frame>)
    requires ValidStack(st) && |st| >= 2
    ensures ValidStack(CloseTop(st))
  {
    SpineValid(CloseTop(st), st);
  }

  lemma {:induction false} SpineTrans(a: seq<Frame>, b: seq<Frame>, c: seq<Frame>)
    requires SameSpine(a, b) && SameSpine(b, c)
    ensures SameSpine(a, c)
  {
  }

  lemma {:induction false} PushValid(st: seq<Frame>, f: Frame)
    requires ValidStack(st) && Top(st).level < f.level
    ensures ValidStack(st + [f])
  {
    var r := st + [f];
    forall i | 1 <= i < |r| ensures r[i - 1].level < r[i].level {
      if i < |st| {
        assert r[i - 1] == st[i - 1] && r[i] == st[i];
      }
    }
  }

  /** Appending a content line: it replaces empty content, otherwise it is
      added after a line break. */
  function AddText(content: string, line: string): string {
    if content == "" then line else content + "\n" + line
  }

  /** The stack with its innermost frame replaced. */
  function WithTop(st: seq<Frame>, f: Frame): (r: seq<Frame>)
    requires |st| >= 1
    ensures |r| == |st| && Top(r) == f
  {
    st[..|st| - 1] + [f]
  }

  lemma {:induction false} WithTopTwice(st: seq<Frame>, f: Frame, g: Frame)
    requires |st| >= 1
    ensures WithTop(WithTop(st, f), g) == WithTop(st, g)
  {
    assert WithTop(st, f)[..|st| - 1] == st[..|st| - 1];
  }

  lemma {:induction false} WithTopSame(st: seq<Frame>)
    requires |st| >= 1
    ensures WithTop(st, Top(st)) == st
  {
  }

  /** The innermost section with one more content line. */
  function AddLine(st: seq<Frame>, line: string): (r: seq<Frame>)
    requires |st| >= 1
    ensures |r| == |st| && SameSpine(r, st)
    ensures Top(r) == Frame(Top(st).level, Top(st).title,
                            Section(AddText(Top(st).section.content, line), Top(st).section.subsections))
  {
    var top := Top(st);
    var r := WithTop(st, Frame(top.level, top.title, Section(AddText(top.section.content, line), top.section.subsections)));
    assert forall i :: 0 <= i < |r| - 1 ==> r[i] == st[i];
    r
  }

  lemma {:induction false} SpineValid(a: seq<Frame>, b: seq<Frame>)
    requires ValidStack(b) && SameSpine(a, b) && 1 <= |a|
    ensures ValidStack(a)
  {
    forall i | 1 <= i < |a| ensures a[i - 1].level < a[i].level {
      assert a[i - 1].level == b[i - 1].level;
    }
  }

  /** One line of the scan. */
  function Step(st: seq<Frame>, line: string): (r: seq<Frame>)
    requires ValidStack(st)
    ensures ValidStack(r)
  {
    if IsHeading(line) then
      var popped := PopTo(st, HashRun(line));
      var f := Frame(HashRun(line), HeadingTitle(line), EmptySection);
      PushValid(popped, f);
      popped + [f]
    else
      SpineValid(AddLine(st, line), st);
      AddLine(st, line)
  }

  /** The scan of a sequence of lines. */
  function Run(st: seq<Frame>, lines: seq<string>): (r: seq<Frame>)
    requires ValidStack(st)
    ensures ValidStack(r)
    decreases |lines|
  {
    if lines == [] then st else Run(Step(st, lines[0]), lines[1..])
  }

  lemma {:induction false} RunSnoc(st: seq<Frame>, lines: seq<string>, line: string)
    requires ValidStack(st)
    ensures Run(st, lines + [line]) == Step(Run(st, lines), line)
    decreases |lines|
  {
    if lines == [] {
      assert lines + [line] == [line];
    } else {
      assert (lines + [line])[1..] == lines[1..] + [line];
      RunSnoc(Step(st, lines[0]), lines[1..], line);
    }
  }

  lemma {:induction false} RunPrefix(lines: seq<string>, i: nat)
    requires i < |lines|
    ensures Run([RootFrame], lines[..i + 1]) == Step(Run([RootFrame], lines[..i]), lines[i])
  {
    assert lines[..i + 1] == lines[..i] + [lines[i]];
    RunSnoc([RootFrame], lines[..i], lines[i]);
  }

  /** Closing every open section folds the stack into the root. */
  function CloseAll(st: seq<Frame>): (r: Frame)
    requires ValidStack(st)
    ensures r.level == st[0].level && r.title == st[0].title
    decreases |st|
  {
    if |st| == 1 then st[0] else CloseAll(CloseTop(st))
  }

  /** The section tree of a document. */
  function SplitDoc(text: string): Section {
    CloseAll(Run([RootFrame], Split(text, '\n'))).section
  }

  /** `_split_sections`: the scan with an explicit stack. */
  method SplitSections(text: string) returns (root: Section)
    ensures root == SplitDoc(text)
  {
    var lines := Split(text, '\n');
    var stack := [RootFrame];
    var i := 0;
    while i < |lines|
      invariant 0 <= i <= |lines|
      invariant stack == Run([RootFrame], lines[..i])
    {
      RunPrefix(lines, i);
      stack := ScanLine(stack, lines[i]);
      i := i + 1;
    }
    assert lines[..|lines|] == lines;
    root := CloseSections(stack);
  }

  /** One line of the scan: a heading pops the sections it closes and opens
      its own; any other line is content of the innermost open section. */
  method ScanLine(st: seq<Frame>, line: string) returns (stack: seq<Frame>)
    requires ValidStack(st)
    ensures stack == Step(st, line)
  {
    if IsHeading(line) {
      var level := HashRun(line);
      var title := HeadingTitle(line);
      stack := PopSections(st, level);
      stack := stack + [Frame(level, title, EmptySection)];
    } else {
      stack := AddLine(st, line);
    }
  }

  /** The pops before a heading is opened; the stack never runs empty, as
      the root's level 0 is below every heading level. */
  method PopSections(st: seq<Frame>, level: nat) returns (stack: seq<Frame>)
    requires ValidStack(st) && level >= 1
    ensures stack == PopTo(st, level)
  {
    stack := st;
    while |stack| > 0 && Top(stack).level >= level
      invariant ValidStack(stack)
      invariant PopTo(stack, level) == PopTo(st, level)
      decreases |stack|
    {
      stack := CloseTop(stack);
    }
  }

  /** The open sections, closed one by one into the root. */
  method CloseSections(st: seq<Frame>) returns (root: Section)
    requires ValidStack(st)
    ensures root == CloseAll(st).section
  {
    var stack := st;
    while |stack| > 1
      invariant ValidStack(stack)
      invariant CloseAll(stack) == CloseAll(st)
      decreases |stack|
    {
      stack := CloseTop(stack);
    }
    root := stack[0].section;
  }

  // ---------------------------------------------------------------------
  // properties of the scan
  // ---------------------------------------------------------------------

  /** Leading empty lines of a section body are dropped. */
  function DropLeadingEmpty(lines: seq<string>): (r: seq<string>)
    ensures r == [] || r[0] != ""
  {
    if lines == [] then [] else if lines[0] == "" then DropLeadingEmpty(lines[1..]) else lines
  }

  /** Repeated `AddText`. */
  function AddAll(content: string, lines: seq<string>): string
    decreases |lines|
  {
    if lines == [] then content else AddAll(AddText(content, lines[0]), lines[1..])
  }

  /** Once the content is non-empty, each further line is added after a line break. */
  lemma {:induction false} AddAllNonEmpty(content: string, lines: seq<string>)
    requires content != ""
    ensures AddAll(content, lines) == if lines == [] then content else content + "\n" + Join(lines, "\n")
    decreases |lines|
  {
    if lines != [] {
      var c := content + "\n" + lines[0];
      AddAllNonEmpty(c, lines[1..]);
      if |lines| > 1 {
        assert Join(lines, "\n") == lines[0] + "\n" + Join(lines[1..], "\n");
      }
    }
  }

  /** A section's content is its body lines joined with `\n`, leading empty
      lines dropped. */
  lemma {:induction false} AddAllFromEmpty(lines: seq<string>)
    ensures AddAll("", lines) == Join(DropLeadingEmpty(lines), "\n")
    decreases |lines|
  {
    if lines != [] {
      if lines[0] == "" {
        AddAllFromEmpty(lines[1..]);
      } else {
        AddAllNonEmpty(lines[0], lines[1..]);
        if |lines| > 1 {
          assert Join(lines, "\n") == lines[0] + "\n" + Join(lines[1..], "\n");
        }
      }
    }
  }

  predicate NoHeadings(lines: seq<string>) {
    forall i :: 0 <= i < |lines| ==> !IsHeading(lines[i])
  }

  /** The innermost open section with `lines` added to its content. */
  function Grown(st: seq<Frame>, lines: seq<string>): seq<Frame>
    requires |st| >= 1
  {
    var top := Top(st);
    WithTop(st, Frame(top.level, top.title, Section(AddAll(top.section.content, lines), top.section.subsections)))
  }

  /** Lines that are not headings only grow the content of the innermost
      open section. */
  lemma {:induction false} RunContentLines(st: seq<Frame>, lines: seq<string>)
    requires ValidStack(st)
    requires NoHeadings(lines)
    ensures Run(st, lines) == Grown(st, lines)
    decreases |lines|
  {
    if lines == [] {
      WithTopSame(st);
    } else {
      var st' := Step(st, lines[0]);
      assert st' == AddLine(st, lines[0]);
      assert NoHeadings(lines[1..]) by {
        forall i | 0 <= i < |lines[1..]| ensures !IsHeading(lines[1..][i]) {
          assert lines[1..][i] == lines[i + 1];
        }
      }
      RunContentLines(st', lines[1..]);
      WithTopTwice(st, Top(st'), Top(Grown(st', lines[1..])));
    }
  }

  /** A document without headings is a root holding all of it. */
  lemma {:induction false} SplitDocNoHeadings(text: string)
    requires NoHeadings(Split(text, '\n'))
    ensures SplitDoc(text) == Section(Join(DropLeadingEmpty(Split(text, '\n')), "\n"), [])
  {
    var lines := Split(text, '\n');
    RunContentLines([RootFrame], lines);
    AddAllFromEmpty(lines);
  }

  /** A document made of one heading line and a body without headings is a
      root with that one section. */
  lemma {:induction false} SplitDocOneHeading(heading: string, body: seq<string>)
    requires IsHeading(heading) && NoHeadings(body)
    ensures CloseAll(Run([RootFrame], [heading] + body)).section
         == Section("", [(HeadingTitle(heading), Section(Join(DropLeadingEmpty(body), "\n"), []))])
  {
    var grown := Frame(HashRun(heading), HeadingTitle(heading), Section(AddAll("", body), []));
    RunOneHeading(heading, body);
    CloseAllTwo(RootFrame, grown);
    AddAllFromEmpty(body);
  }

  lemma {:induction false} RunOneHeading(heading: string, body: seq<string>)
    requires IsHeading(heading) && NoHeadings(body)
    ensures Run([RootFrame], [heading] + body)
         == [RootFrame, Frame(HashRun(heading), HeadingTitle(heading), Section(AddAll("", body), []))]
  {
    var child := Frame(HashRun(heading), HeadingTitle(heading), EmptySection);
    var st := [RootFrame, child];
    RunCons([RootFrame], heading, body);
    StepHeadingAtRoot([RootFrame], heading);
    RunContentLines(st, body);
    assert Top(st) == child;
    assert st[..1] == [RootFrame];
    assert Grown(st, body) == [RootFrame] + [Frame(child.level, child.title, Section(AddAll("", body), []))];
  }

  lemma {:induction false} RunCons(st: seq<Frame>, line: string, rest: seq<string>)
    requires ValidStack(st)
    ensures Run(st, [line] + rest) == Run(Step(st, line), rest)
  {
    assert ([line] + rest)[1..] == rest;
  }

  /** Assigning a key twice keeps only the second value. */
  lemma {:induction false} PutTwice(subs: seq<(string, Section)>, key: string, a: Section, b: Section)
    ensures Put(Put(subs, key, a), key, b) == Put(subs, key, b)
  {
    if subs != [] && subs[0].0 != key {
      PutTwice(subs[1..], key, a, b);
      assert Put(subs, key, a)[1..] == Put(subs[1..], key, a);
    }
  }

  /** A heading below the root opens a child of the root. */
  lemma {:induction false} StepHeadingAtRoot(st: seq<Frame>, heading: string)
    requires ValidStack(st) && |st| == 1 && IsHeading(heading)
    ensures Step(st, heading) == st + [Frame(HashRun(heading), HeadingTitle(heading), EmptySection)]
  {
    assert PopTo(st, HashRun(heading)) == st;
  }

  /** A heading of the same level as the only open child closes it first. */
  lemma {:induction false} StepHeadingSibling(st: seq<Frame>, heading: string)
    requires ValidStack(st) && |st| == 2 && IsHeading(heading) && HashRun(heading) == st[1].level
    ensures Step(st, heading) == CloseTop(st) + [Frame(HashRun(heading), HeadingTitle(heading), EmptySection)]
  {
    var c := CloseTop(st);
    assert PopTo(c, HashRun(heading)) == c;
  }

  /** A heading of the same level and text as the open child closes it and
      opens an empty one in its place: whatever was written under the first
      heading is lost. */
  lemma {:induction false} SameTitleReplaces(root: Frame, child: Frame, again: string)
    requires root.level == 0 && child.level > 0
    requires IsHeading(again) && HashRun(again) == child.level && HeadingTitle(again) == child.title
    ensures CloseAll(Step([root, child], again)) == CloseAll([root, Frame(child.level, child.title, EmptySection)])
  {
    var st := [root, child];
    var empty := Frame(child.level, child.title, EmptySection);
    StepHeadingSibling(st, again);
    var root1 := Frame(0, root.title, Section(root.section.content, Put(root.section.subsections, child.title, child.section)));
    assert CloseTop(st) == [root1];
    CloseAllTwo(root1, empty);
    CloseAllTwo(root, empty);
    PutTwice(root.section.subsections, child.title, child.section, EmptySection);
  }

  /** Closing a root with one open child stores the child under its title. */
  lemma {:induction false} CloseAllTwo(root: Frame, child: Frame)
    requires root.level == 0 && child.level > 0
    ensures CloseAll([root, child])
         == Frame(0, root.title, Section(root.section.content, Put(root.section.subsections, child.title, child.section)))
  {
    assert CloseTop([root, child]) == [Frame(0, root.title, Section(root.section.content, Put(root.section.subsections, child.title, child.section)))];
  }
}

=== FILE: src/skeleton.dfy ===
/** Two scanners over a model's skeleton (`__business_architecture__`) that
    the parser, the prompt builder and the visualiser share: removal of
    `[id:NAME]` markers (`re.sub(r'\s*\[id:[a-zA-Z_][a-zA-Z0-9_]*\]', '', s)`)
    and the level-1 headings (`re.findall(r'^#\s+(.*)', s, re.MULTILINE)`). */
module Skeleton {
  import opened Text

  predicate IsIdentStart(c: char) { IsAsciiLetter(c) || c == '_' }

  predicate IsIdentChar(c: char) { IsAsciiLetter(c) || IsDigit(c) || c == '_' }

  /** A name the marker pattern accepts. */
  predicate IsIdent(name: string) {
    name != [] && IsIdentStart(name[0])
    && forall i :: 0 <= i < |name| ==> IsIdentChar(name[i])
  }

  const MarkerOpen: string := "[id:"

  function Marker(name: string): string {
    MarkerOpen + name + "]"
  }

  /** Length of the `[id:NAME]` marker at the start of `s`, or 0 if there is none. */
  function MarkerLength(s: string): (n: nat)
    ensures n == 0 || (6 <= n <= |s| && MarkerOpen <= s && s[n - 1] == ']' && IsIdent(s[4..n - 1]))
  {
    if |s| > 5 && s[..4] == MarkerOpen && IsIdentStart(s[4]) then
      var k := SpanBy(s[5..], IsIdentChar);
      if 5 + k < |s| && s[5 + k] == ']' then
        assert s[4..5 + k][1..] == s[5..][..k];
        6 + k
      else 0
    else 0
  }

  /** Length of the match of `\s*\[id:...\]` at the start of `s`, or 0. */
  function MarkerMatch(s: string): (n: nat)
    ensures n <= |s|
  {
    var w := SpanBy(s, IsSpace);
    var m := MarkerLength(s[w..]);
    if m > 0 then w + m else 0
  }

  /** Every marker, with the whitespace directly before it, removed. */
  function StripIdMarkers(s: string): (r: string)
    ensures |r| <= |s|
    decreases |s|
  {
    if s == [] then []
    else
      var m := MarkerMatch(s);
      if m > 0 then StripIdMarkers(s[m..]) else [s[0]] + StripIdMarkers(s[1..])
  }

  /** A marker match starts with a run of whitespace and then `[id:`. */
  lemma MarkerMatchShape(s: string)
    requires MarkerMatch(s) > 0
    ensures MarkerOpen <= s[SpanBy(s, IsSpace)..]
  {
  }

  /** Text that never contains `[id:` is left unchanged. */
  lemma {:induction false} StripIdMarkersNoMarker(s: string)
    requires !Contains(s, MarkerOpen)
    ensures StripIdMarkers(s) == s
    decreases |s|
  {
    if s != [] {
      if MarkerMatch(s) > 0 {
        var w := SpanBy(s, IsSpace);
        MarkerMatchShape(s);
        ContainsAt(s, w, MarkerOpen);
        assert false;
      }
      assert !Contains(s[1..], MarkerOpen);
      StripIdMarkersNoMarker(s[1..]);
    }
  }

  lemma {:induction false} ContainsAt(s: string, i: nat, needle: string)
    requires i <= |s| && needle <= s[i..]
    ensures Contains(s, needle)
    decreases i
  {
    if i > 0 {
      assert s[1..][i - 1..] == s[i..];
      ContainsAt(s[1..], i - 1, needle);
    }
  }

  lemma MarkerLengthOf(name: string, rest: string)
    requires IsIdent(name)
    ensures MarkerLength(Marker(name) + rest) == |Marker(name)|
  {
    var s := Marker(name) + rest;
    assert s[..4] == MarkerOpen;
    assert s[4] == name[0];
    assert s[5..] == name[1..] + ("]" + rest);
    SpanIdent(name[1..], "]" + rest);
  }

  lemma {:induction false} SpanIdent(a: string, b: string)
    requires forall i :: 0 <= i < |a| ==> IsIdentChar(a[i])
    requires b != [] && !IsIdentChar(b[0])
    ensures SpanBy(a + b, IsIdentChar) == |a|
  {
    if a == [] {
      assert a + b == b;
    } else {
      assert (a + b)[1..] == a[1..] + b;
      SpanIdent(a[1..], b);
    }
  }

  /** A marker and the whitespace before it are removed. */
  lemma StripIdMarkersRemoves(ws: string, name: string, rest: string)
    requires forall i :: 0 <= i < |ws| ==> IsSpace(ws[i])
    requires IsIdent(name)
    ensures StripIdMarkers(ws + Marker(name) + rest) == StripIdMarkers(rest)
  {
    var s := ws + Marker(name) + rest;
    assert s == ws + (Marker(name) + rest);
    SpanSpaces(ws, Marker(name) + rest);
    assert s[|ws|..] == Marker(name) + rest;
    MarkerLengthOf(name, rest);
    assert s[|ws| + |Marker(name)|..] == rest;
  }

  lemma {:induction false} SpanSpaces(a: string, b: string)
    requires forall i :: 0 <= i < |a| ==> IsSpace(a[i])
    requires b == [] || !IsSpace(b[0])
    ensures SpanBy(a + b, IsSpace) == |a|
  {
    if a == [] {
      assert a + b == b;
    } else {
      assert (a + b)[1..] == a[1..] + b;
      SpanSpaces(a[1..], b);
    }
  }

  /** No marker match starts inside text that holds no `[` and does not end
      in whitespace. */
  lemma NoMatchInPrefix(p: string, t: string)
    requires p != [] && '[' !in p && !IsSpace(p[|p| - 1])
    ensures MarkerMatch(p + t) == 0
  {
    var s := p + t;
    var w := SpanBy(s, IsSpace);
    assert s[|p| - 1] == p[|p| - 1];
    assert w < |p|;
    assert s[w] == p[w];
    assert s[w..][0] != '[';
  }

  /** Text that holds no `[` and does not end in whitespace passes through
      unchanged, whatever follows it. */
  lemma {:induction false} StripIdMarkersPrefix(p: string, t: string)
    requires '[' !in p && (p == [] || !IsSpace(p[|p| - 1]))
    ensures StripIdMarkers(p + t) == p + StripIdMarkers(t)
    decreases |p|
  {
    if p == [] {
      assert p + t == t;
    } else {
      NoMatchInPrefix(p, t);
      var q := p[1..];
      assert (p + t)[1..] == q + t;
      assert '[' !in q by {
        forall i | 0 <= i < |q| ensures q[i] != '[' {
          assert q[i] == p[i + 1];
        }
      }
      assert q == [] || q[|q| - 1] == p[|p| - 1];
      StripIdMarkersPrefix(q, t);
      ConsAppend(p, StripIdMarkers(t));
    }
  }

  lemma ConsAppend(p: string, s: string)
    requires p != []
    ensures [p[0]] + (p[1..] + s) == p + s
  {
  }

  /** Text before a marker is kept when it holds no `[` and does not end in
      whitespace; the marker and the whitespace before it go. */
  lemma StripIdMarkersKeepsPrefix(p: string, ws: string, name: string, rest: string)
    requires '[' !in p && (p == [] || !IsSpace(p[|p| - 1]))
    requires forall i :: 0 <= i < |ws| ==> IsSpace(ws[i])
    requires IsIdent(name)
    ensures StripIdMarkers(p + ws + Marker(name) + rest) == p + StripIdMarkers(rest)
  {
    var t := ws + Marker(name) + rest;
    assert p + ws + Marker(name) + rest == p + t;
    StripIdMarkersPrefix(p, t);
    StripIdMarkersRemoves(ws, name, rest);
  }

  // ---------------------------------------------------------------------
  // level-1 headings
  // ---------------------------------------------------------------------

  /** The groups of `^#\s+(.*)` found by `re.findall` with `re.MULTILINE`,
      scanning `s` from a line start.  `\s+` may run across line breaks,
      in which case the group is taken from the next non-blank line. */
  function Headings(s: string): (hs: seq<string>)
    ensures forall i :: 0 <= i < |hs| ==> '\n' !in hs[i]
    decreases |s|
  {
    if s == [] then []
    else if s[0] == '#' && |s| > 1 && IsSpace(s[1]) then
      var r := TrimLeftBy(s[1..], IsSpace);
      var e := IndexOf(r, '\n');
      [r[..e]] + (if e == |r| then [] else Headings(r[e + 1..]))
    else
      var e := IndexOf(s, '\n');
      if e == |s| then [] else Headings(s[e + 1..])
  }

  /** The titles of the level-1 headings of a skeleton, markers removed. */
  function TopHeadings(skeleton: string): seq<string> {
    Headings(StripIdMarkers(skeleton))
  }

  /** A first line `# title` yields `title` followed by the headings of the rest. */
  lemma HeadingsFirstLine(title: string, rest: string)
    requires title != [] && !IsSpace(title[0]) && '\n' !in title
    ensures Headings("# " + title + "\n" + rest) == [title] + Headings(rest)
  {
    var s := "# " + title + "\n" + rest;
    assert s[1..] == " " + (title + "\n" + rest);
    SpanSpaces(" ", title + "\n" + rest);
    var r := TrimLeftBy(s[1..], IsSpace);
    assert r == title + "\n" + rest;
    IndexOfAfter(title, rest);
    assert r[..|title|] == title;
    assert r[|title| + 1..] == rest;
  }

  lemma IndexOfAfter(a: string, b: string)
    requires '\n' !in a
    ensures IndexOf(a + "\n" + b, '\n') == |a|
  {
    IndexOfPrefix(a, "\n" + b, '\n');
    assert a + "\n" + b == a + ("\n" + b);
  }

  /** A first line that is not a level-1 heading contributes nothing. */
  lemma HeadingsSkipLine(line: string, rest: string)
    requires '\n' !in line
    requires line == [] || line[0] != '#' || (|line| > 1 && !IsSpace(line[1]))
    ensures Headings(line + "\n" + rest) == Headings(rest)
  {
    var s := line + "\n" + rest;
    IndexOfAfter(line, rest);
    assert s[|line| + 1..] == rest;
    if line == [] {
      assert s[0] == '\n';
    } else {
      assert s[0] == line[0];
      if |line| == 1 { assert s[1] == '\n'; } else { assert s[1] == line[1]; }
    }
  }
}

=== FILE: src/strings.dfy ===
/** Title normalisation and code-fence stripping
    (`llm_structured_extract/utils/strings.py`). */
module Strings {
  import opened Text

  // ---------------------------------------------------------------------
  // NFKC, restricted to the width folding the titles rely on
  // ---------------------------------------------------------------------

  /** Compatibility folding of one character: full-width ASCII forms become
      ASCII, and the ideographic and other fixed-width spaces become ' '. */
  function FoldWidthChar(c: char): (r: char)
    ensures '\U{FF01}' <= c <= '\U{FF5E}' ==> r as int == c as int - 0xFEE0
    ensures !('\U{FF01}' <= r <= '\U{FF5E}')
  {
    if '\U{FF01}' <= c <= '\U{FF5E}' then (c as int - 0xFEE0) as char
    else if c == '\U{3000}' || c == '\U{A0}' || ('\U{2000}' <= c <= '\U{200A}')
         || c == '\U{202F}' || c == '\U{205F}' then ' '
    else c
  }

  /** `unicodedata.normalize('NFKC', s)` on the width forms. */
  function Nfkc(s: string): (r: string)
    ensures |r| == |s|
    ensures forall i :: 0 <= i < |s| ==> r[i] == FoldWidthChar(s[i])
  {
    if s == [] then [] else [FoldWidthChar(s[0])] + Nfkc(s[1..])
  }

  /** Folding commutes with lower-casing, character by character. */
  lemma FoldLowerChar(c: char)
    ensures FoldWidthChar(LowerChar(c)) == LowerChar(FoldWidthChar(c))
    ensures FoldWidthChar(FoldWidthChar(c)) == FoldWidthChar(c)
  {
  }

  lemma NfkcLower(s: string)
    ensures Nfkc(Lower(s)) == Lower(Nfkc(s))
    ensures Nfkc(Nfkc(s)) == Nfkc(s)
  {
    forall i | 0 <= i < |s| ensures Nfkc(Lower(s))[i] == Lower(Nfkc(s))[i] {
      FoldLowerChar(s[i]);
    }
    forall i | 0 <= i < |s| ensures Nfkc(Nfkc(s))[i] == Nfkc(s)[i] {
      FoldLowerChar(s[i]);
    }
  }

  // ---------------------------------------------------------------------
  // normalize_title
  // ---------------------------------------------------------------------

  /** The characters of the class `[:：?？.。!！\s]` stripped from the end of a title. */
  predicate IsTitleTrailer(c: char) {
    c == ':' || c == '\U{FF1A}' || c == '?' || c == '\U{FF1F}' || c == '.'
    || c == '\U{3002}' || c == '!' || c == '\U{FF01}' || IsSpace(c)
  }

  lemma TrailerChar(c: char)
    ensures IsTitleTrailer(LowerChar(c)) == IsTitleTrailer(c)
    ensures IsTitleTrailer(c) ==> IsTitleTrailer(FoldWidthChar(c))
  {
  }

  /** Title normalisation: NFKC, drop the trailing run of punctuation and
      whitespace, strip, lower-case. */
  function NormalizeTitle(t: string): (r: string)
    ensures t == [] ==> r == []
    ensures r == [] || (!IsSpace(r[0]) && !IsTitleTrailer(r[|r| - 1]))
    ensures Lower(r) == r
  {
    if t == [] then []
    else
      var body := TrimRightBy(Nfkc(t), IsTitleTrailer);
      var r := Lower(Strip(body));
      StripKeepsEnd(body);
      LowerIdempotent(Strip(body));
      LowerKeepsEnd(Strip(body));
      r
  }

  lemma LowerKeepsEnd(s: string)
    ensures s == [] || IsTitleTrailer(Lower(s)[|s| - 1]) == IsTitleTrailer(s[|s| - 1])
    ensures s == [] || IsSpace(Lower(s)[0]) == IsSpace(s[0])
  {
    if s != [] {
      TrailerChar(s[|s| - 1]);
    }
  }

  /** The last character of a stripped string is one of the original's
      non-space characters; it is the original's last when that is not a space. */
  lemma StripKeepsEnd(s: string)
    requires s == [] || !IsSpace(s[|s| - 1])
    ensures Strip(s) == [] || Strip(s)[|Strip(s)| - 1] == s[|s| - 1]
  {
    var l := TrimLeftBy(s, IsSpace);
    if l != [] {
      assert l[|l| - 1] == s[|s| - 1];
      assert TrimRightBy(l, IsSpace) == l;
    }
  }

  /** Trimming trailers commutes with lower-casing. */
  lemma {:induction false} LowerTrimRight(s: string)
    ensures Lower(TrimRightBy(s, IsTitleTrailer)) == TrimRightBy(Lower(s), IsTitleTrailer)
    decreases |s|
  {
    if s != [] {
      var init := s[..|s| - 1];
      TrailerChar(s[|s| - 1]);
      LowerInit(s);
      LowerTrimRight(init);
    }
  }

  lemma {:induction false} LowerInit(s: string)
    requires s != []
    ensures Lower(s)[..|s| - 1] == Lower(s[..|s| - 1])
    ensures Lower(s)[|s| - 1] == LowerChar(s[|s| - 1])
  {
  }

  lemma {:induction false} LowerSpan(s: string)
    ensures SpanBy(Lower(s), IsSpace) == SpanBy(s, IsSpace)
    decreases |s|
  {
    if s != [] {
      assert Lower(s)[1..] == Lower(s[1..]);
      LowerSpan(s[1..]);
    }
  }

  lemma {:induction false} LowerTrimRightSpace(s: string)
    ensures Lower(TrimRightBy(s, IsSpace)) == TrimRightBy(Lower(s), IsSpace)
    decreases |s|
  {
    if s != [] {
      var init := s[..|s| - 1];
      assert Lower(s)[..|s| - 1] == Lower(init);
      LowerTrimRightSpace(init);
    }
  }

  /** Stripping commutes with lower-casing. */
  lemma LowerStrip(s: string)
    ensures Lower(Strip(s)) == Strip(Lower(s))
  {
    LowerSpan(s);
    var k := SpanBy(s, IsSpace);
    assert Lower(s)[k..] == Lower(s[k..]);
    LowerTrimRightSpace(s[k..]);
  }

  /** The normal form depends only on the lower-cased, width-folded text. */
  lemma NormalizeTitleCanonical(t: string)
    requires t != []
    ensures NormalizeTitle(t) == Strip(TrimRightBy(Lower(Nfkc(t)), IsTitleTrailer))
  {
    var body := TrimRightBy(Nfkc(t), IsTitleTrailer);
    LowerStrip(body);
    LowerTrimRight(Nfkc(t));
  }

  /** Titles that agree once width-folded and lower-cased normalise alike. */
  lemma NormalizeTitleFolded(a: string, b: string)
    requires Lower(Nfkc(a)) == Lower(Nfkc(b))
    ensures NormalizeTitle(a) == NormalizeTitle(b)
  {
    if a != [] && b != [] {
      NormalizeTitleCanonical(a);
      NormalizeTitleCanonical(b);
    }
  }

  /** Titles that differ only in letter case normalise alike. */
  lemma NormalizeTitleCaseInsensitive(a: string, b: string)
    requires Lower(a) == Lower(b)
    ensures NormalizeTitle(a) == NormalizeTitle(b)
  {
    NfkcLower(a);
    NfkcLower(b);
    NormalizeTitleFolded(a, b);
  }

  /** A trailing run of trailers does not change the normal form. */
  lemma NormalizeTitleIgnoresTrailer(t: string, junk: string)
    requires forall i :: 0 <= i < |junk| ==> IsTitleTrailer(junk[i])
    ensures NormalizeTitle(t + junk) == NormalizeTitle(t)
  {
    NfkcAppend(t, junk);
    forall i | 0 <= i < |junk| ensures IsTitleTrailer(Nfkc(junk)[i]) {
      TrailerChar(junk[i]);
    }
    TrimRightAppend(Nfkc(t), Nfkc(junk));
    if t == [] && junk != [] {
      assert Nfkc(t) == [];
    }
  }

  lemma {:induction false} NfkcAppend(a: string, b: string)
    ensures Nfkc(a + b) == Nfkc(a) + Nfkc(b)
    decreases |a|
  {
    if a == [] {
      assert a + b == b;
    } else {
      assert (a + b)[1..] == a[1..] + b;
      NfkcAppend(a[1..], b);
    }
  }

  lemma {:induction false} TrimRightAppend(s: string, junk: string)
    requires forall i :: 0 <= i < |junk| ==> IsTitleTrailer(junk[i])
    ensures TrimRightBy(s + junk, IsTitleTrailer) == TrimRightBy(s, IsTitleTrailer)
    decreases |junk|
  {
    if junk != [] {
      var init := junk[..|junk| - 1];
      assert (s + junk)[..|s + junk| - 1] == s + init;
      TrimRightAppend(s, init);
    } else {
      assert s + junk == s;
    }
  }

  /** Normalising twice gives the same as normalising once. */
  lemma NormalizeTitleIdempotent(t: string)
    ensures NormalizeTitle(NormalizeTitle(t)) == NormalizeTitle(t)
  {
    var r := NormalizeTitle(t);
    if r != [] {
      assert t != [];
      var body := TrimRightBy(Nfkc(t), IsTitleTrailer);
      var st := Strip(body);
      assert r == Lower(st);
      // Every character of r is already folded.
      forall i | 0 <= i < |r| ensures FoldWidthChar(r[i]) == r[i] {
        FoldedIn(t, body, st, i);
      }
      assert Nfkc(r) == r;
      assert TrimRightBy(r, IsTitleTrailer) == r;
      StripOfStripped(r);
    }
  }

  lemma FoldedIn(t: string, body: string, st: string, i: int)
    requires body == TrimRightBy(Nfkc(t), IsTitleTrailer) && st == Strip(body)
    requires 0 <= i < |st|
    ensures FoldWidthChar(LowerChar(st[i])) == LowerChar(st[i])
  {
    var k := SpanBy(body, IsSpace);
    assert st[i] == body[k + i];
    assert body[k + i] == Nfkc(t)[k + i];
    FoldLowerChar(t[k + i]);
    FoldLowerChar(st[i]);
  }

  // ---------------------------------------------------------------------
  // clean_markdown_code_block
  // ---------------------------------------------------------------------

  const Fence: string := "```"
  const MarkdownFence: string := "```markdown"

  /** The optional `\n` after an opening fence. */
  function DropLeadingNewline(s: string): (r: string)
    ensures r == s || (s != [] && s[0] == '\n' && r == s[1..])
  {
    if s != [] && s[0] == '\n' then s[1..] else s
  }

  /** `\n?```$` replaced by nothing: the closing fence and the newline before
      it, when the text ends with a fence. */
  function DropClosingFence(s: string): (r: string)
    ensures r <= s
    ensures (r == s) == !(|s| >= 3 && s[|s| - 3..] == Fence)
    ensures r != s ==> s[|r|..] == Fence || s[|r|..] == "\n```"
    ensures |s| >= 4 && s[|s| - 4..] == "\n```" ==> r == s[..|s| - 4]
    ensures |s| >= 3 && s[|s| - 3..] == Fence && !(|s| >= 4 && s[|s| - 4] == '\n') ==> r == s[..|s| - 3]
  {
    if |s| >= 4 && s[|s| - 4..] == "\n```" then s[..|s| - 4]
    else if |s| >= 3 && s[|s| - 3..] == Fence then s[..|s| - 3]
    else s
  }

  /** Removes a Markdown code fence wrapped around a model's answer. */
  function CleanMarkdownCodeBlock(text: string): (r: string)
    ensures r == [] || (!IsSpace(r[0]) && !IsSpace(r[|r| - 1]))
    ensures !(Fence <= Strip(text)) ==> r == Strip(text)
  {
    var t := Strip(text);
    if MarkdownFence <= t then
      Strip(DropClosingFence(DropLeadingNewline(t[|MarkdownFence|..])))
    else if Fence <= t then
      Strip(DropClosingFence(DropLeadingNewline(TrimLeftBy(t[|Fence|..], IsWordChar))))
    else
      StripOfStripped(t);
      t
  }

  predicate IsStripped(s: string) {
    s == [] || (!IsSpace(s[0]) && !IsSpace(s[|s| - 1]))
  }

  /** The closing fence line is removed from a stripped body. */
  lemma UnfenceBody(body: string)
    requires IsStripped(body)
    ensures Strip(DropClosingFence(body + "\n" + Fence)) == body
  {
    var b := body + "\n" + Fence;
    assert b[|b| - 4..] == "\n```";
    assert b[..|b| - 4] == body;
    StripOfStripped(body);
  }

  lemma FencedIsStripped(head: string, body: string)
    requires head != [] && head[0] == '`'
    ensures Strip(head + body + "\n" + Fence) == head + body + "\n" + Fence
  {
    var text := head + body + "\n" + Fence;
    assert text[0] == '`' && text[|text| - 1] == '`';
    StripOfStripped(text);
  }

  /** A body fenced as ```` ```markdown ```` is unwrapped to its stripped text. */
  lemma CleanFencedMarkdown(body: string)
    requires IsStripped(body)
    ensures CleanMarkdownCodeBlock(MarkdownFence + "\n" + body + "\n" + Fence) == body
  {
    var tail := "\n" + (body + "\n" + Fence);
    assert MarkdownFence + "\n" + body + "\n" + Fence == MarkdownFence + tail;
    FencedIsStripped(MarkdownFence + "\n", body);
    DropPrefix(MarkdownFence, tail);
    CleanMarkdownBranch(MarkdownFence + tail);
    assert DropLeadingNewline(tail) == body + "\n" + Fence;
    UnfenceBody(body);
  }

  lemma CleanMarkdownBranch(t: string)
    requires IsStripped(t) && MarkdownFence <= t
    ensures CleanMarkdownCodeBlock(t) == Strip(DropClosingFence(DropLeadingNewline(t[|MarkdownFence|..])))
  {
    StripOfStripped(t);
  }

  /** A fence followed by a tag that does not spell `markdown` and then a
      newline does not take the `markdown` branch. */
  lemma NotMarkdownFence(tag: string, rest: string)
    requires !("markdown" <= tag)
    requires rest != [] && rest[0] == '\n'
    ensures !(MarkdownFence <= Fence + (tag + rest))
  {
    var text := Fence + (tag + rest);
    if |text| >= |MarkdownFence| {
      if |tag| < 8 {
        assert text[3 + |tag|] == '\n';
        assert MarkdownFence[3 + |tag|] != '\n';
      } else {
        assert text[3..11] == tag[..8];
        assert tag[..8] != "markdown";
      }
    }
  }

  lemma DropPrefix(p: string, q: string)
    ensures (p + q)[..|p|] == p && (p + q)[|p|..] == q
  {
  }

  lemma CleanTaggedBranch(t: string)
    requires IsStripped(t)
    requires Fence <= t && !(MarkdownFence <= t)
    ensures CleanMarkdownCodeBlock(t)
         == Strip(DropClosingFence(DropLeadingNewline(TrimLeftBy(t[|Fence|..], IsWordChar))))
  {
    StripOfStripped(t);
    var s := Strip(t);
    assert !(MarkdownFence <= s) && Fence <= s;
  }

  /** A body fenced with a language tag made of word characters is unwrapped
      to its stripped text. */
  lemma CleanFencedTagged(tag: string, body: string)
    requires forall i :: 0 <= i < |tag| ==> IsWordChar(tag[i])
    requires !("markdown" <= tag)
    requires IsStripped(body)
    ensures CleanMarkdownCodeBlock(Fence + tag + "\n" + body + "\n" + Fence) == body
  {
    var tail := body + "\n" + Fence;
    assert Fence + (tag + ("\n" + tail)) == Fence + tag + "\n" + body + "\n" + Fence;
    SpanPrefix(tag, "\n" + tail);
    CleanTagged(tag, tail);
    UnfenceBody(body);
  }

  lemma CleanTagged(tag: string, tail: string)
    requires SpanBy(tag + ("\n" + tail), IsWordChar) == |tag|
    requires !("markdown" <= tag)
    requires tail != [] && tail[|tail| - 1] == '`'
    ensures CleanMarkdownCodeBlock(Fence + (tag + ("\n" + tail))) == Strip(DropClosingFence(tail))
  {
    var rest := "\n" + tail;
    var text := Fence + (tag + rest);
    NotMarkdownFence(tag, rest);
    DropPrefix(Fence, tag + rest);
    CleanTaggedBranch(text);
    var a := text[|Fence|..];
    DropPrefix(tag, rest);
    var b := TrimLeftBy(a, IsWordChar);
    assert b == rest;
    assert DropLeadingNewline(b) == tail;
  }

  lemma {:induction false} SpanPrefix(tag: string, rest: string)
    requires forall i :: 0 <= i < |tag| ==> IsWordChar(tag[i])
    requires rest == [] || !IsWordChar(rest[0])
    ensures SpanBy(tag + rest, IsWordChar) == |tag|
  {
    if tag == [] {
      assert tag + rest == rest;
    } else {
      assert (tag + rest)[1..] == tag[1..] + rest;
      SpanPrefix(tag[1..], rest);
    }
  }

  /** Cleaning is idempotent when the cleaned text does not itself open a fence. */
  lemma CleanIdempotent(text: string)
    requires !(Fence <= CleanMarkdownCodeBlock(text))
    ensures CleanMarkdownCodeBlock(CleanMarkdownCodeBlock(text)) == CleanMarkdownCodeBlock(text)
  {
    var r := CleanMarkdownCodeBlock(text);
    StripOfStripped(r);
  }

  /** Without that condition idempotence fails: a fenced block whose body is
      itself an unterminated fence line loses that line on a second pass. */
  lemma CleanNotIdempotent()
    ensures CleanMarkdownCodeBlock("```\n```x\n```") == "```x"
    ensures CleanMarkdownCodeBlock("```x") == ""
  {
    CleanInnerFence();
    CleanBareFence();
  }

  lemma CleanInnerFence()
    ensures CleanMarkdownCodeBlock("```\n```x\n```") == "```x"
  {
    var body := "```x";
    assert Fence + "" + "\n" + body + "\n" + Fence == "```\n```x\n```";
    CleanFencedTagged("", body);
  }

  lemma CleanBareFence()
    ensures CleanMarkdownCodeBlock("```x") == ""
  {
    var u := "```x";
    assert u[..|Fence|] == Fence;
    assert u[3] == 'x';
    CleanTaggedBranch(u);
    assert u[|Fence|..] == "x";
    assert SpanBy("x", IsWordChar) == 1;
  }
}

=== FILE: src/text.dfy ===
/** Character classes and the small string operations of Python's `str` that the
    rest of the model is written in: strip, lower, split, join, `in`. */
module Text {
  import opened Wrappers


  /** Python's `str.isspace()`, which is also what the regex class `\s` accepts. */
  predicate IsSpace(c: char) {
    c == ' ' || ('\t' <= c <= '\r') || ('\U{1C}' <= c <= '\U{1F}')
    || c == '\U{85}' || c == '\U{A0}' || c == '\U{1680}'
    || ('\U{2000}' <= c <= '\U{200A}') || c == '\U{2028}' || c == '\U{2029}'
    || c == '\U{202F}' || c == '\U{205F}' || c == '\U{3000}'
  }

  predicate IsAsciiUpper(c: char) { 'A' <= c <= 'Z' }

  predicate IsAsciiLower(c: char) { 'a' <= c <= 'z' }

  predicate IsAsciiLetter(c: char) { IsAsciiUpper(c) || IsAsciiLower(c) }

  /** Upper-case letters that `str.lower()` maps one step down the code
      table: ASCII, Latin-1 (except the multiplication sign) and the
      full-width Latin capitals. */
  predicate IsUpper(c: char) {
    IsAsciiUpper(c) || ('\U{C0}' <= c <= '\U{DE}' && c != '\U{D7}')
    || ('\U{FF21}' <= c <= '\U{FF3A}')
  }

  /** The regex class `\d`, restricted to ASCII digits. */
  predicate IsDigit(c: char) { '0' <= c <= '9' }

  /** The regex class `\w`: letters, digits and `_`; of the non-ASCII letters
      only the CJK unified ideographs are modelled. */
  predicate IsWordChar(c: char) {
    IsAsciiLetter(c) || IsDigit(c) || c == '_' || ('\U{4E00}' <= c <= '\U{9FFF}')
  }

  predicate IsHash(c: char) { c == '#' }

  function LowerChar(c: char): (r: char)
    ensures !IsUpper(r)
    ensures IsUpper(c) || r == c
    ensures IsSpace(r) == IsSpace(c)
  {
    if IsUpper(c) then (c as int + 32) as char else c
  }

  function UpperChar(c: char): (r: char)
    ensures !IsAsciiLower(r)
    ensures IsAsciiLower(c) || r == c
  {
    if IsAsciiLower(c) then (c as int - 32) as char else c
  }

  /** `str.lower()`, on the letters `IsUpper` names. */
  function Lower(s: string): (r: string)
    ensures |r| == |s|
    ensures forall i :: 0 <= i < |s| ==> r[i] == LowerChar(s[i])
  {
    if s == [] then [] else [LowerChar(s[0])] + Lower(s[1..])
  }

  lemma {:induction false} LowerAppend(a: string, b: string)
    ensures Lower(a + b) == Lower(a) + Lower(b)
  {
    if a == [] {
      assert a + b == b;
    } else {
      assert (a + b)[1..] == a[1..] + b;
      LowerAppend(a[1..], b);
    }
  }

  lemma LowerIdempotent(s: string)
    ensures Lower(Lower(s)) == Lower(s)
  {
    assert Lower(Lower(s)) == Lower(s);
  }

  /** Number of leading characters of `s` that satisfy `p`. */
  function SpanBy(s: string, p: char -> bool): (n: nat)
    ensures n <= |s|
    ensures forall i :: 0 <= i < n ==> p(s[i])
    ensures n == |s| || !p(s[n])
  {
    if s != [] && p(s[0]) then 1 + SpanBy(s[1..], p) else 0
  }

  /** `s.lstrip(chars)` where `p` says which characters are in `chars`. */
  function TrimLeftBy(s: string, p: char -> bool): (r: string)
    ensures r == s[SpanBy(s, p)..]
  {
    s[SpanBy(s, p)..]
  }

  /** `s.rstrip(chars)` where `p` says which characters are in `chars`. */
  function TrimRightBy(s: string, p: char -> bool): (r: string)
    ensures |r| <= |s| && r == s[..|r|]
    ensures r == [] || !p(r[|r| - 1])
    ensures forall i :: |r| <= i < |s| ==> p(s[i])
  {
    if s != [] && p(s[|s| - 1]) then TrimRightBy(s[..|s| - 1], p) else s
  }

  /** `s.strip(chars)`. */
  function StripBy(s: string, p: char -> bool): (r: string)
    ensures r == [] || (!p(r[0]) && !p(r[|r| - 1]))
  {
    TrimRightBy(TrimLeftBy(s, p), p)
  }

  /** `s.strip()`. */
  function Strip(s: string): (r: string)
    ensures r == [] || (!IsSpace(r[0]) && !IsSpace(r[|r| - 1]))
  {
    StripBy(s, IsSpace)
  }

  lemma StripOfStripped(s: string)
    requires s == [] || (!IsSpace(s[0]) && !IsSpace(s[|s| - 1]))
    ensures Strip(s) == s
  {
  }

  /** Index of the first `c` in `s`, or `|s|` when there is none. */
  function IndexOf(s: string, c: char): (k: nat)
    ensures k <= |s|
    ensures k < |s| ==> s[k] == c
    ensures forall i :: 0 <= i < k ==> s[i] != c
  {
    if s == [] then 0 else if s[0] == c then 0 else 1 + IndexOf(s[1..], c)
  }

  /** `s.split(sep)` for a one-character separator. */
  function Split(s: string, sep: char): (parts: seq<string>)
    ensures |parts| >= 1
    decreases |s|
  {
    var k := IndexOf(s, sep);
    if k == |s| then [s] else [s[..k]] + Split(s[k + 1..], sep)
  }

  /** No part of a split holds the separator. */
  lemma {:induction false} SplitParts(s: string, sep: char)
    ensures forall i :: 0 <= i < |Split(s, sep)| ==> sep !in Split(s, sep)[i]
    decreases |s|
  {
    var k := IndexOf(s, sep);
    if k < |s| {
      SplitParts(s[k + 1..], sep);
      var parts := Split(s, sep);
      forall i | 0 <= i < |parts| ensures sep !in parts[i] {
        if i > 0 { assert parts[i] == Split(s[k + 1..], sep)[i - 1]; }
      }
    }
  }

  /** `sep.join(parts)`. */
  function Join(parts: seq<string>, sep: string): string {
    if parts == [] then ""
    else if |parts| == 1 then parts[0]
    else parts[0] + sep + Join(parts[1..], sep)
  }

  /** Splitting and joining back gives the original text. */
  lemma {:induction false} JoinSplit(s: string, sep: char)
    ensures Join(Split(s, sep), [sep]) == s
    decreases |s|
  {
    var k := IndexOf(s, sep);
    if k < |s| {
      JoinSplit(s[k + 1..], sep);
      assert s == s[..k] + [sep] + s[k + 1..];
    }
  }

  /** Joining parts that do not contain the separator and splitting again
      gives the parts back. */
  lemma {:induction false} SplitJoin(parts: seq<string>, sep: char)
    requires |parts| >= 1
    requires forall i :: 0 <= i < |parts| ==> sep !in parts[i]
    ensures Split(Join(parts, [sep]), sep) == parts
  {
    if |parts| == 1 {
      IndexOfNone(parts[0], sep);
    } else {
      var tail := parts[1..];
      forall i | 0 <= i < |tail| ensures sep !in tail[i] {
        assert tail[i] == parts[i + 1];
      }
      SplitJoin(tail, sep);
      assert sep !in parts[0];
      SplitAtSep(parts[0], sep, Join(tail, [sep]));
    }
  }

  lemma {:induction false} IndexOfNone(s: string, c: char)
    requires c !in s
    ensures IndexOf(s, c) == |s|
  {
    if s != [] {
      assert s[0] in s;
      assert forall x :: x in s[1..] ==> x in s;
      IndexOfNone(s[1..], c);
    }
  }

  /** Splitting `a + sep + rest`, with no `sep` in `a`, gives `a` first. */
  lemma {:induction false} SplitAtSep(a: string, sep: char, rest: string)
    requires sep !in a
    ensures Split(a + [sep] + rest, sep) == [a] + Split(rest, sep)
  {
    var s := a + [sep] + rest;
    assert s == a + ([sep] + rest);
    IndexOfPrefix(a, [sep] + rest, sep);
    SplitAt(s, sep, |a|);
    assert s[..|a|] == a;
    assert s[|a| + 1..] == rest;
  }

  lemma {:induction false} SplitAt(s: string, sep: char, k: nat)
    requires k < |s| && IndexOf(s, sep) == k
    ensures Split(s, sep) == [s[..k]] + Split(s[k + 1..], sep)
  {
  }

  lemma {:induction false} IndexOfPrefix(a: string, b: string, c: char)
    requires c !in a
    ensures IndexOf(a + b, c) == |a| + IndexOf(b, c)
  {
    if a != [] {
      assert (a + b)[1..] == a[1..] + b;
      IndexOfPrefix(a[1..], b, c);
    } else {
      assert a + b == b;
    }
  }

  /** Python's `needle in hay` for strings. */
  predicate Contains(hay: string, needle: string)
    decreases |hay|
  {
    needle <= hay || (hay != [] && Contains(hay[1..], needle))
  }

  lemma {:induction false} ContainsSuffix(pre: string, needle: string, post: string)
    ensures Contains(pre + needle + post, needle)
    decreases |pre|
  {
    if pre == [] {
      assert pre + needle + post == needle + post;
    } else {
      assert (pre + needle + post)[1..] == pre[1..] + needle + post;
      ContainsSuffix(pre[1..], needle, post);
    }
  }

  /** Text that occurs in `a` occurs in `a + b`. */
  lemma {:induction false} ContainsExtend(a: string, b: string, needle: string)
    requires Contains(a, needle)
    ensures Contains(a + b, needle)
    decreases |a|
  {
    if !(needle <= a) {
      assert (a + b)[1..] == a[1..] + b;
      ContainsExtend(a[1..], b, needle);
    }
  }

  /** Text that occurs in `b` occurs in `a + b`. */
  lemma {:induction false} ContainsAfter(a: string, b: string, needle: string)
    requires Contains(b, needle)
    ensures Contains(a + b, needle)
    decreases |a|
  {
    if a == [] {
      assert a + b == b;
    } else {
      assert (a + b)[1..] == a[1..] + b;
      ContainsAfter(a[1..], b, needle);
    }
  }

  /** Every part occurs in the joined text. */
  lemma {:induction false} JoinContains(parts: seq<string>, sep: string, i: nat)
    requires i < |parts|
    ensures Contains(Join(parts, sep), parts[i])
    decreases |parts|
  {
    if |parts| == 1 {
      ContainsSuffix([], parts[0], []);
      assert [] + parts[0] + [] == parts[0];
    } else if i == 0 {
      ContainsSuffix([], parts[0], sep + Join(parts[1..], sep));
      assert [] + parts[0] + (sep + Join(parts[1..], sep)) == Join(parts, sep);
    } else {
      JoinContains(parts[1..], sep, i - 1);
      ContainsAfter(parts[0] + sep, Join(parts[1..], sep), parts[i]);
    }
  }

  /** The index of the first occurrence of `needle` in `hay`, if any. */
  function Find(hay: string, needle: string): (r: Option<nat>)
    ensures r.Some? ==> r.value + |needle| <= |hay| && needle <= hay[r.value..]
    decreases |hay|
  {
    if needle <= hay then Some(0)
    else if hay == [] then None
    else
      match Find(hay[1..], needle)
      case Some(i) => Some(i + 1)
      case None => None
  }

  /** `Find` succeeds exactly when the text occurs, and finds the first
      occurrence. */
  lemma {:induction false} FindFirst(hay: string, needle: string)
    ensures Find(hay, needle).Some? <==> Contains(hay, needle)
    ensures Find(hay, needle).Some? ==> forall j :: 0 <= j < Find(hay, needle).value ==> !(needle <= hay[j..])
    decreases |hay|
  {
    if !(needle <= hay) && hay != [] {
      FindFirst(hay[1..], needle);
      if Find(hay[1..], needle).Some? {
        forall j | 0 < j < Find(hay, needle).value ensures !(needle <= hay[j..]) {
          assert hay[j..] == hay[1..][j - 1..];
        }
      }
    }
  }

  /** `re.sub(pat, rep, s)` for a pattern that matches only the literal text
      `pat`: every occurrence, scanning from the left and resuming after
      each replaced one, becomes `rep`. */
  function ReplaceAll(s: string, pat: string, rep: string): (r: string)
    requires pat != []
    decreases |s|
  {
    if s == [] then []
    else if pat <= s then rep + ReplaceAll(s[|pat|..], pat, rep)
    else [s[0]] + ReplaceAll(s[1..], pat, rep)
  }

  /** Text without an occurrence of the pattern comes back unchanged. */
  lemma {:induction false} ReplaceAllAbsent(s: string, pat: string, rep: string)
    requires pat != [] && !Contains(s, pat)
    ensures ReplaceAll(s, pat, rep) == s
    decreases |s|
  {
    if s != [] {
      ReplaceAllAbsent(s[1..], pat, rep);
    }
  }

  /** Replacing the pattern by itself changes nothing. */
  lemma {:induction false} ReplaceAllSelf(s: string, pat: string)
    requires pat != []
    ensures ReplaceAll(s, pat, pat) == s
    decreases |s|
  {
    if s != [] {
      if pat <= s {
        ReplaceAllSelf(s[|pat|..], pat);
        assert s == pat + s[|pat|..];
      } else {
        ReplaceAllSelf(s[1..], pat);
        assert s == [s[0]] + s[1..];
      }
    }
  }

  /** Once the pattern occurs, the replacement occurs in the result. */
  lemma {:induction false} ReplaceAllPresent(s: string, pat: string, rep: string)
    requires pat != [] && Contains(s, pat)
    ensures Contains(ReplaceAll(s, pat, rep), rep)
    decreases |s|
  {
    if pat <= s {
      ContainsSuffix([], rep, ReplaceAll(s[|pat|..], pat, rep));
      assert [] + rep + ReplaceAll(s[|pat|..], pat, rep) == ReplaceAll(s, pat, rep);
    } else {
      ReplaceAllPresent(s[1..], pat, rep);
      ContainsAfter([s[0]], ReplaceAll(s[1..], pat, rep), rep);
    }
  }

  function Repeat(c: char, n: nat): (r: string)
    ensures |r| == n
    ensures forall i :: 0 <= i < n ==> r[i] == c
  {
    if n == 0 then [] else [c] + Repeat(c, n - 1)
  }
}

=== FILE: src/visualizer.dfy ===
/** The structure visualiser (`utils/model_visualizer.py`): peeling
    `Optional`/`Union`/`List` off a field annotation, and printing a model
    back as a Markdown heading outline next to its skeleton.  Printing is
    appending a line to an `Output`. */
module Visualizer {
  import opened Wrappers
  import opened Text
  import opened Schema
  import opened Skeleton

  // ---------------------------------------------------------------------
  // `resolve_actual_type`
  // ---------------------------------------------------------------------

  /** `(actual_type, is_list, is_optional)`. */
  datatype Resolved = Resolved(actual: TypeExpr, isList: bool, isOptional: bool)

  /** What `resolve_actual_type` raises on annotations `typing` itself never
      builds: `next` over a union of nothing but `None` (`StopIteration`)
      and `args[0]` of an empty union (`IndexError`). */
  datatype ResolveError = NoConcreteMember | EmptyUnion

  /** `resolve_actual_type(annotation)`. */
  function Resolve(t: TypeExpr): (r: Result<Resolved, ResolveError>)
    ensures r.Ok? ==> r.value.actual == t || r.value.actual < t
    decreases t
  {
    match t
    case TUnion(args) =>
      if TNone in args then
        var k := FirstNotNone(args);
        if k == |args| then Err(NoConcreteMember)
        else
          var inner :- Resolve(args[k]);
          Ok(Resolved(inner.actual, inner.isList, true))
      else if args == [] then Err(EmptyUnion)
      else Ok(Resolved(args[0], false, false))
    case TList(args) =>
      if args == [] then Ok(Resolved(t, true, false))
      else
        var inner :- Resolve(args[0]);
        Ok(Resolved(inner.actual, true, inner.isOptional))
    case _ => Ok(Resolved(t, false, false))
  }

  /** An annotation `resolve_actual_type` hands back unchanged. */
  predicate Plain(t: TypeExpr) {
    !t.TUnion? && !t.TList?
  }

  /** Any other annotation is returned as it is, with both flags off. */
  lemma ResolvePlain(t: TypeExpr)
    requires Plain(t)
    ensures Resolve(t) == Ok(Resolved(t, false, false))
  {
  }

  /** A union without `None` resolves to its first member, unexamined, with
      both flags off. */
  lemma ResolveUnionFirst(args: seq<TypeExpr>)
    requires args != [] && TNone !in args
    ensures Resolve(TUnion(args)) == Ok(Resolved(args[0], false, false))
  {
  }

  /** `Optional[T]`: optional, with the actual type and the list flag of
      `T`. */
  lemma ResolveOptional(args: seq<TypeExpr>, k: nat)
    requires TNone in args && k < |args| && args[k] != TNone
    requires forall i :: 0 <= i < k ==> args[i] == TNone
    ensures Resolve(args[k]).Ok? ==>
      Resolve(TUnion(args)) == Ok(Resolved(Resolve(args[k]).value.actual, Resolve(args[k]).value.isList, true))
    ensures Resolve(args[k]).Err? ==> Resolve(TUnion(args)) == Resolve(args[k])
  {
  }

  /** `List[T]`: a list, with the actual type and the optional flag of `T`. */
  lemma ResolveList(elem: TypeExpr)
    ensures Resolve(elem).Ok? ==>
      Resolve(TList([elem])) == Ok(Resolved(Resolve(elem).value.actual, true, Resolve(elem).value.isOptional))
    ensures Resolve(elem).Err? ==> Resolve(TList([elem])) == Resolve(elem)
  {
  }

  /** One wrapper around an annotation: `Optional[...]` or `List[...]`. */
  datatype Layer = OptLayer | ListLayer

  /** The annotation `ls[0][ls[1][... base]]`. */
  function Wrap(ls: seq<Layer>, base: TypeExpr): (t: TypeExpr)
    ensures ls == [] ==> t == base
    ensures ls != [] && ls[0] == OptLayer ==> t.TUnion?
    ensures ls != [] && ls[0] == ListLayer ==> t.TList?
  {
    if ls == [] then base
    else if ls[0] == OptLayer then TUnion([Wrap(ls[1..], base), TNone])
    else TList([Wrap(ls[1..], base)])
  }

  /** However `Optional` and `List` are nested around a plain type, the
      result is that type, a list exactly when some layer is `List`, and
      optional exactly when some layer is `Optional`. */
  lemma {:induction false} ResolveLayers(ls: seq<Layer>, base: TypeExpr)
    requires Plain(base) && base != TNone
    ensures Resolve(Wrap(ls, base)) == Ok(Resolved(base, ListLayer in ls, OptLayer in ls))
    decreases |ls|
  {
    if ls != [] {
      ResolveLayers(ls[1..], base);
      var inner := Wrap(ls[1..], base);
      assert inner != TNone by {
        if ls[1..] == [] { assert inner == base; }
      }
      assert ListLayer in ls <==> ls[0] == ListLayer || ListLayer in ls[1..] by {
        assert ls == [ls[0]] + ls[1..];
      }
      assert OptLayer in ls <==> ls[0] == OptLayer || OptLayer in ls[1..] by {
        assert ls == [ls[0]] + ls[1..];
      }
      if ls[0] == OptLayer {
        assert FirstNotNone([inner, TNone]) == 0;
      }
    }
  }

  /** `Optional[List[str]]` and `List[Optional[str]]` resolve alike. */
  lemma OptionalListAlike()
    ensures Resolve(TUnion([TList([TStr]), TNone])) == Ok(Resolved(TStr, true, true))
    ensures Resolve(TList([TUnion([TStr, TNone])])) == Ok(Resolved(TStr, true, true))
  {
    ResolveLayers([OptLayer, ListLayer], TStr);
    assert Wrap([OptLayer, ListLayer], TStr) == TUnion([TList([TStr]), TNone]) by {
      assert [OptLayer, ListLayer][1..] == [ListLayer];
    }
    ResolveLayers([ListLayer, OptLayer], TStr);
    assert Wrap([ListLayer, OptLayer], TStr) == TList([TUnion([TStr, TNone])]) by {
      assert [ListLayer, OptLayer][1..] == [OptLayer];
    }
  }

  // ---------------------------------------------------------------------
  // `print_markdown_structure`
  // ---------------------------------------------------------------------

  const SummaryTitle := "概要说明"
  const Unnamed := "Unnamed"

  /** The heading text of a field: its `markdown_title` when the entry is
      there (even empty), `概要说明` for a `summary` field without one, and
      `Unnamed` otherwise. */
  function VisTitle(f: Field): (title: string)
    ensures f.title.Some? ==> title == f.title.value
    ensures f.title.None? && f.name == "summary" ==> title == SummaryTitle
    ensures f.title.None? && f.name != "summary" ==> title == Unnamed
  {
    match f.title
    case Some(t) => t
    case None => if f.name == "summary" then SummaryTitle else Unnamed
  }

  /** One printed heading: its level and its text. */
  datatype Entry = Entry(depth: nat, title: string)

  /** The printed line of a heading. */
  function HeadingLine(e: Entry): string {
    Repeat('#', e.depth) + " " + e.title
  }

  function Render(es: seq<Entry>): (lines: seq<string>)
    ensures |lines| == |es|
  {
    if es == [] then [] else [HeadingLine(es[0])] + Render(es[1..])
  }

  lemma {:induction false} RenderAppend(a: seq<Entry>, b: seq<Entry>)
    ensures Render(a + b) == Render(a) + Render(b)
    decreases |a|
  {
    if a == [] {
      assert a + b == b;
    } else {
      assert (a + b)[1..] == a[1..] + b;
      RenderAppend(a[1..], b);
    }
  }

  /** The headings a (partial) walk printed, and the error that stopped it,
      if one did. */
  datatype Printed = Printed(entries: seq<Entry>, err: Option<ResolveError>)

  /** `print_markdown_structure(m, depth, parent_title=parent)`. */
  function Outline(m: ModelClass, depth: nat, parent: string): Printed
    decreases m, 3
  {
    OutlineUpTo(m, |m.fields|, depth, parent)
  }

  /** The walk over the first `n` fields of `m`. */
  function OutlineUpTo(m: ModelClass, n: nat, depth: nat, parent: string): Printed
    requires n <= |m.fields|
    decreases m, 2, n
  {
    if n == 0 then Printed([], None)
    else
      var p := OutlineUpTo(m, n - 1, depth, parent);
      if p.err.Some? then p
      else
        var h := FieldOutline(m, n - 1, depth, parent);
        Printed(p.entries + h.entries, h.err)
  }

  /** What field `i` of `m` prints: nothing but its model's fields, at the
      same depth, when its title repeats the parent's; otherwise its heading
      followed by its model's fields one level deeper. */
  function FieldOutline(m: ModelClass, i: nat, depth: nat, parent: string): Printed
    requires i < |m.fields|
    decreases m, 1
  {
    match Resolve(m.fields[i].annotation)
    case Err(e) => Printed([], Some(e))
    case Ok(res) => ResolvedOutline(m, i, res, depth, parent)
  }

  /** What field `i` prints once its annotation has resolved to `res`. */
  function ResolvedOutline(m: ModelClass, i: nat, res: Resolved, depth: nat, parent: string): Printed
    requires i < |m.fields|
    requires res.actual == m.fields[i].annotation || res.actual < m.fields[i].annotation
    decreases m, 0
  {
    var title := VisTitle(m.fields[i]);
    if title == parent then
      if res.actual.TModel? then Outline(res.actual.model, depth, title) else Printed([], None)
    else
      var head := [Entry(depth, title)];
      if res.actual.TModel? then
        var sub := Outline(res.actual.model, depth + 1, title);
        Printed(head + sub.entries, sub.err)
      else Printed(head, None)
  }

  /** One more field of a walk that has not failed. */
  lemma OutlineUpToStep(m: ModelClass, n: nat, depth: nat, parent: string)
    requires n < |m.fields| && OutlineUpTo(m, n, depth, parent).err.None?
    ensures OutlineUpTo(m, n + 1, depth, parent)
      == Printed(OutlineUpTo(m, n, depth, parent).entries + FieldOutline(m, n, depth, parent).entries,
                 FieldOutline(m, n, depth, parent).err)
  {
  }

  /** What one more field adds to the printed lines. */
  lemma RenderStep(m: ModelClass, n: nat, depth: nat, parent: string)
    requires n < |m.fields| && OutlineUpTo(m, n, depth, parent).err.None?
    ensures Render(OutlineUpTo(m, n + 1, depth, parent).entries)
      == Render(OutlineUpTo(m, n, depth, parent).entries) + Render(FieldOutline(m, n, depth, parent).entries)
    ensures OutlineUpTo(m, n + 1, depth, parent).err == FieldOutline(m, n, depth, parent).err
  {
    OutlineUpToStep(m, n, depth, parent);
    RenderAppend(OutlineUpTo(m, n, depth, parent).entries, FieldOutline(m, n, depth, parent).entries);
  }

  /** Every heading of a walk is at least as deep as it starts, and none at
      the starting depth repeats the parent's title. */
  predicate Below(es: seq<Entry>, depth: nat, parent: string) {
    forall j :: 0 <= j < |es| ==> es[j].depth >= depth && (es[j].depth == depth ==> es[j].title != parent)
  }

  lemma BelowAppend(a: seq<Entry>, b: seq<Entry>, depth: nat, parent: string)
    requires Below(a, depth, parent) && Below(b, depth, parent)
    ensures Below(a + b, depth, parent)
  {
    forall j | 0 <= j < |a + b| ensures (a + b)[j].depth >= depth && ((a + b)[j].depth == depth ==> (a + b)[j].title != parent) {
      if j < |a| { assert (a + b)[j] == a[j]; } else { assert (a + b)[j] == b[j - |a|]; }
    }
  }

  lemma BelowDeeper(es: seq<Entry>, depth: nat, title: string, parent: string)
    requires Below(es, depth + 1, title)
    ensures Below(es, depth, parent)
  {
  }

  /** No printed heading is shallower than the starting depth, and none at
      that depth repeats the parent's title. */
  lemma {:induction false} OutlineBelow(m: ModelClass, depth: nat, parent: string)
    ensures Below(Outline(m, depth, parent).entries, depth, parent)
    decreases m, 3
  {
    OutlineUpToBelow(m, |m.fields|, depth, parent);
  }

  lemma {:induction false} OutlineUpToBelow(m: ModelClass, n: nat, depth: nat, parent: string)
    requires n <= |m.fields|
    ensures Below(OutlineUpTo(m, n, depth, parent).entries, depth, parent)
    decreases m, 2, n
  {
    if n > 0 {
      OutlineUpToBelow(m, n - 1, depth, parent);
      var p := OutlineUpTo(m, n - 1, depth, parent);
      if p.err.None? {
        FieldOutlineBelow(m, n - 1, depth, parent);
        BelowAppend(p.entries, FieldOutline(m, n - 1, depth, parent).entries, depth, parent);
      }
    }
  }

  lemma {:induction false} FieldOutlineBelow(m: ModelClass, i: nat, depth: nat, parent: string)
    requires i < |m.fields|
    ensures Below(FieldOutline(m, i, depth, parent).entries, depth, parent)
    decreases m, 1
  {
    var r := Resolve(m.fields[i].annotation);
    if r.Ok? {
      ResolvedOutlineBelow(m, i, r.value, depth, parent);
    }
  }

  lemma {:induction false} ResolvedOutlineBelow(m: ModelClass, i: nat, res: Resolved, depth: nat, parent: string)
    requires i < |m.fields|
    requires res.actual == m.fields[i].annotation || res.actual < m.fields[i].annotation
    ensures Below(ResolvedOutline(m, i, res, depth, parent).entries, depth, parent)
    decreases m, 0
  {
    var title := VisTitle(m.fields[i]);
    if res.actual.TModel? {
      var sub := res.actual.model;
      if title == parent {
        OutlineBelow(sub, depth, title);
      } else {
        OutlineBelow(sub, depth + 1, title);
        BelowDeeper(Outline(sub, depth + 1, title).entries, depth, title, parent);
        BelowAppend([Entry(depth, title)], Outline(sub, depth + 1, title).entries, depth, parent);
      }
    }
  }

  /** A model none of whose fields is a model, repeats the parent's title,
      or fails to resolve prints one heading per field, in order, at the
      starting depth. */
  predicate FlatFields(m: ModelClass, parent: string) {
    forall i :: 0 <= i < |m.fields| ==>
      Resolve(m.fields[i].annotation).Ok? && !Resolve(m.fields[i].annotation).value.actual.TModel?
      && VisTitle(m.fields[i]) != parent
  }

  /** One heading per field, at the given depth. */
  function FieldEntries(fs: seq<Field>, depth: nat): (es: seq<Entry>)
    ensures |es| == |fs|
  {
    if fs == [] then [] else FieldEntries(fs[..|fs| - 1], depth) + [Entry(depth, VisTitle(fs[|fs| - 1]))]
  }

  lemma {:induction false} OutlineFlat(m: ModelClass, n: nat, depth: nat, parent: string)
    requires n <= |m.fields| && FlatFields(m, parent)
    ensures OutlineUpTo(m, n, depth, parent) == Printed(FieldEntries(m.fields[..n], depth), None)
    decreases n
  {
    if n > 0 {
      OutlineFlat(m, n - 1, depth, parent);
      OutlineUpToStep(m, n - 1, depth, parent);
      FlatField(m, n - 1, depth, parent);
      assert m.fields[..n][..n - 1] == m.fields[..n - 1];
    }
  }

  lemma FlatField(m: ModelClass, i: nat, depth: nat, parent: string)
    requires i < |m.fields| && FlatFields(m, parent)
    ensures FieldOutline(m, i, depth, parent) == Printed([Entry(depth, VisTitle(m.fields[i]))], None)
  {
    var res := Resolve(m.fields[i].annotation).value;
    assert FieldOutline(m, i, depth, parent) == ResolvedOutline(m, i, res, depth, parent);
  }

  /** A field whose title repeats its parent's prints no heading: a model
      field prints its model's fields at the same depth, under the same
      parent title, and any other field prints nothing. */
  lemma FieldSkipped(m: ModelClass, i: nat, depth: nat, parent: string)
    requires i < |m.fields| && Resolve(m.fields[i].annotation).Ok? && VisTitle(m.fields[i]) == parent
    ensures var a := Resolve(m.fields[i].annotation).value.actual;
            FieldOutline(m, i, depth, parent) == if a.TModel? then Outline(a.model, depth, parent) else Printed([], None)
  {
    var res := Resolve(m.fields[i].annotation).value;
    assert FieldOutline(m, i, depth, parent) == ResolvedOutline(m, i, res, depth, parent);
  }

  /** A model field with a new title prints its heading and then its
      model's fields one level deeper, under its own title. */
  lemma FieldNested(m: ModelClass, i: nat, depth: nat, parent: string)
    requires i < |m.fields| && Resolve(m.fields[i].annotation).Ok? && VisTitle(m.fields[i]) != parent
    requires Resolve(m.fields[i].annotation).value.actual.TModel?
    ensures var sub := Outline(Resolve(m.fields[i].annotation).value.actual.model, depth + 1, VisTitle(m.fields[i]));
            FieldOutline(m, i, depth, parent) == Printed([Entry(depth, VisTitle(m.fields[i]))] + sub.entries, sub.err)
  {
    var res := Resolve(m.fields[i].annotation).value;
    assert FieldOutline(m, i, depth, parent) == ResolvedOutline(m, i, res, depth, parent);
  }

  /** The walk stops at the first failure: once a prefix of the fields has
      failed, longer prefixes print nothing more. */
  lemma {:induction false} OutlineUpToStops(m: ModelClass, n: nat, n': nat, depth: nat, parent: string)
    requires n <= n' <= |m.fields|
    requires OutlineUpTo(m, n, depth, parent).err.Some?
    ensures OutlineUpTo(m, n', depth, parent) == OutlineUpTo(m, n, depth, parent)
    decreases n' - n
  {
    if n < n' {
      OutlineUpToStops(m, n, n' - 1, depth, parent);
    }
  }

  // ---------------------------------------------------------------------
  // printing
  // ---------------------------------------------------------------------

  /** Standard output, as the lines printed so far. */
  class Output {
    var lines: seq<string>

    constructor()
      ensures lines == []
    {
      lines := [];
    }

    method Print(line: string)
      modifies this
      ensures lines == old(lines) + [line]
    {
      lines := lines + [line];
    }
  }

  /** `print_markdown_structure(m, depth, parent_title=parent)`: the outline
      is printed, and an annotation that fails to resolve stops the walk
      with what was printed before it. */
  method PrintMarkdownStructure(out: Output, m: ModelClass, depth: nat, parent: string) returns (err: Option<ResolveError>)
    modifies out
    ensures out.lines == old(out.lines) + Render(Outline(m, depth, parent).entries)
    ensures err == Outline(m, depth, parent).err
    decreases m, 3
  {
    for i := 0 to |m.fields|
      invariant OutlineUpTo(m, i, depth, parent).err.None?
      invariant out.lines == old(out.lines) + Render(OutlineUpTo(m, i, depth, parent).entries)
    {
      err := PrintNext(out, m, i, depth, parent, old(out.lines));
      if err.Some? {
        OutlineUpToStops(m, i + 1, |m.fields|, depth, parent);
        return;
      }
    }
    err := None;
  }

  /** One turn of the field loop, in terms of the walk so far. */
  method PrintNext(out: Output, m: ModelClass, i: nat, depth: nat, parent: string, ghost start: seq<string>)
    returns (err: Option<ResolveError>)
    requires i < |m.fields| && OutlineUpTo(m, i, depth, parent).err.None?
    requires out.lines == start + Render(OutlineUpTo(m, i, depth, parent).entries)
    modifies out
    ensures out.lines == start + Render(OutlineUpTo(m, i + 1, depth, parent).entries)
    ensures err == OutlineUpTo(m, i + 1, depth, parent).err
    decreases m, 2
  {
    err := PrintField(out, m, i, depth, parent);
    RenderStep(m, i, depth, parent);
  }

  /** What one field prints: its resolved annotation, walked. */
  method PrintField(out: Output, m: ModelClass, i: nat, depth: nat, parent: string) returns (err: Option<ResolveError>)
    requires i < |m.fields|
    modifies out
    ensures out.lines == old(out.lines) + Render(FieldOutline(m, i, depth, parent).entries)
    ensures err == FieldOutline(m, i, depth, parent).err
    decreases m, 1
  {
    var res := Resolve(m.fields[i].annotation);
    if res.Err? {
      assert out.lines == old(out.lines) + Render([]);
      return Some(res.error);
    }
    err := PrintResolved(out, m, i, res.value, depth, parent);
  }

  /** The rest of the turn, once the annotation has resolved. */
  method PrintResolved(out: Output, m: ModelClass, i: nat, res: Resolved, depth: nat, parent: string)
    returns (err: Option<ResolveError>)
    requires i < |m.fields|
    requires res.actual == m.fields[i].annotation || res.actual < m.fields[i].annotation
    modifies out
    ensures out.lines == old(out.lines) + Render(ResolvedOutline(m, i, res, depth, parent).entries)
    ensures err == ResolvedOutline(m, i, res, depth, parent).err
    decreases m, 0
  {
    var title := VisTitle(m.fields[i]);
    err := None;
    if title == parent {
      if res.actual.TModel? {
        assert ResolvedOutline(m, i, res, depth, parent) == Outline(res.actual.model, depth, title);
        err := PrintMarkdownStructure(out, res.actual.model, depth, title);
      } else {
        assert ResolvedOutline(m, i, res, depth, parent) == Printed([], None);
        assert out.lines == old(out.lines) + Render([]);
      }
    } else {
      out.Print(HeadingLine(Entry(depth, title)));
      assert out.lines == old(out.lines) + Render([Entry(depth, title)]);
      if res.actual.TModel? {
        ghost var sub := Outline(res.actual.model, depth + 1, title);
        assert ResolvedOutline(m, i, res, depth, parent) == Printed([Entry(depth, title)] + sub.entries, sub.err);
        err := PrintMarkdownStructure(out, res.actual.model, depth + 1, title);
        RenderAppend([Entry(depth, title)], sub.entries);
      } else {
        assert ResolvedOutline(m, i, res, depth, parent) == Printed([Entry(depth, title)], None);
      }
    }
  }

  // ---------------------------------------------------------------------
  // `visualize_model`
  // ---------------------------------------------------------------------

  predicate IsHashOrSpace(c: char) { c == '#' || c == ' ' }

  /** The outline's top heading: the first level-1 heading of the skeleton
      with its markers removed, else the first line of the docstring with
      `#` and spaces trimmed, else `Root Model`. */
  function TopTitle(m: ModelClass): (title: string)
    ensures m.skeleton.Some? && TopHeadings(m.skeleton.value) != [] ==>
      title == Strip(TopHeadings(m.skeleton.value)[0])
    ensures (m.skeleton.None? || TopHeadings(m.skeleton.value) == []) && (m.doc.None? || m.doc.value == "") ==>
      title == "Root Model"
  {
    var fromDoc :=
      if m.doc.Some? && m.doc.value != "" then StripBy(Split(Strip(m.doc.value), '\n')[0], IsHashOrSpace)
      else "Root Model";
    if m.skeleton.Some? && TopHeadings(m.skeleton.value) != [] then Strip(TopHeadings(m.skeleton.value)[0])
    else fromDoc
  }

  /** A skeleton whose first line is `# title` names the outline after it. */
  lemma TopTitleFromSkeleton(m: ModelClass, title: string, rest: string)
    requires m.skeleton == Some("# " + title + "\n" + rest)
    requires title != [] && !IsSpace(title[0]) && '\n' !in title
    requires StripIdMarkers(m.skeleton.value) == m.skeleton.value
    ensures TopTitle(m) == Strip(title)
  {
    HeadingsFirstLine(title, rest);
  }

  /** `"=" * 80`. */
  const Rule := "================================================================================"

  /** The lines printed before the outline. */
  function Banner(m: ModelClass): (lines: seq<string>)
    ensures |lines| == 5
  {
    ["\n" + Rule, " Model: " + m.name, Rule, "\n### [Generated Markdown Structure]", "```markdown"]
  }

  /** The lines printed after a complete outline: the skeleton, when the
      class has one, in its own block. */
  function Closing(m: ModelClass): (lines: seq<string>)
    ensures m.skeleton.Some? ==> |lines| == 6 && lines[3] == m.skeleton.value
    ensures m.skeleton.None? ==> |lines| == 2
  {
    var skeleton :=
      if m.skeleton.Some? then ["\n### [Original Business Architecture]", "```markdown", m.skeleton.value, "```"] else [];
    ["```"] + skeleton + [Rule + "\n"]
  }

  /** Everything `visualize_model` prints for `m` with top heading `top`,
      and the error that cut it short, if any: the banner, the top heading,
      the outline two levels down, and the closing lines unless the
      outline failed. */
  function Shown(m: ModelClass, top: string): (r: (seq<string>, Option<ResolveError>))
    ensures var o := Outline(m, 2, top);
      |r.0| >= 6 + |o.entries| && r.0[5] == "# " + top && r.0[6..6 + |o.entries|] == Render(o.entries)
    ensures r.1 == Outline(m, 2, top).err
    ensures r.1.None? <==> |r.0| > 6 + |Outline(m, 2, top).entries| && r.0[|r.0| - 1] == Rule + "\n"
  {
    var o := Outline(m, 2, top);
    var printed := Banner(m) + ["# " + top] + Render(o.entries);
    if o.err.Some? then (printed, o.err) else (printed + Closing(m), None)
  }

  /** `visualize_model(m)`. */
  method VisualizeModel(out: Output, m: ModelClass) returns (err: Option<ResolveError>)
    modifies out
    ensures out.lines == old(out.lines) + Shown(m, TopTitle(m)).0
    ensures err == Shown(m, TopTitle(m)).1
  {
    var top := TopTitle(m);
    err := Show(out, m, top);
  }

  method Show(out: Output, m: ModelClass, top: string) returns (err: Option<ResolveError>)
    modifies out
    ensures out.lines == old(out.lines) + Shown(m, top).0
    ensures err == Shown(m, top).1
  {
    PrintBanner(out, m);
    out.Print("# " + top);
    err := PrintMarkdownStructure(out, m, 2, top);
    ghost var printed := Banner(m) + ["# " + top] + Render(Outline(m, 2, top).entries);
    assert out.lines == old(out.lines) + printed;
    if err.Some? {
      return;
    }
    PrintClosing(out, m);
    assert out.lines == old(out.lines) + (printed + Closing(m));
  }

  method PrintBanner(out: Output, m: ModelClass)
    modifies out
    ensures out.lines == old(out.lines) + Banner(m)
  {
    out.Print("\n" + Rule);
    out.Print(" Model: " + m.name);
    out.Print(Rule);
    out.Print("\n### [Generated Markdown Structure]");
    out.Print("```markdown");
  }

  method PrintClosing(out: Output, m: ModelClass)
    modifies out
    ensures out.lines == old(out.lines) + Closing(m)
  {
    out.Print("```");
    if m.skeleton.Some? {
      out.Print("\n### [Original Business Architecture]");
      out.Print("```markdown");
      out.Print(m.skeleton.value);
      out.Print("```");
    }
    out.Print(Rule + "\n");
  }
}

=== FILE: src/wrappers.dfy ===
/** Option and Result, the failure-compatible wrappers the rest of the model
    uses for Python's `None` results and raised exceptions. */
module Wrappers {

  datatype Option<+T> = None | Some(value: T) {
    function GetOr(default: T): T {
      match this
      case Some(v) => v
      case None => default
    }
  }

  datatype Result<+R, +E> = Ok(value: R) | Err(error: E) {
    predicate IsFailure() {
      Err?
    }

    function PropagateFailure<U>(): Result<U, E>
      requires Err?
    {
      Err(error)
    }

    function Extract(): R
      requires Ok?
    {
      value
    }
  }
}
